=== FILE: README.md ===
# Product-to-laboratory mapping: a Dafny model

This project models the logic of a small Streamlit application. Users upload a
laboratories file and a products file. The application joins each product to
its laboratory so that the product carries the laboratory's company, and
offers the result as a CSV download. Users log in against a user store.
Administrators change other users' roles and passwords.

The application exists in two versions. The model covers both.

- `app.py` is the single-page version. It has:
  - a user table read from `users.csv`;
  - a session with two keys, `authenticated` and `role`;
  - a mapping that casts the join keys to text, merges with pandas' default
    suffixes `_x`/`_y`, drops the laboratory's `ID_y` and fills only the
    `Entreprise ID` column.
- `pages/` is the multi-page version:
  - `1_Connexion.py` checks credentials against Firebase Authentication and
    the Firestore `users` collection. Its session has four keys.
  - `2_Mapping.py` is open to logged-in visitors only. It merges without any
    cast, uses the suffixes `_produit`/`_labo`, keeps both identifier
    columns and fills every missing cell.
  - `3_Administration.py` admits logged-in administrators only. It lists the
    user documents and writes a new role or a new password hash.

Modules:

| module | file | what it holds |
|---|---|---|
| `Wrappers` | wrappers.dfy | `Option` and `Result` |
| `Frame` | frame.dfy | the pandas operations the pages use, on positional tables (see below) |
| `Merge` | merge.dfy | `DataFrame.merge(how="left")`: label suffixing, the join, its membership and cardinality |
| `Schema` | schema.dfy | the required column sets, the column check, the renaming, the placeholder `"Non assignée"` |
| `Utf8` | utf8.dfy | UTF-8 encoding (section 3 of RFC 3629) and a strict decoder |
| `Csv` | csv.dfy | `to_csv` with minimal quoting, and a reader for what it writes |
| `Export` | export.dfy | the download `df.to_csv(index=False).encode("utf-8")` |
| `Session` | session.dfy | `st.session_state` as a map from key to value |
| `App` | app.dfy | login, session and mapping of the single-page version |
| `Connexion` | connexion.dfy | the login page |
| `MappingPage` | mappingpage.dfy | the mapping page |
| `Directory` | directory.dfy | the `users` collection and `document(uid).update(...)` |
| `Administration` | administration.dfy | the administration page |
| `Flows` | flows.dfy | how the three pages interact through the session and the collection |

How pandas is modelled:

- A table is a sequence of column labels and a sequence of rows. Each row is a
  sequence of cells, `Null` or `Str(text)`.
- Rows are positional, not maps. Stripping labels can make two labels equal,
  and pandas keeps both columns. Every column operation here acts on every
  column that carries the label, as pandas does.
- `str.strip()` removes exactly the characters `str.isspace()` accepts.
- `astype(str)` turns a missing cell into the text `"nan"`.
- A left merge appends the suffix to every label that both tables carry.
- The merge keeps each left row once per matching right row, in right order.
  A left row with no match is kept once, padded with missing cells.
- Missing keys match missing keys, as they do in pandas.
- The merge fails when a key label does not name exactly one column. pandas
  raises there, and the pages' `try` turns that into an error message.

Each operation has a partner that the lemmas connect it to:

- **Stripping.** `Strip` is characterised by `SpacedIn` and `Bare`, with
  `StripPadded` and `StripIdempotent`.
- **The join.** `JoinRows` is characterised by `JoinMembership` (a row is in
  the output exactly when it is a matched or padded product row) and by
  `JoinCardinality`.
- **Each pipeline.** Each pipeline is compared with an independent
  description of the expected result, `DescribedMapping`, through
  `RequiredLayoutMapping`. For uploads in any column layout,
  `App.MappedRows` and `MappingPage.MappedRows` list the output rows exactly.
  Each output row is a product followed by a matching laboratory, or a product
  padded with missing cells, then finished or filled. `App.FinishedRowLookup`
  reads every product and laboratory cell back out of such a row.
- **The export.** The download is inverted by a strict UTF-8 decoder and a CSV
  reader, in `ExportReadsBack`.
- **The sessions.** The session transitions keep the invariant `Consistent`.
- **The collection writes.** These are related to the next login in `Flows`.

Points where the code behaves in ways a reader might not expect, which the
model keeps:

- **Column labels on screen and in the check.** The instructions of `app.py`
  (lines 73-75) ask for the labels `ID`, `LABOS`, `ENTREPRISES` and `ID`,
  `NOM`, `ENTREPRISES`. The check at lines 140-143 compares labels exactly and
  requires `Labos`, `Entreprises` and `Nom`, `Enterprises`, so files labelled
  as the instructions say are rejected (`Schema.InstructedLayoutRejected`).
  The model calls the labels the check accepts the required layout.
- **Identifier columns.** In `app.py` the product's identifier comes out as
  `ID_x`, because the merge suffixes the shared label `ID`. The mapping page
  keeps both `ID_produit` and `ID_labo`; it drops no identifier column.
- **`Nom Laboratoire` for an unmatched product.** `app.py` fills only
  `Entreprise ID`, so this column stays missing for an unmatched product. Only
  the mapping page, which fills every column, shows the placeholder there.
- **Casting the keys.** The mapping page does not cast the keys to text, so
  pandas compares them with their column types. A `Labos` column read as
  integers and an `ID` column read as text make the merge raise, and the page
  shows an error. The model's cells are untyped text, so it compares them as
  they are (see Left out).
- **Missing columns.** The error for a missing column names the whole required
  set, not the missing column. The model reports which file failed, and
  checks the laboratories file first.
- **Sessions in `app.py`.** The session keeps no e-mail and no display name.

## Model

| member | source | states |
|---|---|---|
| Frame.Strip | app.py:136-137 | a stripped label neither starts nor ends with whitespace, and it occurs in the original label with only whitespace around it |
| Frame.StripPadded | app.py:136-137 | a label with whitespace on either side strips to the bare label, so padded headers are recognised |
| Frame.StripIdempotent | app.py:136-137 | stripping a stripped label changes nothing |
| Frame.StripColumns | pages/2_Mapping.py:80-81 | every label is stripped, in place; the rows, and so every cell, are untouched |
| Frame.MapColumn | app.py:164-166 | `df[name] = f(df[name])` changes exactly the cells under the label `name`; labels, row count and every other cell are kept |
| Frame.MapRowLookup | app.py:178 | reading a label in a mapped row gives `f` of the old cell under the mapped label and the old cell under any other |
| Frame.RenameColumns | app.py:172-174 | renaming relabels column by column and leaves the cells untouched |
| Frame.DropColumn | app.py:175 | `drop(columns=[name], errors="ignore")`: the label is gone, every other label is still present, and a table without the label comes back unchanged |
| Frame.DropKeepsOtherColumns | app.py:175 | after the drop, the value a row holds under any other label is the value it held before |
| Frame.DropColumnAt | app.py:175 | dropping a label found at one position removes that position from the labels and from every row |
| Frame.FilledRows | pages/2_Mapping.py:104 | every row of the input appears in the filled table with its missing cells filled, and every filled row is such an input row |
| Frame.FillNulls | pages/2_Mapping.py:104 | after `fillna`, no cell is missing; a cell that was missing holds the placeholder and every other cell is unchanged |
| Merge.LeftMerge | app.py:169 | the merge succeeds exactly when each key label names one column; the labels are the suffixed product labels then the suffixed laboratory labels, and every joined row is as wide as the labels |
| Merge.SuffixedShared | pages/2_Mapping.py:93-99 | a label that both tables carry comes out with the table's suffix appended |
| Merge.SuffixedMember | app.py:169 | a label not ending like the suffix is among a table's merged labels exactly when that table carries it and the other does not |
| Merge.JoinMembership | app.py:169 | a row is in the join exactly when it is a product row followed by a laboratory row with the same key, or a product row with no matching laboratory followed by missing cells |
| Merge.JoinCardinality | app.py:169 | the join has, per product row, as many rows as laboratories match it, or one row when none does |
| Merge.UniqueKeysOneRowEach | app.py:169 | with distinct laboratory keys the join has one row per product, in product order: the product followed by its laboratory, or by missing cells |
| Schema.Rename | app.py:172-174 | `Nom` becomes `Nom Laboratoire`, `Enterprises` becomes `Entreprise ID`, and every other label is kept |
| Schema.RenamedLabels | pages/2_Mapping.py:100-103 | after renaming, no label is `Nom` or `Enterprises`, and every other label is still present |
| Schema.Validate | app.py:136-147 | labels are stripped before the check; the laboratories file fails exactly when it lacks one of ID, Nom, Enterprises; the products file fails only when the laboratories file passed; success hands on both stripped tables |
| Schema.PaddedLabelsAccepted | app.py:136-143 | a label required of either file, padded with whitespace in the upload, is present after stripping and so satisfies the check |
| Schema.InstructedLayoutRejected | app.py:140-146 | files labelled in capitals as the instructions at lines 73-75 say fail the exact-match check: the laboratories file is refused, and a products file so labelled lacks a required label |
| Schema.RenamedCompany | app.py:172-174 | after renaming, a column is labelled `Entreprise ID` exactly when one was labelled `Enterprises` or `Entreprise ID` |
| App.Authenticate | app.py:26-31 | the login succeeds exactly when the first row with the user name has a hash the check accepts; it then returns that row's role, and otherwise (False, None); a hash `checkpw` cannot parse is not modelled (see Left out) |
| App.LaterDuplicatesIgnored | app.py:27-28 | appending a row with a user name already present never changes a verdict; only the first such row is consulted |
| App.Init | app.py:34-36 | a session without `authenticated` becomes logged out with no role; an existing session is left alone |
| App.Login | app.py:41-48 | a successful login stores the flag and the returned role; a failed one leaves the session unchanged |
| App.Logout | app.py:51 | logging out clears the flag and the role and changes no other key |
| App.RunAuthenticates | app.py:34-51 | after a run, the visitor is logged in exactly when they were and did not log out, or were not and submitted credentials that authenticate |
| App.FreshSession | app.py:34-36 | for every user table and hash check, a first visit yields the logged-out session with no role |
| App.FillUnassigned | app.py:178 | a missing company or the text "nan" becomes the placeholder, and any other value is kept |
| App.Finish | app.py:172-178 | succeeds exactly when the merge has a column labelled `Enterprises` or `Entreprise ID`, failing otherwise as the `KeyError` of line 178; the result keeps every row, loses `ID_y`, keeps every cell of the renamed merge outside `Entreprise ID`, and under `Entreprise ID` keeps present companies and puts the placeholder for missing or "nan" ones |
| App.FinishLookup | app.py:172-178 | under every label but `ID_y`, a finished row holds what the merged row held under that label, filled when the label is `Entreprise ID` |
| App.FinishRows | app.py:172-178 | the finished rows are exactly the merged rows, each without its `ID_y` cell and with its company filled |
| App.FinishedRowLookup | app.py:175-178 | under every label but `ID_y`, a finished row reads what the merged row held, filled under `Entreprise ID` |
| App.CastRows | app.py:164-166 | each cast laboratory row is the uploaded row with `ID` and `Enterprises` as text; each cast product row is the uploaded row with `Labos` as text |
| App.CastMergeRows | app.py:164-169 | a row is in the merge of the cast uploads exactly when it is a cast product followed by a cast laboratory whose `ID` as text equals the product's `Labos` as text, or a cast product no laboratory matches followed by missing cells |
| App.MappedRows | app.py:136-178 | for uploads in any column layout, a successful mapping carries the merged labels without `ID_y`, and its rows are exactly the finished forms of each cast product joined with each laboratory whose identifier, as text, equals its reference as text, and of each unmatched cast product padded with missing cells |
| App.CastRequiredLayout | app.py:164-166 | the laboratory identifier and company, and the product's laboratory reference, become text; the other cells are untouched |
| App.MapUploads | app.py:136-178 | column errors come straight from the check; after it, the mapping succeeds exactly when `Labos` and `ID` each label one column and `Enterprises` or `Entreprise ID` is carried by one upload only, and otherwise fails as a mapping failure; a result has one row per matching laboratory of each product (one when none matches), no `ID_y`, and a filled `Entreprise ID` |
| App.MergedOutcome | app.py:164-178 | the cast merge of validated uploads with unique key labels succeeds, has the merge's fan-out as its row count, and finishes exactly when the company label survives the suffixing |
| App.RequiredPipeline | app.py:140-178 | files whose stripped labels are in the required order pass the check and go through the cast and the merge unchanged |
| App.DropRequiredLayout | app.py:172-175 | the renamed merge loses exactly its laboratory-identifier column, and the labels are ID_x, Labos, Entreprises, Nom Laboratoire, Entreprise ID |
| App.FinishRequiredLayout | app.py:172-178 | each finished row is the merged row without the laboratory identifier, with its company filled |
| App.RequiredMatchedRow | app.py:164-169 | a product whose reference, as text, equals a laboratory's identifier as text is merged with that laboratory's cast cells |
| App.RequiredUnmatchedRow | app.py:164-169 | a product whose reference matches no laboratory is merged with three missing cells |
| App.RequiredLayoutMapping | app.py:136-178 | with distinct laboratory identifiers, the mapping equals the described table: one row per product in product order, the laboratory's name and company (placeholder when missing or "nan"), or no name and the placeholder |
| MappingPage.MapUploads | pages/2_Mapping.py:80-104 | column errors come straight from the check; past it, the mapping succeeds exactly when `Labos` and `ID` each name one column; the result carries the stripped product labels then the laboratory labels, those both uploads carry suffixed `_produit` and `_labo`, all renamed; it has at least one row per product and no missing cell |
| MappingPage.MapChecked | pages/2_Mapping.py:93-104 | on checked uploads, the mapping succeeds exactly when `Labos` and `ID` each name one column, fails otherwise as a mapping failure, and a result carries the suffixed and renamed labels, at least one row per product and no missing cell |
| MappingPage.PageLabels | pages/2_Mapping.py:93-103 | the labels of the page's merge, once renamed, are the product labels then the laboratory labels, shared ones suffixed `_produit` and `_labo`, each passed through the rename |
| MappingPage.MappedRows | pages/2_Mapping.py:80-104 | for uploads in any column layout, the rows of a successful mapping are exactly each product row followed by each laboratory row whose `ID` cell equals its `Labos` cell, and each product row no laboratory matches followed by missing cells, with every missing cell then holding the placeholder |
| MappingPage.MappedLabels | pages/2_Mapping.py:93-103 | a successful mapping keeps both `ID_produit` and `ID_labo`, and has no `Nom` or `Enterprises` label |
| MappingPage.Page | pages/2_Mapping.py:12-128 | the page stops exactly when `authenticated` is absent or false; it waits until both files are uploaded; it shows the mapping's error, or offers a download that reads back as the mapped table |
| MappingPage.UploadsAreProcessed | pages/2_Mapping.py:73-126 | with both files uploaded by an admitted visitor, the page offers a download exactly when the mapping succeeds and shows an error exactly when it fails |
| MappingPage.Fill | pages/2_Mapping.py:104 | `fillna` on one cell: the result is never missing, and text is kept |
| MappingPage.PageJoinRow | pages/2_Mapping.py:93-99 | with distinct laboratory identifiers, product row `i` is followed by the laboratory whose identifier cell equals its reference, or by three missing cells |
| MappingPage.RequiredLayoutMapping | pages/2_Mapping.py:80-104 | with distinct laboratory identifiers, the mapping equals the described table: one row per product in product order, each cell filled with the placeholder where missing, and three placeholders when no laboratory matches |
| Export.Records | pages/2_Mapping.py:110 | the written records are the header, then each row's cells as text, in order, each record as wide as the header (no index column) |
| Export.ToCsv | pages/2_Mapping.py:110 | the downloaded bytes decode as UTF-8 and parse back as the header and every row, cell for cell |
| Export.ExportReadsBack | app.py:186-187 | `to_csv(index=False).encode('utf-8')` is inverted by strict UTF-8 decoding followed by CSV reading |
| Utf8.EncodeChar | pages/2_Mapping.py:110 | a character encodes to one to four bytes: one byte for ASCII, otherwise a lead byte followed by continuation bytes |
| Utf8.DecodeEncode | pages/2_Mapping.py:110 | decoding the UTF-8 encoding of any text gives the text back |
| Utf8.EncodeDecode | pages/2_Mapping.py:110 | bytes the strict decoder accepts are exactly the encoding of what it returns |
| Csv.EncodeField | pages/2_Mapping.py:110 | a field without a comma, quote or line break is written as is; any other field is written quoted |
| Csv.QuotesDoubled | pages/2_Mapping.py:110 | escaping a field doubles each of its quotes and keeps every other character as often as it occurs, so the escaped field is longer by its number of quotes |
| Csv.ReadEncodedField | pages/2_Mapping.py:110 | a written field, followed by a separator or line end, reads back as the field |
| Csv.ReadEncodedRecord | pages/2_Mapping.py:110 | a written record, followed by the line end, reads back as its fields; this includes a single empty field |
| Csv.ReadEncodedDocument | pages/2_Mapping.py:110 | a written document reads back as its records |
| Connexion.AuthenticateUser | pages/1_Connexion.py:41-55 | the check succeeds exactly when the e-mail names an account whose document exists, has a password and matches; it then returns the role (`"user"` by default) and display name (the e-mail by default); otherwise it returns (False, None, None) |
| Connexion.SaveSession | pages/1_Connexion.py:57-61 | the four entries are overwritten with the given values and no other key changes |
| Connexion.LoadSession | pages/1_Connexion.py:63-68 | an uninitialised session becomes logged out with all four entries set; an initialised one is never overwritten |
| Connexion.LoadSessionIdempotent | pages/1_Connexion.py:63-68 | loading the session twice is loading it once |
| Connexion.Run | pages/1_Connexion.py:76-101 | after a run, the session has `authenticated`; a logout leaves it logged out; a plain visit only loads it |
| Connexion.RunEffect | pages/1_Connexion.py:76-101 | accepted credentials from a logged-out visitor store the e-mail, role and display name; a logout from a logged-in visitor stores the logged-out session; every other run leaves the session as it was |
| Connexion.FirstVisit | pages/1_Connexion.py:63-68 | a fresh visitor's first run leaves the logged-out session |
| Connexion.LoadedConsistent | pages/1_Connexion.py:63-68 | loading makes an uninitialised session consistent and keeps a consistent one consistent |
| Connexion.RunConsistent | pages/1_Connexion.py:57-101 | every run keeps the four entries present, the flag a boolean, and a logged-in session holding an e-mail, a role and a display name |
| Directory.Field | pages/3_Administration.py:35-37 | `doc.get(field, default)`: the stored value when present, the default otherwise |
| Directory.UpdateField | pages/3_Administration.py:12 | `update` of one field fails exactly when the document is absent; otherwise it sets that field and no other field or document changes |
| Directory.UpdateSameValue | pages/3_Administration.py:12 | writing a field's current value changes nothing |
| Directory.UpdateTwice | pages/3_Administration.py:12 | a later update of a field replaces an earlier one |
| Administration.Gate | pages/3_Administration.py:21-27 | entry is granted exactly to a session that is logged in with the role "admin"; a session that is not logged in is turned away first |
| Administration.Describe | pages/3_Administration.py:33-37 | a missing e-mail or display name shows as "", and a missing role as "user" |
| Administration.ListUsers | pages/3_Administration.py:31-42 | the list has one entry per document, in the collection's order |
| Administration.UpdateUserRole | pages/3_Administration.py:11-12 | only the `role` field of that user changes; other fields and other users are unchanged; an absent document fails |
| Administration.ResetUserPassword | pages/3_Administration.py:14-16 | only the `password` field of that user changes, to the hash of the new password with the fresh salt; other fields and users are unchanged |
| Administration.RoleName | pages/3_Administration.py:45 | every choice of the select box is "user" or "admin" |
| Administration.OfferedRoles | pages/3_Administration.py:45 | the select box offers exactly the roles "user" and "admin", one choice each |
| Administration.Apply | pages/3_Administration.py:45-57 | an empty new password is refused and changes nothing; a write to an absent document fails and changes nothing; otherwise the role or password write is applied |
| Administration.Page | pages/3_Administration.py:21-57 | a session the gate refuses changes nothing; an admitted one applies at most one press |
| Administration.ListAfterRoleChange | pages/3_Administration.py:31-48 | after a role change, the listed entry shows the new role with the same e-mail and display name |
| Flows.ConsistentSessionsAreReadable | pages/2_Mapping.py:37 | a session kept by the login page always has the `username` and `role` entries that the other pages read |
| Flows.LoginOpensPages | pages/1_Connexion.py:87-94 | after an accepted login, the mapping page admits the visitor, and the administration page admits them exactly when their role is "admin" |
| Flows.LogoutClosesPages | pages/1_Connexion.py:97-99 | after a logout, neither the mapping page nor the administration page admits the visitor |
| Flows.ResetThenLogin | pages/3_Administration.py:14-16 | after a password reset, logging in accepts exactly the passwords that match the new hash, including the new password |
| Flows.RoleChangeThenLogin | pages/3_Administration.py:11-12 | after a role change, the next login reports the new role with the same display name |

## Left out

- Streamlit rendering is left out because it is presentation:
  - titles, markdown, CSS, the logo and the footer year;
  - the previews, uploaders, download buttons and query parameters.
  The pages are modelled by what they compute and store.
- Firebase initialisation, the Firestore and Auth clients (`firebase_config.py`,
  `pages/1_Connexion.py:16-36`) and the `log_action` audit write
  (`pages/2_Mapping.py:23-31`) are external I/O.
  - The `users` collection is a map from uid to document.
  - Auth's lookup by e-mail is a map from e-mail to uid.
- Reading the uploads is left out: delimiter sniffing, `pd.read_csv`, and the
  `users.csv` load at `app.py:17-22`. The pages receive already-parsed tables
  and user rows. This is library and file I/O.
- bcrypt is not modelled inside:
  - `checkpw` is the parameter `check`;
  - `hashpw` is the parameter `hash`;
  - the fresh `gensalt()` is the parameter `salt`.
- Administration.ResetUserPassword: stated as "the stored value is `hash(p, salt)`" rather than "never `p` itself". Whether the hash can equal its input is a property of bcrypt, which is a parameter here.
- Timestamped download names (`pages/2_Mapping.py:113-114`) depend on the clock.
- `main.py` is a static landing page with no logic.
- Cell types are all text. pandas' typed columns (integers, floats) and their rendering in `to_csv` are not modelled.
- App.MapUploads: with text cells, `astype(str)` only turns a missing cell into "nan". In pandas, an integer column with a blank cell is read as floats, and `astype(str)` turns `1` into "1.0". Such a product then matches no laboratory whose `ID` is "1". The model matches cells with equal text, so it does not reproduce this miss.
- MappingPage.MapUploads: pandas refuses to merge an integer key column with a text one. The `ValueError` is caught at `pages/2_Mapping.py:125` and shown as an error. The model's cells are untyped, so such uploads merge here, and the page offers a download where the program shows an error.
- Merge.LeftMerge: pandas raises when suffixing produces a label that already exists, for example a product column already named `ID_x`. The model does not detect that and keeps both columns.
- The CSV line terminator is fixed to `\n`, pandas' default on Linux. The platform's `os.linesep` is not modelled.
- Lone surrogates cannot occur in a Dafny `char`, so the error path Python's UTF-8 encoder takes on them is not modelled.
- App.RunAuthenticates: states the flag only for sessions whose `authenticated` entry is a boolean. The page itself only ever stores booleans there.
- App.Authenticate: `bcrypt.checkpw` at `app.py:29` is not inside a `try`, so a stored value that is not a valid bcrypt hash (or a missing password cell) makes it raise and ends the run. Here `check` is a total function, so the model turns that crash into a refusal, (False, None).
- Error messages are not modelled as text. Each failure is a `MappingError` or `WriteError` constructor.

=== FILE: administration.dfy ===
/**
 * pages/3_Administration.py, the administration page: a gate that admits
 * logged-in administrators only, the list of user documents with defaults for
 * missing fields, and the two writes an administrator can make, a new role
 * and a new password.
 */
module Administration {
  import opened Wrappers
  import opened Session
  import opened Directory

  // ---------------------------------------------------------------------------
  // The gate
  // ---------------------------------------------------------------------------

  /** How the gate at lines 21-27 ends. */
  datatype Access =
    | Granted
    | NotLoggedIn  // lines 21-23
    | NotAdmin     // lines 25-27
    | RoleUnset    // line 25 reads a `role` entry the session lacks

  /** Lines 21-27: a truthy `authenticated` entry first, then the role `"admin"`. */
  function Gate(st: Store): (r: Access)
    ensures r == Granted <==> IsAuthenticated(st) && "role" in st && st["role"] == Text("admin")
    ensures r == NotLoggedIn <==> !IsAuthenticated(st)
    ensures r == RoleUnset <==> IsAuthenticated(st) && "role" !in st
  {
    if !IsAuthenticated(st) then NotLoggedIn
    else if "role" !in st then RoleUnset
    else if st["role"] != Text("admin") then NotAdmin
    else Granted
  }

  // ---------------------------------------------------------------------------
  // The list
  // ---------------------------------------------------------------------------

  /** One entry of the list at lines 32-42. */
  datatype Entry = Entry(uid: Uid, email: string, username: string, role: string)

  /** Lines 33-37: a missing e-mail or display name shows as empty, a missing role as `"user"`. */
  function Describe(uid: Uid, doc: Doc): (r: Entry)
    ensures r.uid == uid
    ensures r.email == Field(doc, "email", "")
    ensures r.username == Field(doc, "username", "")
    ensures r.role == Field(doc, "role", "user")
  {
    Entry(uid, Field(doc, "email", ""), Field(doc, "username", ""), Field(doc, "role", "user"))
  }

  /** Lines 31-42: the documents in the order the collection returns them. */
  function ListUsers(docs: seq<(Uid, Doc)>): (r: seq<Entry>)
    ensures |r| == |docs|
    ensures forall i :: 0 <= i < |docs| ==> r[i] == Describe(docs[i].0, docs[i].1)
  {
    seq(|docs|, i requires 0 <= i < |docs| => Describe(docs[i].0, docs[i].1))
  }

  // ---------------------------------------------------------------------------
  // The writes
  // ---------------------------------------------------------------------------

  /** Lines 11-12, `update_user_role`: the `role` field of one document. */
  function UpdateUserRole(users: Users, uid: Uid, role: string): (r: Result<Users, WriteError>)
    ensures r.Failure? <==> uid !in users
    ensures r.Success? ==>
      && r.value.Keys == users.Keys
      && r.value[uid].Keys == users[uid].Keys + {"role"}
      && r.value[uid]["role"] == role
      && (forall f :: f in users[uid] && f != "role" ==> r.value[uid][f] == users[uid][f])
      && (forall u :: u in users && u != uid ==> r.value[u] == users[u])
  {
    UpdateField(users, uid, "role", role)
  }

  /**
   * Lines 14-16, `reset_user_password`: the `password` field of one document
   * becomes `hash(password, salt)`; `hash` stands for `bcrypt.hashpw` and
   * `salt` for the fresh `bcrypt.gensalt()`.
   */
  function ResetUserPassword(users: Users, uid: Uid, password: string, salt: string,
                             hash: (string, string) -> string): (r: Result<Users, WriteError>)
    ensures r.Failure? <==> uid !in users
    ensures r.Success? ==>
      && r.value.Keys == users.Keys
      && r.value[uid].Keys == users[uid].Keys + {"password"}
      && r.value[uid]["password"] == hash(password, salt)
      && (forall f :: f in users[uid] && f != "password" ==> r.value[uid][f] == users[uid][f])
      && (forall u :: u in users && u != uid ==> r.value[u] == users[u])
  {
    UpdateField(users, uid, "password", hash(password, salt))
  }

  /** The choices of the role select box at line 45. */
  datatype RoleChoice = ChooseUser | ChooseAdmin

  /** The role a choice stands for. */
  function RoleName(c: RoleChoice): (r: string)
    ensures r == "user" || r == "admin"
  {
    match c
    case ChooseUser => "user"
    case ChooseAdmin => "admin"
  }

  /** The select box offers exactly the roles `"user"` and `"admin"`, one choice each. */
  lemma OfferedRoles()
    ensures (set c: RoleChoice | true :: RoleName(c)) == {"user", "admin"}
    ensures forall c1: RoleChoice, c2: RoleChoice :: RoleName(c1) == RoleName(c2) ==> c1 == c2
  {
    assert RoleName(ChooseUser) == "user" && RoleName(ChooseAdmin) == "admin";
  }

  /** The buttons an administrator presses for one listed user. */
  datatype Action =
    | ChangeRole(uid: Uid, choice: RoleChoice)       // lines 45-48
    | ResetPassword(uid: Uid, newPassword: string)   // lines 51-57

  /** How a press ends. */
  datatype Status =
    | Done
    | PasswordEmpty        // line 57
    | Failed(error: WriteError)

  /**
   * Lines 45-57: a role change is written as is; a password reset is written
   * only when the new password is not empty. The collection changes only when
   * the press ends in `Done`.
   */
  function Apply(users: Users, act: Action, salt: string, hash: (string, string) -> string): (r: (Users, Status))
    ensures r.1 != Done ==> r.0 == users
    ensures r.1 == PasswordEmpty <==> act.ResetPassword? && act.newPassword == []
    ensures r.1.Failed? <==> act.uid !in users && !(act.ResetPassword? && act.newPassword == [])
    ensures r.1 == Done && act.ChangeRole? ==> UpdateUserRole(users, act.uid, RoleName(act.choice)) == Success(r.0)
    ensures r.1 == Done && act.ResetPassword? ==>
      ResetUserPassword(users, act.uid, act.newPassword, salt, hash) == Success(r.0)
  {
    var w :=
      match act
      case ChangeRole(uid, c) => UpdateUserRole(users, uid, RoleName(c))
      case ResetPassword(uid, p) =>
        if p == [] then Success(users) else ResetUserPassword(users, uid, p, salt, hash);
    if act.ResetPassword? && act.newPassword == [] then (users, PasswordEmpty)
    else
      match w
      case Failure(e) => (users, Failed(e))
      case Success(u) => (u, Done)
  }

  /** What one run of the page does to the collection. */
  datatype Outcome = Denied(reason: Access) | Pressed(users: Users, status: Status)

  /** One run of the page: the gate, then at most one press. */
  function Page(st: Store, users: Users, act: Option<Action>, salt: string,
                hash: (string, string) -> string): (r: Outcome)
    ensures r.Denied? <==> Gate(st) != Granted
    ensures r.Denied? ==> r.reason == Gate(st)
    ensures r.Pressed? && act.None? ==> r.users == users && r.status == Done
    ensures r.Pressed? && act.Some? ==> (r.users, r.status) == Apply(users, act.value, salt, hash)
  {
    if Gate(st) != Granted then Denied(Gate(st))
    else
      match act
      case None => Pressed(users, Done)
      case Some(a) =>
        var (u, s) := Apply(users, a, salt, hash);
        Pressed(u, s)
  }

  /** After a role change the list shows the new role for that user and nothing else changes. */
  lemma ListAfterRoleChange(docs: seq<(Uid, Doc)>, users: Users, uid: Uid, c: RoleChoice, i: nat)
    requires uid in users
    requires i < |docs| && docs[i].0 == uid
    requires forall k :: 0 <= k < |docs| ==> docs[k].0 in users
    ensures var users' := UpdateUserRole(users, uid, RoleName(c)).value;
      var listed := ListUsers(seq(|docs|, k requires 0 <= k < |docs| => (docs[k].0, users'[docs[k].0])));
      && listed[i].role == RoleName(c)
      && listed[i].email == Field(users[uid], "email", "")
      && listed[i].username == Field(users[uid], "username", "")
  {
    var users' := UpdateUserRole(users, uid, RoleName(c)).value;
    var d := users'[uid];
    assert "role" in d && d["role"] == RoleName(c);
    assert Field(d, "email", "") == Field(users[uid], "email", "");
    assert Field(d, "username", "") == Field(users[uid], "username", "");
  }
}

=== FILE: app.dfy ===
/**
 * app.py, the single-page version of the application: login against the
 * `users.csv` table, a two-key session, and the mapping of products to
 * laboratories with the laboratory identifier cast to text and the
 * laboratory's own identifier column dropped.
 */
module App {
  import opened Wrappers
  import opened Frame
  import opened Schema
  import opened Merge
  import opened Session

  // ---------------------------------------------------------------------------
  // Credentials
  // ---------------------------------------------------------------------------

  /** One row of `users.csv`; `password` holds a bcrypt hash. */
  datatype UserRow = UserRow(username: string, password: string, role: string)

  /** Row `i` is the first row carrying `username`. */
  predicate IsFirstMatch(users: seq<UserRow>, username: string, i: int) {
    && 0 <= i < |users|
    && users[i].username == username
    && forall j :: 0 <= j < i ==> users[j].username != username
  }

  /** `users[users["username"] == username].iloc[0]`, by position. */
  function FirstMatch(users: seq<UserRow>, username: string): (r: Option<nat>)
    ensures r.Some? ==> IsFirstMatch(users, username, r.value)
    ensures r.None? <==> forall j :: 0 <= j < |users| ==> users[j].username != username
  {
    if users == [] then None
    else if users[0].username == username then Some(0)
    else
      match FirstMatch(users[1..], username)
      case None => None
      case Some(k) => Some(k + 1)
  }

  /**
   * `authenticate(username, password)`: the role of the first row with that
   * user name when the password matches its hash, `(False, None)` otherwise.
   * `check(password, hash)` stands for `bcrypt.checkpw`.
   */
  function Authenticate(users: seq<UserRow>, username: string, password: string,
                        check: (string, string) -> bool): (r: (bool, Option<string>))
    ensures r.0 <==> exists i :: IsFirstMatch(users, username, i) && check(password, users[i].password)
    ensures r.0 ==> exists i :: IsFirstMatch(users, username, i) && r.1 == Some(users[i].role)
    ensures !r.0 ==> r.1 == None
  {
    match FirstMatch(users, username)
    case None => (false, None)
    case Some(i) =>
      FirstMatchUnique(users, username, i);
      if check(password, users[i].password) then (true, Some(users[i].role)) else (false, None)
  }

  /** There is one first row for a user name. */
  lemma FirstMatchUnique(users: seq<UserRow>, username: string, i: int)
    requires IsFirstMatch(users, username, i)
    ensures forall j :: IsFirstMatch(users, username, j) ==> j == i
  {
  }

  /** Only the first row of a repeated user name is ever consulted. */
  lemma LaterDuplicatesIgnored(users: seq<UserRow>, row: UserRow, password: string, check: (string, string) -> bool)
    requires exists j :: 0 <= j < |users| && users[j].username == row.username
    ensures Authenticate(users + [row], row.username, password, check) == Authenticate(users, row.username, password, check)
  {
    var i := FirstMatch(users, row.username).value;
    assert IsFirstMatch(users + [row], row.username, i);
    assert FirstMatch(users + [row], row.username) == Some(i) by {
      var k := FirstMatch(users + [row], row.username).value;
      assert (users + [row])[i] == users[i];
    }
  }

  // ---------------------------------------------------------------------------
  // Session
  // ---------------------------------------------------------------------------

  /** The keys this page keeps. */
  const SessionKeys: set<string> := {"authenticated", "role"}

  /** Lines 34-36: a session without `authenticated` starts logged out with no role. */
  function Init(st: Store): (r: Store)
    ensures "authenticated" in r
    ensures "authenticated" in st ==> r == st
    ensures "authenticated" !in st ==>
      ChangesOnly(st, r, SessionKeys) && r["authenticated"] == Flag(false) && r["role"] == NoValue
  {
    if "authenticated" in st then st else st["authenticated" := Flag(false)]["role" := NoValue]
  }

  /** Lines 42-48: a successful login stores the flag and the role; a failed one changes nothing. */
  function Login(st: Store, users: seq<UserRow>, username: string, password: string,
                 check: (string, string) -> bool): (r: Store)
    ensures Authenticate(users, username, password, check).0 ==>
      ChangesOnly(st, r, SessionKeys) && r["authenticated"] == Flag(true)
      && r["role"] == FromOption(Authenticate(users, username, password, check).1)
    ensures !Authenticate(users, username, password, check).0 ==> r == st
  {
    var (ok, role) := Authenticate(users, username, password, check);
    if ok then st["authenticated" := Flag(true)]["role" := FromOption(role)] else st
  }

  /** Line 51: the logout button's callback clears the flag and the role. */
  function Logout(st: Store): (r: Store)
    ensures ChangesOnly(st, r, SessionKeys)
    ensures r["authenticated"] == Flag(false) && r["role"] == NoValue
    ensures !IsAuthenticated(r)
  {
    st["authenticated" := Flag(false)]["role" := NoValue]
  }

  /** What the visitor does during one run of the page. */
  datatype Event = Visit | SubmitLogin(username: string, password: string) | ClickLogout

  /**
   * One run of the page: the session is initialised, then the login form is
   * shown to a logged-out visitor and the logout button to a logged-in one.
   */
  function Run(st: Store, ev: Event, users: seq<UserRow>, check: (string, string) -> bool): (r: Store)
    ensures "authenticated" in r
  {
    var s := Init(st);
    if !Truthy(s["authenticated"]) then
      match ev
      case SubmitLogin(u, p) => Login(s, users, u, p, check)
      case _ => s
    else
      match ev
      case ClickLogout => Logout(s)
      case _ => s
  }

  /**
   * After a run the visitor is logged in exactly when they already were and did
   * not log out, or were not and submitted credentials that authenticate.
   */
  lemma RunAuthenticates(st: Store, ev: Event, users: seq<UserRow>, check: (string, string) -> bool)
    requires "authenticated" in st ==> st["authenticated"].Flag?
    ensures IsAuthenticated(Run(st, ev, users, check)) <==>
      if IsAuthenticated(st) then !ev.ClickLogout?
      else ev.SubmitLogin? && Authenticate(users, ev.username, ev.password, check).0
  {
  }

  /** A fresh visitor starts logged out with no role, whatever the user table and the hash check. */
  lemma FreshSession(users: seq<UserRow>, check: (string, string) -> bool)
    ensures Run(map[], Visit, users, check) == map["authenticated" := Flag(false), "role" := NoValue]
  {
  }

  // ---------------------------------------------------------------------------
  // Mapping
  // ---------------------------------------------------------------------------

  /** `Series.astype(str)` on text cells: a missing cell becomes the text "nan". */
  function AsText(c: Cell): (r: Cell)
    ensures r.Str?
    ensures c.Str? ==> r == c
    ensures c.Null? ==> r == Str("nan")
  {
    match c
    case Null => Str("nan")
    case Str(_) => c
  }

  /** Line 178: missing cells and the text "nan" become the placeholder. */
  function FillUnassigned(c: Cell): (r: Cell)
    ensures r != Null && r != Str("nan")
    ensures c != Null && c != Str("nan") ==> r == c
    ensures c == Null || c == Str("nan") ==> r == Str(Sentinel)
  {
    if c == Null || c == Str("nan") then Str(Sentinel) else c
  }

  /**
   * The shape of a finished mapping: rectangular, without the laboratory's
   * `ID_y`, and with an `Entreprise ID` column holding neither a missing cell
   * nor the text "nan".
   */
  predicate CompanyFilled(t: Table) {
    && WellFormed(t)
    && "ID_y" !in t.columns
    && "Entreprise ID" in t.columns
    && forall i, k :: 0 <= i < |t.rows| && 0 <= k < |t.columns| && t.columns[k] == "Entreprise ID" ==>
         t.rows[i][k] != Null && t.rows[i][k] != Str("nan")
  }

  /**
   * Lines 172-178: rename, drop the laboratory's `ID_y`, fill `Entreprise ID`.
   * Line 178 raises `KeyError` when no column is labelled `Entreprise ID`, that
   * is, when the merge produced neither `Enterprises` nor `Entreprise ID`.
   * Otherwise only the cells under `Entreprise ID` change.
   */
  function Finish(m: Table): (r: Result<Table, MappingError>)
    requires WellFormed(m)
    ensures r.Success? <==> "Enterprises" in m.columns || "Entreprise ID" in m.columns
    ensures r.Failure? ==> r.error == MappingFailure
    ensures r.Success? ==>
      && |r.value.rows| == |m.rows|
      && CompanyFilled(r.value)
    ensures r.Success? ==>
      var d := DropColumn(RenameColumns(m, Rename), "ID_y");
      && r.value.columns == d.columns
      && forall i, k :: 0 <= i < |d.rows| && 0 <= k < |d.columns| ==>
           r.value.rows[i][k] == if d.columns[k] == "Entreprise ID" then FillUnassigned(d.rows[i][k]) else d.rows[i][k]
  {
    var dropped := DropColumn(RenameColumns(m, Rename), "ID_y");
    RenamedCompany(m);
    if "Entreprise ID" !in dropped.columns then Failure(MappingFailure)
    else
      FilledCompany(dropped);
      Success(MapColumn(dropped, "Entreprise ID", FillUnassigned))
  }

  /**
   * Under every label but the dropped `ID_y`, a finished row holds what the
   * merged row held: the same cell, filled when the label is `Entreprise ID`.
   */
  lemma FinishLookup(m: Table, i: nat, c: string)
    requires WellFormed(m) && i < |m.rows| && c != "ID_y"
    requires Finish(m).Success?
    ensures |Finish(m).value.rows| == |m.rows| && |m.rows[i]| == |RenameColumns(m, Rename).columns|
    ensures Lookup(Finish(m).value.columns, Finish(m).value.rows[i], c) ==
      match Lookup(RenameColumns(m, Rename).columns, m.rows[i], c)
      case None => None
      case Some(x) => Some(if c == "Entreprise ID" then FillUnassigned(x) else x)
  {
    var t := RenameColumns(m, Rename);
    var d := DropColumn(t, "ID_y");
    assert "ID_y" in t.columns ==> d.rows[i] == DropCells(t.columns, t.rows[i], "ID_y") && d.columns == DropLabels(t.columns, "ID_y");
    if "ID_y" in t.columns {
      DropKeepsOtherColumns(t.columns, t.rows[i], "ID_y", c);
    }
    assert Lookup(d.columns, d.rows[i], c) == Lookup(t.columns, t.rows[i], c);
    assert Finish(m).value.rows[i] == MapRow(d.columns, d.rows[i], "Entreprise ID", FillUnassigned);
    MapRowLookup(d.columns, d.rows[i], "Entreprise ID", FillUnassigned, c);
  }

  /** Filling `Entreprise ID` leaves no missing or `"nan"` company in it. */
  lemma FilledCompany(t: Table)
    requires WellFormed(t) && "ID_y" !in t.columns && "Entreprise ID" in t.columns
    ensures CompanyFilled(MapColumn(t, "Entreprise ID", FillUnassigned))
  {
    var out := MapColumn(t, "Entreprise ID", FillUnassigned);
    forall i, k | 0 <= i < |out.rows| && 0 <= k < |out.columns| && out.columns[k] == "Entreprise ID"
      ensures out.rows[i][k] != Null && out.rows[i][k] != Str("nan")
    {
      assert out.rows[i] == MapRow(t.columns, t.rows[i], "Entreprise ID", FillUnassigned);
    }
  }

  /** Lines 164-166: the join keys and the company reference cast to text. */
  function CastKeys(l: Table, p: Table): (r: (Table, Table))
    requires WellFormed(l) && WellFormed(p)
    ensures WellFormed(r.0) && WellFormed(r.1)
    ensures r.0.columns == l.columns && r.1.columns == p.columns
    ensures |r.0.rows| == |l.rows| && |r.1.rows| == |p.rows|
  {
    (MapColumn(MapColumn(l, "ID", AsText), "Enterprises", AsText), MapColumn(p, "Labos", AsText))
  }

  /**
   * The merge keeps a column for the company reference exactly when some label
   * renames to `Entreprise ID` and escapes the suffixing: `Enterprises` or
   * `Entreprise ID` carried by one upload and not by the other.
   */
  predicate CompanyLabelSurvives(labCols: seq<string>, prodCols: seq<string>) {
    || ("Enterprises" in labCols && "Enterprises" !in prodCols)
    || ("Enterprises" in prodCols && "Enterprises" !in labCols)
    || ("Entreprise ID" in labCols && "Entreprise ID" !in prodCols)
    || ("Entreprise ID" in prodCols && "Entreprise ID" !in labCols)
  }

  /** The merged labels hold `Enterprises` or `Entreprise ID` exactly when the company label survives. */
  lemma MergedCompanyLabel(labCols: seq<string>, prodCols: seq<string>)
    ensures var mc := Suffixed(prodCols, labCols, "_x") + Suffixed(labCols, prodCols, "_y");
      ("Enterprises" in mc || "Entreprise ID" in mc) <==> CompanyLabelSurvives(labCols, prodCols)
  {
    SuffixedMember(prodCols, labCols, "_x", "Enterprises");
    SuffixedMember(labCols, prodCols, "_y", "Enterprises");
    SuffixedMember(prodCols, labCols, "_x", "Entreprise ID");
    SuffixedMember(labCols, prodCols, "_y", "Entreprise ID");
  }

  /**
   * How many rows the merge of line 169 yields: per product, one per
   * laboratory whose identifier, cast to text, equals the product's cast
   * laboratory reference, or one when there is none.
   */
  function MergedRowCount(l: Table, p: Table): (n: nat)
    requires WellFormed(l) && WellFormed(p) && Count(p.columns, "Labos") == 1 && Count(l.columns, "ID") == 1
    ensures n >= |p.rows|
  {
    var (l2, p2) := CastKeys(l, p);
    var pk, lk := IndexOf(p.columns, "Labos").value, IndexOf(l.columns, "ID").value;
    KeyColumn(p2, pk);
    KeyColumn(l2, lk);
    TotalFanOut(p2.rows, pk, l2.rows, lk)
  }

  /**
   * Lines 136-178: validate both uploads, cast the join keys and the company
   * reference to text, merge products with laboratories on `Labos` = `ID`,
   * rename, drop the laboratory's `ID_y`, and fill the `Entreprise ID` column.
   * pandas raises at line 169 when a key label is not unique, and at line 178
   * when no `Entreprise ID` column is left.
   */
  function MapUploads(labs: Table, prods: Table): (r: Result<Table, MappingError>)
    requires WellFormed(labs) && WellFormed(prods)
    ensures Validate(labs, prods).Failure? ==> r == Failure(Validate(labs, prods).error)
    ensures Validate(labs, prods).Success? ==>
      (r.Success? <==>
        && Count(StripColumns(prods).columns, "Labos") == 1
        && Count(StripColumns(labs).columns, "ID") == 1
        && CompanyLabelSurvives(StripColumns(labs).columns, StripColumns(prods).columns))
    ensures r.Failure? && Validate(labs, prods).Success? ==> r.error == MappingFailure
    ensures r.Success? ==>
      && |r.value.rows| == MergedRowCount(StripColumns(labs), StripColumns(prods))
      && |r.value.rows| >= |prods.rows|
      && CompanyFilled(r.value)
  {
    var v := Validate(labs, prods);
    if v.Failure? then Failure(v.error)
    else MapChecked(v.value.0, v.value.1)
  }

  /**
   * Lines 164-178 on uploads that passed the column check: cast, merge, rename,
   * drop `ID_y` and fill `Entreprise ID`.
   */
  function MapChecked(l: Table, p: Table): (r: Result<Table, MappingError>)
    requires WellFormed(l) && WellFormed(p)
    ensures r.Success? <==>
      Count(p.columns, "Labos") == 1 && Count(l.columns, "ID") == 1 && CompanyLabelSurvives(l.columns, p.columns)
    ensures r.Failure? ==> r.error == MappingFailure
    ensures r.Success? ==> |r.value.rows| == MergedRowCount(l, p) && CompanyFilled(r.value)
  {
    var (l2, p2) := CastKeys(l, p);
    var merged := LeftMerge(p2, "Labos", l2, "ID", "_x", "_y");
    if merged.Failure? then Failure(MappingFailure)
    else
      MergedOutcome(l, p);
      Finish(merged.value)
  }

  /** The cast merge of two validated uploads: its company label and its row count. */
  lemma MergedOutcome(l: Table, p: Table)
    requires WellFormed(l) && WellFormed(p) && Count(p.columns, "Labos") == 1 && Count(l.columns, "ID") == 1
    ensures var (l2, p2) := CastKeys(l, p);
      && LeftMerge(p2, "Labos", l2, "ID", "_x", "_y").Success?
      && (Finish(LeftMerge(p2, "Labos", l2, "ID", "_x", "_y").value).Success? <==> CompanyLabelSurvives(l.columns, p.columns))
      && |LeftMerge(p2, "Labos", l2, "ID", "_x", "_y").value.rows| == MergedRowCount(l, p)
  {
    var (l2, p2) := CastKeys(l, p);
    var m := LeftMerge(p2, "Labos", l2, "ID", "_x", "_y").value;
    MergedCompanyLabel(l.columns, p.columns);
    var pk, lk := IndexOf(p.columns, "Labos").value, IndexOf(l.columns, "ID").value;
    KeyColumn(p2, pk);
    KeyColumn(l2, lk);
    JoinCardinality(p2.rows, pk, l2.rows, lk, |l2.columns|);
  }

  /** Lines 164-165 on one laboratory row: its `ID` and `Enterprises` cells as text. */
  function CastLab(cols: seq<string>, row: seq<Cell>): (r: seq<Cell>)
    requires |row| == |cols|
    ensures |r| == |cols|
  {
    MapRow(cols, MapRow(cols, row, "ID", AsText), "Enterprises", AsText)
  }

  /** Line 166 on one product row: its `Labos` cell as text. */
  function CastProduct(cols: seq<string>, row: seq<Cell>): (r: seq<Cell>)
    requires |row| == |cols|
    ensures |r| == |cols|
  {
    MapRow(cols, row, "Labos", AsText)
  }

  /** A merged row under the renamed labels `rc` after lines 175-178: `ID_y` dropped, company filled. */
  function FinishedRow(rc: seq<string>, y: seq<Cell>): (r: seq<Cell>)
    requires |y| == |rc|
  {
    MapRow(DropLabels(rc, "ID_y"), DropCells(rc, y, "ID_y"), "Entreprise ID", FillUnassigned)
  }

  /**
   * Under every label but `ID_y`, a finished row reads what the merged row
   * held there, the company being filled.
   */
  lemma FinishedRowLookup(rc: seq<string>, y: seq<Cell>, c: string)
    requires |y| == |rc| && c != "ID_y"
    ensures |FinishedRow(rc, y)| == |DropLabels(rc, "ID_y")|
    ensures Lookup(DropLabels(rc, "ID_y"), FinishedRow(rc, y), c) ==
      match Lookup(rc, y, c)
      case None => None
      case Some(x) => Some(if c == "Entreprise ID" then FillUnassigned(x) else x)
  {
    DropKeepsOtherColumns(rc, y, "ID_y", c);
    MapRowLookup(DropLabels(rc, "ID_y"), DropCells(rc, y, "ID_y"), "Entreprise ID", FillUnassigned, c);
  }

  /** The finished rows are the finished forms of the merged rows. */
  lemma FinishRows(m: Table, o: seq<Cell>)
    requires WellFormed(m) && Finish(m).Success?
    ensures o in Finish(m).value.rows <==>
      exists q :: 0 <= q < |m.rows| && o == FinishedRow(RenameColumns(m, Rename).columns, m.rows[q])
  {
    var t := RenameColumns(m, Rename);
    var d := DropColumn(t, "ID_y");
    var out := Finish(m).value;
    forall q | 0 <= q < |m.rows| ensures out.rows[q] == FinishedRow(t.columns, m.rows[q]) {
      if "ID_y" !in t.columns {
        DropNothing(t.columns, t.rows[q], "ID_y");
      }
      assert d.rows[q] == DropCells(t.columns, t.rows[q], "ID_y");
      assert d.columns == DropLabels(t.columns, "ID_y");
      assert out.rows[q] == MapRow(d.columns, d.rows[q], "Entreprise ID", FillUnassigned);
    }
  }

  /** The cast tables hold the cast rows of the uploads. */
  lemma CastRows(l: Table, p: Table)
    requires WellFormed(l) && WellFormed(p)
    ensures forall j :: 0 <= j < |l.rows| ==> CastKeys(l, p).0.rows[j] == CastLab(l.columns, l.rows[j])
    ensures forall i :: 0 <= i < |p.rows| ==> CastKeys(l, p).1.rows[i] == CastProduct(p.columns, p.rows[i])
  {
    var l1 := MapColumn(l, "ID", AsText);
    forall j | 0 <= j < |l.rows| ensures CastKeys(l, p).0.rows[j] == CastLab(l.columns, l.rows[j]) {
      assert l1.rows[j] == MapRow(l.columns, l.rows[j], "ID", AsText);
    }
  }

  /** The `Labos` cell of a cast product row is the uploaded cell as text. */
  lemma CastProductKey(pc: seq<string>, prow: seq<Cell>, pk: nat)
    requires |prow| == |pc| && pk < |pc| && pc[pk] == "Labos"
    ensures CastProduct(pc, prow)[pk] == AsText(prow[pk])
  {
  }

  /** The `ID` cell of a cast laboratory row is the uploaded cell as text. */
  lemma CastLabKey(lc: seq<string>, lrow: seq<Cell>, lk: nat)
    requires |lrow| == |lc| && lk < |lc| && lc[lk] == "ID"
    ensures CastLab(lc, lrow)[lk] == AsText(lrow[lk])
  {
  }

  /** Product `i`'s `Labos` cell and laboratory `j`'s `ID` cell agree once cast to text. */
  predicate KeysAgree(l: Table, p: Table, pk: nat, lk: nat, i: nat, j: nat)
    requires WellFormed(l) && WellFormed(p) && pk < |p.columns| && lk < |l.columns|
    requires i < |p.rows| && j < |l.rows|
  {
    AsText(l.rows[j][lk]) == AsText(p.rows[i][pk])
  }

  /** No laboratory's `ID` agrees with product `i`'s `Labos` once cast to text. */
  predicate Unmatched(l: Table, p: Table, pk: nat, lk: nat, i: nat)
    requires WellFormed(l) && WellFormed(p) && pk < |p.columns| && lk < |l.columns|
    requires i < |p.rows|
  {
    forall j :: 0 <= j < |l.rows| ==> AsText(l.rows[j][lk]) != AsText(p.rows[i][pk])
  }

  /** Product `i` cast, followed by laboratory `j` cast: a merged row. */
  function CastPair(l: Table, p: Table, i: nat, j: nat): (y: seq<Cell>)
    requires WellFormed(l) && WellFormed(p) && i < |p.rows| && j < |l.rows|
    ensures |y| == |p.columns| + |l.columns|
  {
    CastProduct(p.columns, p.rows[i]) + CastLab(l.columns, l.rows[j])
  }

  /** Product `i` cast, followed by missing cells: the merged row of an unmatched product. */
  function CastPadded(l: Table, p: Table, i: nat): (y: seq<Cell>)
    requires WellFormed(p) && i < |p.rows|
    ensures |y| == |p.columns| + |l.columns|
  {
    CastProduct(p.columns, p.rows[i]) + NullRow(|l.columns|)
  }

  /** The finished form of a merged row of `l` and `p`. */
  function Finished(l: Table, p: Table, y: seq<Cell>): seq<Cell>
    requires |y| == |p.columns| + |l.columns|
  {
    FinishedRow(MergedLabels(l.columns, p.columns, "_x", "_y"), y)
  }

  /** `o` is the finished row of a matched pair or of a padded unmatched product. */
  predicate FromUploads(l: Table, p: Table, pk: nat, lk: nat, o: seq<Cell>)
    requires WellFormed(l) && WellFormed(p) && pk < |p.columns| && lk < |l.columns|
  {
    || (exists i, j :: 0 <= i < |p.rows| && 0 <= j < |l.rows| && KeysAgree(l, p, pk, lk, i, j)
          && o == Finished(l, p, CastPair(l, p, i, j)))
    || (exists i :: 0 <= i < |p.rows| && Unmatched(l, p, pk, lk, i) && o == Finished(l, p, CastPadded(l, p, i)))
  }

  /**
   * For uploads in any column layout, the rows of a successful mapping are
   * exactly the finished rows (the `ID_y` cell dropped and the company filled)
   * of each cast product followed by each cast laboratory whose identifier, as
   * text, equals the product's `Labos` cell as text, and of each cast product
   * that no laboratory matches followed by missing cells. `pk` and `lk` are the
   * positions of `Labos` and `ID`. The labels are the merged labels without
   * `ID_y`, so `FinishedRowLookup` says what such a row holds under each
   * label: every product and laboratory cell, the company filled.
   */
  lemma MappedRows(labs: Table, prods: Table, pk: nat, lk: nat, o: seq<Cell>)
    requires WellFormed(labs) && WellFormed(prods)
    requires IndexOf(StripColumns(prods).columns, "Labos") == Some(pk)
    requires IndexOf(StripColumns(labs).columns, "ID") == Some(lk)
    requires MapUploads(labs, prods).Success?
    ensures MapUploads(labs, prods).value.columns == DropLabels(MergedLabels(StripColumns(labs).columns, StripColumns(prods).columns, "_x", "_y"), "ID_y")
    ensures o in MapUploads(labs, prods).value.rows <==> FromUploads(StripColumns(labs), StripColumns(prods), pk, lk, o)
  {
    var l, p := StripColumns(labs), StripColumns(prods);
    assert Validate(labs, prods) == Success((l, p));
    CheckedIsFinish(l, p, pk, lk);
    FinishedMergeRows(l, p, pk, lk, o);
  }

  /** The join of the cast uploads, under the merge's labels before renaming. */
  function CastMerge(l: Table, p: Table, pk: nat, lk: nat): (m: Table)
    requires WellFormed(l) && WellFormed(p) && pk < |p.columns| && lk < |l.columns|
    ensures WellFormed(m) && |m.rows| >= |p.rows|
    ensures RenameColumns(m, Rename).columns == MergedLabels(l.columns, p.columns, "_x", "_y")
  {
    var (l2, p2) := CastKeys(l, p);
    MergedWellFormed(p2, pk, l2, lk, "_x", "_y");
    var m := Table(Suffixed(p.columns, l.columns, "_x") + Suffixed(l.columns, p.columns, "_y"),
                   JoinRows(p2.rows, pk, l2.rows, lk, |l.columns|));
    assert RenameColumns(m, Rename).columns == MergedLabels(l.columns, p.columns, "_x", "_y");
    m
  }

  /** A successful mapping of checked uploads is the finished cast merge. */
  lemma CheckedIsFinish(l: Table, p: Table, pk: nat, lk: nat)
    requires WellFormed(l) && WellFormed(p)
    requires IndexOf(p.columns, "Labos") == Some(pk) && IndexOf(l.columns, "ID") == Some(lk)
    requires MapChecked(l, p).Success?
    ensures Finish(CastMerge(l, p, pk, lk)).Success?
    ensures MapChecked(l, p) == Finish(CastMerge(l, p, pk, lk))
  {
    var (l2, p2) := CastKeys(l, p);
    assert LeftMerge(p2, "Labos", l2, "ID", "_x", "_y").value == CastMerge(l, p, pk, lk);
  }

  /** The rows of the cast merge are the cast matched pairs and the cast padded unmatched products. */
  lemma CastMergeRows(l: Table, p: Table, pk: nat, lk: nat, y: seq<Cell>)
    requires WellFormed(l) && WellFormed(p)
    requires IndexOf(p.columns, "Labos") == Some(pk) && IndexOf(l.columns, "ID") == Some(lk)
    ensures y in CastMerge(l, p, pk, lk).rows <==> CastOrigin(l, p, pk, lk, y)
  {
    var rows := CastMerge(l, p, pk, lk).rows;
    assert y in rows ==> CastOrigin(l, p, pk, lk, y) by {
      if y in rows {
        CastRowOrigin(l, p, pk, lk, y);
      }
    }
    assert CastOrigin(l, p, pk, lk, y) ==> y in rows by {
      if CastOrigin(l, p, pk, lk, y) {
        CastOriginIn(l, p, pk, lk, y);
      }
    }
  }

  /** A cast matched pair or cast padded unmatched product is a row of the cast merge. */
  lemma CastOriginIn(l: Table, p: Table, pk: nat, lk: nat, y: seq<Cell>)
    requires WellFormed(l) && WellFormed(p)
    requires IndexOf(p.columns, "Labos") == Some(pk) && IndexOf(l.columns, "ID") == Some(lk)
    requires CastOrigin(l, p, pk, lk, y)
    ensures y in CastMerge(l, p, pk, lk).rows
  {
    if i, j :| 0 <= i < |p.rows| && 0 <= j < |l.rows| && KeysAgree(l, p, pk, lk, i, j) && y == CastPair(l, p, i, j) {
      CastMatchedIn(l, p, pk, lk, i, j);
    } else {
      var i :| 0 <= i < |p.rows| && Unmatched(l, p, pk, lk, i) && y == CastPadded(l, p, i);
      CastUnmatchedIn(l, p, pk, lk, i);
    }
  }

  /** `y` is a cast matched pair or a cast padded unmatched product. */
  predicate CastOrigin(l: Table, p: Table, pk: nat, lk: nat, y: seq<Cell>)
    requires WellFormed(l) && WellFormed(p) && pk < |p.columns| && lk < |l.columns|
  {
    || (exists i, j :: 0 <= i < |p.rows| && 0 <= j < |l.rows| && KeysAgree(l, p, pk, lk, i, j) && y == CastPair(l, p, i, j))
    || (exists i :: 0 <= i < |p.rows| && Unmatched(l, p, pk, lk, i) && y == CastPadded(l, p, i))
  }

  /** The cast merge is the join of the cast tables on the cast keys. */
  lemma CastMergeJoin(l: Table, p: Table, pk: nat, lk: nat)
    requires WellFormed(l) && WellFormed(p)
    requires IndexOf(p.columns, "Labos") == Some(pk) && IndexOf(l.columns, "ID") == Some(lk)
    ensures KeyedBy(CastKeys(l, p).1.rows, pk) && KeyedBy(CastKeys(l, p).0.rows, lk)
    ensures CastMerge(l, p, pk, lk).rows == JoinRows(CastKeys(l, p).1.rows, pk, CastKeys(l, p).0.rows, lk, |l.columns|)
    ensures forall j :: 0 <= j < |l.rows| ==> CastKeys(l, p).0.rows[j] == CastLab(l.columns, l.rows[j])
    ensures forall i :: 0 <= i < |p.rows| ==> CastKeys(l, p).1.rows[i] == CastProduct(p.columns, p.rows[i])
    ensures |CastKeys(l, p).0.rows| == |l.rows| && |CastKeys(l, p).1.rows| == |p.rows|
  {
    KeyColumn(CastKeys(l, p).1, pk);
    KeyColumn(CastKeys(l, p).0, lk);
    CastRows(l, p);
  }

  /** A cast matched pair is a row of the cast merge. */
  lemma CastMatchedIn(l: Table, p: Table, pk: nat, lk: nat, i: nat, j: nat)
    requires WellFormed(l) && WellFormed(p)
    requires IndexOf(p.columns, "Labos") == Some(pk) && IndexOf(l.columns, "ID") == Some(lk)
    requires i < |p.rows| && j < |l.rows| && KeysAgree(l, p, pk, lk, i, j)
    ensures CastPair(l, p, i, j) in CastMerge(l, p, pk, lk).rows
  {
    var (l2, p2) := CastKeys(l, p);
    CastMergeJoin(l, p, pk, lk);
    CastKeyCells(l, p, pk, lk);
    assert IsMatchedRow(CastPair(l, p, i, j), p2.rows, pk, l2.rows, lk);
    JoinMembership(p2.rows, pk, l2.rows, lk, |l.columns|, CastPair(l, p, i, j));
  }

  /** A cast padded unmatched product is a row of the cast merge. */
  lemma CastUnmatchedIn(l: Table, p: Table, pk: nat, lk: nat, i: nat)
    requires WellFormed(l) && WellFormed(p)
    requires IndexOf(p.columns, "Labos") == Some(pk) && IndexOf(l.columns, "ID") == Some(lk)
    requires i < |p.rows| && Unmatched(l, p, pk, lk, i)
    ensures CastPadded(l, p, i) in CastMerge(l, p, pk, lk).rows
  {
    var (l2, p2) := CastKeys(l, p);
    CastMergeJoin(l, p, pk, lk);
    CastKeyCells(l, p, pk, lk);
    assert NoMatch(p2.rows[i][pk], l2.rows, lk);
    assert IsUnmatchedRow(CastPadded(l, p, i), p2.rows, pk, l2.rows, lk, |l.columns|);
    JoinMembership(p2.rows, pk, l2.rows, lk, |l.columns|, CastPadded(l, p, i));
  }

  /** Every row of the cast merge is a cast matched pair or a cast padded unmatched product. */
  lemma CastRowOrigin(l: Table, p: Table, pk: nat, lk: nat, y: seq<Cell>)
    requires WellFormed(l) && WellFormed(p)
    requires IndexOf(p.columns, "Labos") == Some(pk) && IndexOf(l.columns, "ID") == Some(lk)
    requires y in CastMerge(l, p, pk, lk).rows
    ensures CastOrigin(l, p, pk, lk, y)
  {
    var (l2, p2) := CastKeys(l, p);
    CastMergeJoin(l, p, pk, lk);
    CastKeyCells(l, p, pk, lk);
    JoinMembership(p2.rows, pk, l2.rows, lk, |l.columns|, y);
    if IsMatchedRow(y, p2.rows, pk, l2.rows, lk) {
      var i, j :| 0 <= i < |p2.rows| && 0 <= j < |l2.rows| && l2.rows[j][lk] == p2.rows[i][pk] && y == p2.rows[i] + l2.rows[j];
      CastPairOrigin(l, p, pk, lk, i, j);
    } else {
      var i :| 0 <= i < |p2.rows| && NoMatch(p2.rows[i][pk], l2.rows, lk) && y == p2.rows[i] + NullRow(|l.columns|);
      CastPaddedOrigin(l, p, pk, lk, i);
    }
  }

  /** A joined pair of cast rows is the cast pair of the uploads, with keys agreeing as text. */
  lemma CastPairOrigin(l: Table, p: Table, pk: nat, lk: nat, i: nat, j: nat)
    requires WellFormed(l) && WellFormed(p)
    requires IndexOf(p.columns, "Labos") == Some(pk) && IndexOf(l.columns, "ID") == Some(lk)
    requires i < |p.rows| && j < |l.rows|
    requires CastKeys(l, p).0.rows[j][lk] == CastKeys(l, p).1.rows[i][pk]
    ensures KeysAgree(l, p, pk, lk, i, j)
    ensures CastKeys(l, p).1.rows[i] + CastKeys(l, p).0.rows[j] == CastPair(l, p, i, j)
  {
    CastMergeJoin(l, p, pk, lk);
    CastKeyCells(l, p, pk, lk);
  }

  /** A cast product row no cast laboratory matches is unmatched in the uploads, padded as in `CastPadded`. */
  lemma CastPaddedOrigin(l: Table, p: Table, pk: nat, lk: nat, i: nat)
    requires WellFormed(l) && WellFormed(p)
    requires IndexOf(p.columns, "Labos") == Some(pk) && IndexOf(l.columns, "ID") == Some(lk)
    requires i < |p.rows|
    requires NoMatch(CastKeys(l, p).1.rows[i][pk], CastKeys(l, p).0.rows, lk)
    ensures Unmatched(l, p, pk, lk, i)
    ensures CastKeys(l, p).1.rows[i] + NullRow(|l.columns|) == CastPadded(l, p, i)
  {
    CastMergeJoin(l, p, pk, lk);
    CastKeyCells(l, p, pk, lk);
  }

  /** The key cells of the cast tables are the uploads' key cells as text. */
  lemma CastKeyCells(l: Table, p: Table, pk: nat, lk: nat)
    requires WellFormed(l) && WellFormed(p)
    requires IndexOf(p.columns, "Labos") == Some(pk) && IndexOf(l.columns, "ID") == Some(lk)
    ensures forall j :: 0 <= j < |l.rows| ==> CastKeys(l, p).0.rows[j][lk] == AsText(l.rows[j][lk])
    ensures forall i :: 0 <= i < |p.rows| ==> CastKeys(l, p).1.rows[i][pk] == AsText(p.rows[i][pk])
  {
    CastRows(l, p);
    forall j | 0 <= j < |l.rows| ensures CastKeys(l, p).0.rows[j][lk] == AsText(l.rows[j][lk]) {
      CastLabKey(l.columns, l.rows[j], lk);
    }
    forall i | 0 <= i < |p.rows| ensures CastKeys(l, p).1.rows[i][pk] == AsText(p.rows[i][pk]) {
      CastProductKey(p.columns, p.rows[i], pk);
    }
  }

  /** The rows of the finished cast merge are the finished matched pairs and padded unmatched products. */
  lemma FinishedMergeRows(l: Table, p: Table, pk: nat, lk: nat, o: seq<Cell>)
    requires WellFormed(l) && WellFormed(p)
    requires IndexOf(p.columns, "Labos") == Some(pk) && IndexOf(l.columns, "ID") == Some(lk)
    requires Finish(CastMerge(l, p, pk, lk)).Success?
    ensures o in Finish(CastMerge(l, p, pk, lk)).value.rows <==> FromUploads(l, p, pk, lk, o)
  {
    var rows := Finish(CastMerge(l, p, pk, lk)).value.rows;
    assert o in rows ==> FromUploads(l, p, pk, lk, o) by {
      if o in rows {
        FinishedOrigin(l, p, pk, lk, o);
      }
    }
    assert FromUploads(l, p, pk, lk, o) ==> o in rows by {
      if FromUploads(l, p, pk, lk, o) {
        FinishedFromUploads(l, p, pk, lk, o);
      }
    }
  }

  /** The finished form of a matched pair or of a padded unmatched product is a finished row. */
  lemma FinishedFromUploads(l: Table, p: Table, pk: nat, lk: nat, o: seq<Cell>)
    requires WellFormed(l) && WellFormed(p)
    requires IndexOf(p.columns, "Labos") == Some(pk) && IndexOf(l.columns, "ID") == Some(lk)
    requires Finish(CastMerge(l, p, pk, lk)).Success?
    requires FromUploads(l, p, pk, lk, o)
    ensures o in Finish(CastMerge(l, p, pk, lk)).value.rows
  {
    if i, j :| 0 <= i < |p.rows| && 0 <= j < |l.rows| && KeysAgree(l, p, pk, lk, i, j)
               && o == Finished(l, p, CastPair(l, p, i, j)) {
      CastMatchedIn(l, p, pk, lk, i, j);
      FinishedMember(l, p, pk, lk, CastPair(l, p, i, j));
    } else {
      var i :| 0 <= i < |p.rows| && Unmatched(l, p, pk, lk, i) && o == Finished(l, p, CastPadded(l, p, i));
      CastUnmatchedIn(l, p, pk, lk, i);
      FinishedMember(l, p, pk, lk, CastPadded(l, p, i));
    }
  }

  /** Every finished row comes from a matched pair or a padded unmatched product. */
  lemma FinishedOrigin(l: Table, p: Table, pk: nat, lk: nat, o: seq<Cell>)
    requires WellFormed(l) && WellFormed(p)
    requires IndexOf(p.columns, "Labos") == Some(pk) && IndexOf(l.columns, "ID") == Some(lk)
    requires Finish(CastMerge(l, p, pk, lk)).Success?
    requires o in Finish(CastMerge(l, p, pk, lk)).value.rows
    ensures FromUploads(l, p, pk, lk, o)
  {
    var m := CastMerge(l, p, pk, lk);
    FinishRows(m, o);
    var q :| 0 <= q < |m.rows| && o == FinishedRow(RenameColumns(m, Rename).columns, m.rows[q]);
    assert m.rows[q] in m.rows;
    CastRowOrigin(l, p, pk, lk, m.rows[q]);
    OriginFinished(l, p, pk, lk, m.rows[q]);
  }

  /** A cast matched pair or cast padded unmatched product, finished, is described by `FromUploads`. */
  lemma OriginFinished(l: Table, p: Table, pk: nat, lk: nat, y: seq<Cell>)
    requires WellFormed(l) && WellFormed(p) && pk < |p.columns| && lk < |l.columns|
    requires CastOrigin(l, p, pk, lk, y)
    ensures |y| == |p.columns| + |l.columns|
    ensures FromUploads(l, p, pk, lk, Finished(l, p, y))
  {
    if i, j :| 0 <= i < |p.rows| && 0 <= j < |l.rows| && KeysAgree(l, p, pk, lk, i, j) && y == CastPair(l, p, i, j) {
    } else {
      var i :| 0 <= i < |p.rows| && Unmatched(l, p, pk, lk, i) && y == CastPadded(l, p, i);
    }
  }

  /** A row of the cast merge appears, finished, in the finished merge. */
  lemma FinishedMember(l: Table, p: Table, pk: nat, lk: nat, y: seq<Cell>)
    requires WellFormed(l) && WellFormed(p)
    requires IndexOf(p.columns, "Labos") == Some(pk) && IndexOf(l.columns, "ID") == Some(lk)
    requires Finish(CastMerge(l, p, pk, lk)).Success?
    requires y in CastMerge(l, p, pk, lk).rows
    ensures |y| == |p.columns| + |l.columns|
    ensures Finished(l, p, y) in Finish(CastMerge(l, p, pk, lk)).value.rows
  {
    var m := CastMerge(l, p, pk, lk);
    var q :| 0 <= q < |m.rows| && m.rows[q] == y;
    FinishRows(m, Finished(l, p, y));
  }

  // ---------------------------------------------------------------------------
  // The mapping of files in the required layout
  // ---------------------------------------------------------------------------

  /** No two laboratories share an identifier once the identifiers are cast to text. */
  predicate UniqueLabIds(rows: seq<seq<Cell>>) {
    forall j1, j2 ::
      (0 <= j1 < |rows| && 0 <= j2 < |rows| && |rows[j1]| > 0 && |rows[j2]| > 0
       && AsText(rows[j1][0]) == AsText(rows[j2][0])) ==> j1 == j2
  }

  /** The labels of a finished mapping of files in the required layout. */
  const MappedLayout: seq<string> := ["ID_x", "Labos", "Entreprises", "Nom Laboratoire", "Entreprise ID"]

  lemma CastRequiredLayout(l: Table, p: Table)
    requires WellFormed(l) && WellFormed(p) && l.columns == LabLayout && p.columns == ProductLayout
    ensures forall j :: 0 <= j < |l.rows| ==>
      CastKeys(l, p).0.rows[j] == [AsText(l.rows[j][0]), l.rows[j][1], AsText(l.rows[j][2])]
    ensures forall i :: 0 <= i < |p.rows| ==>
      CastKeys(l, p).1.rows[i] == [p.rows[i][0], AsText(p.rows[i][1]), p.rows[i][2]]
  {
    var (l2, p2) := CastKeys(l, p);
    var l1 := MapColumn(l, "ID", AsText);
    forall j | 0 <= j < |l.rows|
      ensures l2.rows[j] == [AsText(l.rows[j][0]), l.rows[j][1], AsText(l.rows[j][2])]
    {
      assert l1.rows[j] == MapRow(l.columns, l.rows[j], "ID", AsText);
      assert l2.rows[j] == MapRow(l.columns, l1.rows[j], "Enterprises", AsText);
    }
    forall i | 0 <= i < |p.rows|
      ensures p2.rows[i] == [p.rows[i][0], AsText(p.rows[i][1]), p.rows[i][2]]
    {
      assert p2.rows[i] == MapRow(p.columns, p.rows[i], "Labos", AsText);
    }
  }

  lemma SuffixRequiredLayout()
    ensures Suffixed(ProductLayout, LabLayout, "_x") == ["ID_x", "Labos", "Entreprises"]
    ensures Suffixed(LabLayout, ProductLayout, "_y") == ["ID_y", "Nom", "Enterprises"]
  {
    var sl := Suffixed(ProductLayout, LabLayout, "_x");
    assert "ID" in LabLayout && "Labos" !in LabLayout && "Entreprises" !in LabLayout;
    assert sl[0] == "ID" + "_x" == "ID_x";
    assert sl[1] == "Labos" && sl[2] == "Entreprises" && |sl| == 3;
    var sr := Suffixed(LabLayout, ProductLayout, "_y");
    assert "ID" in ProductLayout && "Nom" !in ProductLayout && "Enterprises" !in ProductLayout;
    assert sr[0] == "ID" + "_y" == "ID_y";
    assert sr[1] == "Nom" && sr[2] == "Enterprises" && |sr| == 3;
  }

  lemma MergeRequiredLayout(p2: Table, l2: Table)
    requires WellFormed(l2) && WellFormed(p2) && l2.columns == LabLayout && p2.columns == ProductLayout
    ensures LeftMerge(p2, "Labos", l2, "ID", "_x", "_y").Success?
    ensures LeftMerge(p2, "Labos", l2, "ID", "_x", "_y").value
      == Table(["ID_x", "Labos", "Entreprises", "ID_y", "Nom", "Enterprises"], JoinRows(p2.rows, 1, l2.rows, 0, 3))
  {
    KeysRequiredLayout();
    SuffixRequiredLayout();
    var sl := Suffixed(ProductLayout, LabLayout, "_x");
    var sr := Suffixed(LabLayout, ProductLayout, "_y");
    assert sl + sr == ["ID_x", "Labos", "Entreprises", "ID_y", "Nom", "Enterprises"];
  }

  lemma KeysRequiredLayout()
    ensures Count(ProductLayout, "Labos") == 1 && IndexOf(ProductLayout, "Labos") == Some(1)
    ensures Count(LabLayout, "ID") == 1 && IndexOf(LabLayout, "ID") == Some(0)
  {
    assert ProductLayout[1..] == ["Labos", "Entreprises"];
    assert ProductLayout[1..][1..] == ["Entreprises"];
    assert LabLayout[1..] == ["Nom", "Enterprises"];
  }

  lemma RenameRequiredLayout(m: Table)
    requires m.columns == ["ID_x", "Labos", "Entreprises", "ID_y", "Nom", "Enterprises"]
    ensures RenameColumns(m, Rename).columns == ["ID_x", "Labos", "Entreprises", "ID_y", "Nom Laboratoire", "Entreprise ID"]
  {
    var rc := RenameColumns(m, Rename).columns;
    assert rc[0] == Rename("ID_x") == "ID_x";
    assert rc[1] == Rename("Labos") == "Labos";
    assert rc[2] == Rename("Entreprises") == "Entreprises";
    assert rc[3] == Rename("ID_y") == "ID_y";
  }

  lemma RenamedKeyOnlyAt()
    ensures OnlyAt(["ID_x", "Labos", "Entreprises", "ID_y", "Nom Laboratoire", "Entreprise ID"], "ID_y", 3)
    ensures var rc := ["ID_x", "Labos", "Entreprises", "ID_y", "Nom Laboratoire", "Entreprise ID"];
      rc[..3] + rc[4..] == MappedLayout
  {
    var rc := ["ID_x", "Labos", "Entreprises", "ID_y", "Nom Laboratoire", "Entreprise ID"];
    forall q | 0 <= q < |rc| && q != 3 ensures rc[q] != "ID_y" {
      if q == 0 {
        assert rc[q][3] != "ID_y"[3];
      }
    }
  }

  /** The columns left after renaming and dropping `ID_y` from the required-layout merge. */
  lemma DropRequiredLayout(m: Table)
    requires WellFormed(m) && m.columns == ["ID_x", "Labos", "Entreprises", "ID_y", "Nom", "Enterprises"]
    ensures DropColumn(RenameColumns(m, Rename), "ID_y").columns == MappedLayout
    ensures forall i :: 0 <= i < |m.rows| ==>
      DropColumn(RenameColumns(m, Rename), "ID_y").rows[i] == [m.rows[i][0], m.rows[i][1], m.rows[i][2], m.rows[i][4], m.rows[i][5]]
  {
    RenameRequiredLayout(m);
    var t := RenameColumns(m, Rename);
    RenamedKeyOnlyAt();
    DropColumnAt(t, "ID_y", 3);
    forall i | 0 <= i < |m.rows|
      ensures DropColumn(t, "ID_y").rows[i] == [m.rows[i][0], m.rows[i][1], m.rows[i][2], m.rows[i][4], m.rows[i][5]]
    {
      DroppedKeyCell(t.rows[i]);
    }
  }

  /** A merged row without its fourth cell, the laboratory key. */
  lemma DroppedKeyCell(row: seq<Cell>)
    requires |row| == 6
    ensures row[..3] + row[4..] == [row[0], row[1], row[2], row[4], row[5]]
  {
  }

  lemma FinishRequiredLayout(m: Table)
    requires WellFormed(m) && m.columns == ["ID_x", "Labos", "Entreprises", "ID_y", "Nom", "Enterprises"]
    ensures Finish(m).Success?
    ensures Finish(m).value.columns == MappedLayout
    ensures |Finish(m).value.rows| == |m.rows|
    ensures forall i :: 0 <= i < |m.rows| ==>
      Finish(m).value.rows[i] == [m.rows[i][0], m.rows[i][1], m.rows[i][2], m.rows[i][4], FillUnassigned(m.rows[i][5])]
  {
    var dropped := DropColumn(RenameColumns(m, Rename), "ID_y");
    DropRequiredLayout(m);
    var out := MapColumn(dropped, "Entreprise ID", FillUnassigned);
    assert Finish(m) == Success(out);
    forall i | 0 <= i < |m.rows|
      ensures out.rows[i] == [m.rows[i][0], m.rows[i][1], m.rows[i][2], m.rows[i][4], FillUnassigned(m.rows[i][5])]
    {
      var row := m.rows[i];
      var d := [row[0], row[1], row[2], row[4], row[5]];
      assert dropped.rows[i] == d;
      FillMappedRow(d);
      assert out.rows[i] == MapRow(MappedLayout, d, "Entreprise ID", FillUnassigned);
    }
  }

  /** Filling the company column of a finished row touches its last cell only. */
  lemma FillMappedRow(d: seq<Cell>)
    requires |d| == 5
    ensures MapRow(MappedLayout, d, "Entreprise ID", FillUnassigned) == [d[0], d[1], d[2], d[3], FillUnassigned(d[4])]
  {
    var o := MapRow(MappedLayout, d, "Entreprise ID", FillUnassigned);
    assert MappedLayout[0] != "Entreprise ID" && MappedLayout[1] != "Entreprise ID" && MappedLayout[2] != "Entreprise ID";
    assert MappedLayout[3] != "Entreprise ID" && MappedLayout[4] == "Entreprise ID";
  }

  /** Files in the required layout pass the column check unchanged but for stripping. */
  lemma RequiredValidation(labs: Table, prods: Table)
    requires StripColumns(labs).columns == LabLayout && StripColumns(prods).columns == ProductLayout
    ensures Validate(labs, prods) == Success((StripColumns(labs), StripColumns(prods)))
  {
    assert HasColumns(StripColumns(labs), LabColumns);
    assert HasColumns(StripColumns(prods), ProductColumns);
  }

  /** The merged table of stripped tables in the required layout, before it is finished. */
  function RequiredMerge(l: Table, p: Table): (m: Table)
    requires WellFormed(l) && WellFormed(p) && l.columns == LabLayout && p.columns == ProductLayout
    ensures WellFormed(m) && |m.rows| >= |p.rows|
    ensures m.columns == ["ID_x", "Labos", "Entreprises", "ID_y", "Nom", "Enterprises"]
  {
    var (l2, p2) := CastKeys(l, p);
    assert |p2.rows| == |p.rows| && KeyedBy(p2.rows, 1) && KeyedBy(l2.rows, 0);
    MergeRequiredLayout(p2, l2);
    Table(["ID_x", "Labos", "Entreprises", "ID_y", "Nom", "Enterprises"], JoinRows(p2.rows, 1, l2.rows, 0, 3))
  }

  lemma RequiredPipeline(labs: Table, prods: Table)
    requires WellFormed(labs) && WellFormed(prods)
    requires StripColumns(labs).columns == LabLayout && StripColumns(prods).columns == ProductLayout
    ensures WellFormed(RequiredMerge(StripColumns(labs), StripColumns(prods)))
    ensures MapUploads(labs, prods) == Finish(RequiredMerge(StripColumns(labs), StripColumns(prods)))
  {
    RequiredValidation(labs, prods);
    var (l2, p2) := CastKeys(StripColumns(labs), StripColumns(prods));
    MergeRequiredLayout(p2, l2);
  }

  /** With distinct laboratory identifiers, the cast laboratory keys are distinct. */
  lemma RequiredKeysUnique(l: Table, p: Table)
    requires WellFormed(l) && WellFormed(p) && l.columns == LabLayout && p.columns == ProductLayout
    requires UniqueLabIds(l.rows)
    ensures KeyedBy(CastKeys(l, p).0.rows, 0) && UniqueKeys(CastKeys(l, p).0.rows, 0)
  {
    var l2 := CastKeys(l, p).0;
    CastRequiredLayout(l, p);
    forall j1, j2 | 0 <= j1 < |l2.rows| && 0 <= j2 < |l2.rows| && l2.rows[j1][0] == l2.rows[j2][0] ensures j1 == j2 {
      assert AsText(l.rows[j1][0]) == AsText(l.rows[j2][0]);
    }
  }

  /** With distinct laboratory identifiers the merge keeps one row per product. */
  lemma RequiredMergeLength(l: Table, p: Table)
    requires WellFormed(l) && WellFormed(p) && l.columns == LabLayout && p.columns == ProductLayout
    requires UniqueLabIds(l.rows)
    ensures |RequiredMerge(l, p).rows| == |p.rows|
  {
    var l2, p2 := CastKeys(l, p).0, CastKeys(l, p).1;
    RequiredKeysUnique(l, p);
    assert KeyedBy(p2.rows, 1);
    UniqueKeysOneRowEach(p2.rows, 1, l2.rows, 0, 3);
  }

  /** The merged row of a product whose laboratory reference names laboratory `j`. */
  lemma RequiredMatchedRow(l: Table, p: Table, i: nat, j: nat)
    requires WellFormed(l) && WellFormed(p) && l.columns == LabLayout && p.columns == ProductLayout
    requires UniqueLabIds(l.rows)
    requires i < |p.rows| && j < |l.rows| && AsText(l.rows[j][0]) == AsText(p.rows[i][1])
    ensures |RequiredMerge(l, p).rows| == |p.rows|
    ensures RequiredMerge(l, p).rows[i]
      == [p.rows[i][0], AsText(p.rows[i][1]), p.rows[i][2], AsText(l.rows[j][0]), l.rows[j][1], AsText(l.rows[j][2])]
  {
    CastRequiredLayout(l, p);
    var l2, p2 := CastKeys(l, p).0, CastKeys(l, p).1;
    RequiredKeysUnique(l, p);
    assert KeyedBy(p2.rows, 1);
    var pr, lr := p2.rows[i], l2.rows[j];
    assert pr == [p.rows[i][0], AsText(p.rows[i][1]), p.rows[i][2]];
    assert lr == [AsText(l.rows[j][0]), l.rows[j][1], AsText(l.rows[j][2])];
    UniqueKeysMatchedRow(p2.rows, 1, l2.rows, 0, 3, i, j);
    JoinedTriples(pr, lr);
  }

  /** The merged row of a product whose laboratory reference names no laboratory. */
  lemma RequiredUnmatchedRow(l: Table, p: Table, i: nat)
    requires WellFormed(l) && WellFormed(p) && l.columns == LabLayout && p.columns == ProductLayout
    requires UniqueLabIds(l.rows)
    requires i < |p.rows| && forall j :: 0 <= j < |l.rows| ==> AsText(l.rows[j][0]) != AsText(p.rows[i][1])
    ensures |RequiredMerge(l, p).rows| == |p.rows|
    ensures RequiredMerge(l, p).rows[i] == [p.rows[i][0], AsText(p.rows[i][1]), p.rows[i][2], Null, Null, Null]
  {
    CastRequiredLayout(l, p);
    var l2, p2 := CastKeys(l, p).0, CastKeys(l, p).1;
    RequiredKeysUnique(l, p);
    assert KeyedBy(p2.rows, 1);
    assert NoMatch(p2.rows[i][1], l2.rows, 0) by {
      forall j | 0 <= j < |l2.rows| ensures l2.rows[j][0] != p2.rows[i][1] {
        assert AsText(l.rows[j][0]) != AsText(p.rows[i][1]);
      }
    }
    UniqueKeysUnmatchedRow(p2.rows, 1, l2.rows, 0, 3, i);
    assert p2.rows[i] == [p.rows[i][0], AsText(p.rows[i][1]), p.rows[i][2]];
    JoinedTriples(p2.rows[i], NullRow(3));
  }

  /** Row `i` of the finished mapping of the required-layout merge. */
  lemma FinishRequiredRow(m: Table, i: nat)
    requires WellFormed(m) && m.columns == ["ID_x", "Labos", "Entreprises", "ID_y", "Nom", "Enterprises"]
    requires i < |m.rows|
    ensures Finish(m).Success? && |Finish(m).value.rows| == |m.rows|
    ensures Finish(m).value.rows[i] == [m.rows[i][0], m.rows[i][1], m.rows[i][2], m.rows[i][4], FillUnassigned(m.rows[i][5])]
  {
    FinishRequiredLayout(m);
  }

  /** The first laboratory whose identifier, as text, is `key`. */
  function LabFor(labRows: seq<seq<Cell>>, key: Cell): (r: Option<nat>)
    requires forall j :: 0 <= j < |labRows| ==> |labRows[j]| == 3
    ensures r.Some? ==> r.value < |labRows| && AsText(labRows[r.value][0]) == key
    ensures r.None? <==> forall j :: 0 <= j < |labRows| ==> AsText(labRows[j][0]) != key
  {
    if labRows == [] then None
    else if AsText(labRows[0][0]) == key then Some(0)
    else
      match LabFor(labRows[1..], key)
      case None =>
        assert forall j :: 1 <= j < |labRows| ==> labRows[j] == labRows[1..][j - 1];
        None
      case Some(j) => Some(j + 1)
  }

  /**
   * The mapping of files in the required layout, stated independently of the
   * pipeline:
   * per product, its identifier, its laboratory reference as text and its
   * company, then the name and company of its laboratory, the company being the
   * placeholder when missing or "nan"; no name and the placeholder when the
   * laboratory is unknown.
   */
  function DescribedMapping(labRows: seq<seq<Cell>>, prodRows: seq<seq<Cell>>): (r: Table)
    requires forall j :: 0 <= j < |labRows| ==> |labRows[j]| == 3
    requires forall i :: 0 <= i < |prodRows| ==> |prodRows[i]| == 3
    ensures r.columns == MappedLayout && |r.rows| == |prodRows|
  {
    Table(MappedLayout, seq(|prodRows|, i requires 0 <= i < |prodRows| =>
      var prod := prodRows[i];
      match LabFor(labRows, AsText(prod[1]))
      case Some(j) => [prod[0], AsText(prod[1]), prod[2], labRows[j][1], FillUnassigned(AsText(labRows[j][2]))]
      case None => [prod[0], AsText(prod[1]), prod[2], Null, Str(Sentinel)]))
  }

  /** The finished mapping of stripped tables in the required layout is the described one. */
  lemma RequiredFinishDescribed(l: Table, p: Table)
    requires WellFormed(l) && WellFormed(p) && l.columns == LabLayout && p.columns == ProductLayout
    requires UniqueLabIds(l.rows)
    ensures Finish(RequiredMerge(l, p)) == Success(DescribedMapping(l.rows, p.rows))
  {
    var m := RequiredMerge(l, p);
    RequiredMergeLength(l, p);
    FinishRequiredLayout(m);
    var out := Finish(m).value;
    var d := DescribedMapping(l.rows, p.rows);
    forall i | 0 <= i < |p.rows| ensures out.rows[i] == d.rows[i] {
      RequiredDescribedRow(l, p, i);
    }
    assert out.rows == d.rows;
    assert Finish(m) == Success(d);
  }

  /** Row `i` of the finished required-layout merge is row `i` of the described mapping. */
  lemma RequiredDescribedRow(l: Table, p: Table, i: nat)
    requires WellFormed(l) && WellFormed(p) && l.columns == LabLayout && p.columns == ProductLayout
    requires UniqueLabIds(l.rows)
    requires i < |p.rows|
    ensures |RequiredMerge(l, p).rows| == |p.rows|
    ensures Finish(RequiredMerge(l, p)).Success?
    ensures Finish(RequiredMerge(l, p)).value.rows[i] == DescribedMapping(l.rows, p.rows).rows[i]
  {
    if LabFor(l.rows, AsText(p.rows[i][1])).Some? {
      DescribedMatchedRow(l, p, i);
    } else {
      DescribedUnmatchedRow(l, p, i);
    }
  }

  /** The described row of a product whose laboratory reference names a laboratory. */
  lemma DescribedMatchedRow(l: Table, p: Table, i: nat)
    requires WellFormed(l) && WellFormed(p) && l.columns == LabLayout && p.columns == ProductLayout
    requires UniqueLabIds(l.rows)
    requires i < |p.rows| && LabFor(l.rows, AsText(p.rows[i][1])).Some?
    ensures |RequiredMerge(l, p).rows| == |p.rows|
    ensures Finish(RequiredMerge(l, p)).Success?
    ensures Finish(RequiredMerge(l, p)).value.rows[i] == DescribedMapping(l.rows, p.rows).rows[i]
  {
    var j := LabFor(l.rows, AsText(p.rows[i][1])).value;
    RequiredMatchedRow(l, p, i, j);
    FinishRequiredRow(RequiredMerge(l, p), i);
  }

  /** The described row of a product whose laboratory reference names none. */
  lemma DescribedUnmatchedRow(l: Table, p: Table, i: nat)
    requires WellFormed(l) && WellFormed(p) && l.columns == LabLayout && p.columns == ProductLayout
    requires UniqueLabIds(l.rows)
    requires i < |p.rows| && LabFor(l.rows, AsText(p.rows[i][1])).None?
    ensures |RequiredMerge(l, p).rows| == |p.rows|
    ensures Finish(RequiredMerge(l, p)).Success?
    ensures Finish(RequiredMerge(l, p)).value.rows[i] == DescribedMapping(l.rows, p.rows).rows[i]
  {
    RequiredUnmatchedRow(l, p, i);
    FinishRequiredRow(RequiredMerge(l, p), i);
  }

  /**
   * Files in the required layout, with distinct laboratory identifiers, map to
   * one row per product in product order: the product's cells with its
   * laboratory reference as text, then the matching laboratory's name and
   * company, the company being the placeholder when it is missing or "nan";
   * a product whose laboratory is unknown gets an empty name and the placeholder.
   */
  lemma RequiredLayoutMapping(labs: Table, prods: Table)
    requires WellFormed(labs) && WellFormed(prods)
    requires StripColumns(labs).columns == LabLayout && StripColumns(prods).columns == ProductLayout
    requires UniqueLabIds(labs.rows)
    ensures |labs.columns| == 3 && |prods.columns| == 3
    ensures MapUploads(labs, prods) == Success(DescribedMapping(labs.rows, prods.rows))
  {
    var l, p := StripColumns(labs), StripColumns(prods);
    RequiredPipeline(labs, prods);
    RequiredFinishDescribed(l, p);
  }

}

=== FILE: connexion.dfy ===
/**
 * pages/1_Connexion.py, the login page of the multi-page application: the
 * credential check against Firebase Authentication and the `users`
 * collection, and the four session entries every page reads.
 */
module Connexion {
  import opened Wrappers
  import opened Session
  import opened Directory

  // ---------------------------------------------------------------------------
  // Credentials
  // ---------------------------------------------------------------------------

  /** What `authenticate_user` returns: the verdict, the role and the display name. */
  datatype Verdict = Verdict(ok: bool, role: Option<string>, username: Option<string>)

  /** The refusal, `(False, None, None)`. */
  const Refused: Verdict := Verdict(false, None, None)

  /**
   * The credentials are accepted: the e-mail names an account, the account's
   * document exists and has a `password` field, and the password checks
   * against that hash.
   */
  predicate Accepts(accounts: Accounts, users: Users, email: string, password: string,
                    check: (string, string) -> bool) {
    && email in accounts
    && accounts[email] in users
    && "password" in users[accounts[email]]
    && check(password, users[accounts[email]]["password"])
  }

  /**
   * Lines 41-55, `authenticate_user(email, password)`. `check(password, hash)`
   * stands for `bcrypt.checkpw`; an unknown e-mail, a missing `password` field
   * and a hash `checkpw` rejects all raise inside the `try` and end in the
   * refusal, exactly like a mismatch.
   */
  function AuthenticateUser(accounts: Accounts, users: Users, email: string, password: string,
                            check: (string, string) -> bool): (r: Verdict)
    ensures r.ok <==> Accepts(accounts, users, email, password, check)
    ensures !r.ok ==> r == Refused
    ensures r.ok ==>
      && r.role == Some(Field(users[accounts[email]], "role", "user"))
      && r.username == Some(Field(users[accounts[email]], "username", email))
  {
    if email !in accounts || accounts[email] !in users then Refused
    else
      var doc := users[accounts[email]];
      if "password" !in doc then Refused
      else if check(password, doc["password"]) then
        Verdict(true, Some(Field(doc, "role", "user")), Some(Field(doc, "username", email)))
      else Refused
  }

  // ---------------------------------------------------------------------------
  // Session
  // ---------------------------------------------------------------------------

  /** The four entries the login page keeps. */
  const SessionKeys: set<string> := {"authenticated", "email", "role", "username"}

  /** Lines 57-61, `save_session`: the four entries overwritten, nothing else touched. */
  function SaveSession(st: Store, authenticated: bool, email: Option<string>, role: Option<string>,
                       username: Option<string>): (r: Store)
    ensures ChangesOnly(st, r, SessionKeys)
    ensures r["authenticated"] == Flag(authenticated)
    ensures r["email"] == FromOption(email) && r["role"] == FromOption(role) && r["username"] == FromOption(username)
  {
    st["authenticated" := Flag(authenticated)]["email" := FromOption(email)]
      ["role" := FromOption(role)]["username" := FromOption(username)]
  }

  /** The logged-out session, `(False, None, None, None)`. */
  predicate LoggedOut(st: Store) {
    && "authenticated" in st && st["authenticated"] == Flag(false)
    && "email" in st && st["email"] == NoValue
    && "role" in st && st["role"] == NoValue
    && "username" in st && st["username"] == NoValue
  }

  /** Lines 63-68, `load_session`: an uninitialised session starts logged out. */
  function LoadSession(st: Store): (r: Store)
    ensures "authenticated" in st ==> r == st
    ensures "authenticated" !in st ==> ChangesOnly(st, r, SessionKeys) && LoggedOut(r)
  {
    if "authenticated" !in st then SaveSession(st, false, None, None, None) else st
  }

  /** Loading twice is loading once. */
  lemma LoadSessionIdempotent(st: Store)
    ensures LoadSession(LoadSession(st)) == LoadSession(st)
  {
  }

  /** What the visitor does during one run of the page. */
  datatype Event = Visit | SubmitLogin(email: string, password: string) | ClickLogout

  /**
   * Lines 76-101, one run of the page: the session is loaded; a logged-out
   * visitor may submit the form, and a successful check saves the e-mail, the
   * role and the display name; a logged-in visitor may log out, which saves the
   * logged-out session.
   */
  function Run(st: Store, ev: Event, accounts: Accounts, users: Users, check: (string, string) -> bool): (r: Store)
    ensures "authenticated" in r
    ensures ev.ClickLogout? ==> !IsAuthenticated(r)
    ensures ev.Visit? ==> r == LoadSession(st)
  {
    var s := LoadSession(st);
    var s' :=
      if !Truthy(s["authenticated"]) && ev.SubmitLogin? then
        var v := AuthenticateUser(accounts, users, ev.email, ev.password, check);
        if v.ok then SaveSession(s, true, Some(ev.email), v.role, v.username) else s
      else s;
    if Truthy(s'["authenticated"]) && ev.ClickLogout? then SaveSession(s', false, None, None, None) else s'
  }

  /**
   * A session the login page keeps: all four entries are there, the flag is a
   * boolean, and a logged-in session holds an e-mail, a role and a display name.
   */
  predicate Consistent(st: Store) {
    && SessionKeys <= st.Keys
    && st["authenticated"].Flag?
    && (st["authenticated"].b ==> st["email"].Text? && st["role"].Text? && st["username"].Text?)
  }

  /**
   * The effect of one run. A logged-out visitor who submits accepted
   * credentials ends logged in with the e-mail, the document's role (`"user"`
   * by default) and its display name (the e-mail by default); rejected
   * credentials change nothing. A logged-in visitor who clicks logout ends in
   * the logged-out session. Every other run leaves the loaded session as it is.
   */
  lemma RunEffect(st: Store, ev: Event, accounts: Accounts, users: Users, check: (string, string) -> bool)
    requires Consistent(st)
    ensures var r := Run(st, ev, accounts, users, check);
      && ChangesOnly(st, r, SessionKeys)
      && (if !st["authenticated"].b && ev.SubmitLogin? && Accepts(accounts, users, ev.email, ev.password, check) then
            var doc := users[accounts[ev.email]];
            && r["authenticated"] == Flag(true)
            && r["email"] == Text(ev.email)
            && r["role"] == Text(Field(doc, "role", "user"))
            && r["username"] == Text(Field(doc, "username", ev.email))
          else if st["authenticated"].b && ev.ClickLogout? then LoggedOut(r)
          else r == st)
  {
  }

  /** A fresh visitor's first run leaves a logged-out session. */
  lemma FirstVisit(accounts: Accounts, users: Users, check: (string, string) -> bool)
    ensures LoggedOut(Run(map[], Visit, accounts, users, check))
  {
  }

  /** Loading a session makes it consistent when it was not initialised. */
  lemma LoadedConsistent(st: Store)
    requires "authenticated" !in st || Consistent(st)
    ensures Consistent(LoadSession(st))
  {
  }

  /** Every run keeps a consistent session consistent. */
  lemma RunConsistent(st: Store, ev: Event, accounts: Accounts, users: Users, check: (string, string) -> bool)
    requires "authenticated" !in st || Consistent(st)
    ensures Consistent(Run(st, ev, accounts, users, check))
  {
    LoadedConsistent(st);
    RunEffect(LoadSession(st), ev, accounts, users, check);
    assert Run(LoadSession(st), ev, accounts, users, check) == Run(st, ev, accounts, users, check);
  }
}

=== FILE: csv.dfy ===
/**
 * The comma-separated text written by pandas' `DataFrame.to_csv` (through
 * Python's csv writer with minimal quoting), and a strict reader for that
 * text used to state that an export can be read back.
 */
module Csv {
  import opened Wrappers

  /** A character that forces the writer to quote the field it occurs in. */
  predicate IsSpecial(c: char) {
    c == ',' || c == '"' || c == '\n' || c == '\r'
  }

  /** Minimal quoting: a field is quoted exactly when it holds a special character. */
  predicate NeedsQuoting(f: string) {
    exists i :: 0 <= i < |f| && IsSpecial(f[i])
  }

  /** Doubles every quote character, the escape used inside a quoted field. */
  function DoubleQuotes(f: string): (r: string)
    ensures |r| >= |f|
    ensures '"' !in f ==> r == f
  {
    if f == [] then []
    else (if f[0] == '"' then "\"\"" else [f[0]]) + DoubleQuotes(f[1..])
  }

  /** Each quote is doubled and every other character is kept, as often as it occurs. */
  lemma {:induction false} QuotesDoubled(f: string)
    ensures |DoubleQuotes(f)| == |f| + multiset(f)['"']
    ensures multiset(DoubleQuotes(f))['"'] == 2 * multiset(f)['"']
    ensures forall ch :: ch != '"' ==> multiset(DoubleQuotes(f))[ch] == multiset(f)[ch]
  {
    if f != [] {
      assert f == [f[0]] + f[1..];
      QuotesDoubled(f[1..]);
    }
  }

  /** One field as written: unchanged, or wrapped in quotes with its quotes doubled. */
  function EncodeField(f: string): (r: string)
    ensures !NeedsQuoting(f) ==> r == f
    ensures NeedsQuoting(f) ==> |r| >= |f| + 2 && r[0] == '"' && r[|r| - 1] == '"'
  {
    if NeedsQuoting(f) then "\"" + DoubleQuotes(f) + "\"" else f
  }

  /** The encoded fields of a non-empty record, separated by commas. */
  function JoinFields(fields: seq<string>): string
    requires |fields| >= 1
  {
    if |fields| == 1 then EncodeField(fields[0])
    else EncodeField(fields[0]) + "," + JoinFields(fields[1..])
  }

  /**
   * One record without its line terminator. A record made of a single empty
   * field is written as `""` so that it cannot be mistaken for a blank line.
   */
  function EncodeRecord(fields: seq<string>): string {
    if fields == [""] then "\"\""
    else if fields == [] then ""
    else JoinFields(fields)
  }

  /** A whole document: every record followed by the line terminator `\n`. */
  function EncodeDocument(records: seq<seq<string>>): string {
    if records == [] then ""
    else EncodeRecord(records[0]) + "\n" + EncodeDocument(records[1..])
  }

  /** Reads an unquoted field: everything up to the next comma or line end. */
  function ReadBare(s: string): (r: (string, string))
    ensures r.0 + r.1 == s
    ensures ',' !in r.0 && '\n' !in r.0
    ensures r.1 == [] || r.1[0] == ',' || r.1[0] == '\n'
  {
    if s == [] || s[0] == ',' || s[0] == '\n' then ([], s)
    else
      var (f, rest) := ReadBare(s[1..]);
      ([s[0]] + f, rest)
  }

  /**
   * Reads the body of a quoted field after its opening quote, up to the
   * closing quote; a doubled quote stands for one quote character.
   */
  function ReadQuoted(s: string): (r: Option<(string, string)>)
    ensures r.Some? ==> |r.value.1| < |s|
    decreases |s|
  {
    if s == [] then None
    else if s[0] == '"' then
      if |s| >= 2 && s[1] == '"' then
        match ReadQuoted(s[2..])
        case None => None
        case Some((f, rest)) => Some(("\"" + f, rest))
      else Some(([], s[1..]))
    else
      match ReadQuoted(s[1..])
      case None => None
      case Some((f, rest)) => Some(([s[0]] + f, rest))
  }

  /** Reads one field, quoted or not. */
  function ReadField(s: string): (r: Option<(string, string)>)
    ensures r.Some? ==> |r.value.1| <= |s|
  {
    if s != [] && s[0] == '"' then ReadQuoted(s[1..]) else Some(ReadBare(s))
  }

  /** Reads one record and its terminating `\n`; fails on text a writer cannot produce. */
  function ReadRecord(s: string): (r: Option<(seq<string>, string)>)
    ensures r.Some? ==> |r.value.1| < |s| && |r.value.0| >= 1
    decreases |s|
  {
    match ReadField(s)
    case None => None
    case Some((f, rest)) =>
      if rest == [] then None
      else if rest[0] == '\n' then Some(([f], rest[1..]))
      else if rest[0] == ',' then
        match ReadRecord(rest[1..])
        case None => None
        case Some((fs, after)) => Some(([f] + fs, after))
      else None
  }

  /** Reads a whole document into its records. */
  function ReadDocument(s: string): (r: Option<seq<seq<string>>>)
    ensures r.Some? ==> forall k :: 0 <= k < |r.value| ==> |r.value[k]| >= 1
    decreases |s|
  {
    if s == [] then Some([])
    else
      match ReadRecord(s)
      case None => None
      case Some((fields, rest)) =>
        match ReadDocument(rest)
        case None => None
        case Some(more) => Some([fields] + more)
  }

  /** What may follow a field: a separator or the end of the record. */
  predicate AtFieldEnd(rest: string) {
    rest != [] && (rest[0] == ',' || rest[0] == '\n')
  }

  lemma {:induction false} ReadBareUnquoted(f: string, rest: string)
    requires !NeedsQuoting(f)
    requires AtFieldEnd(rest)
    ensures ReadBare(f + rest) == (f, rest)
  {
    if f != [] {
      assert !IsSpecial(f[0]);
      assert !NeedsQuoting(f[1..]) by {
        forall i | 0 <= i < |f[1..]| ensures !IsSpecial(f[1..][i]) {
          assert f[1..][i] == f[i + 1];
        }
      }
      ReadBareUnquoted(f[1..], rest);
      assert (f + rest)[1..] == f[1..] + rest;
      assert [f[0]] + f[1..] == f;
    } else {
      assert f + rest == rest;
    }
  }

  lemma {:induction false} ReadQuotedEscaped(f: string, rest: string)
    requires rest == [] || rest[0] != '"'
    ensures ReadQuoted(DoubleQuotes(f) + "\"" + rest) == Some((f, rest))
  {
    var s := DoubleQuotes(f) + "\"" + rest;
    if f == [] {
      assert s == "\"" + rest;
      assert s[1..] == rest;
    } else {
      ReadQuotedEscaped(f[1..], rest);
      EscapedStep(f, rest);
      var tail := DoubleQuotes(f[1..]) + "\"" + rest;
      if f[0] == '"' {
        assert s == "\"\"" + tail;
        assert s[2..] == tail;
      } else {
        assert s == [f[0]] + tail;
        assert s[1..] == tail;
      }
      assert [f[0]] + f[1..] == f;
    }
  }

  /** The escaped text of a non-empty field: its first character escaped, then the rest. */
  lemma EscapedStep(f: string, rest: string)
    requires f != []
    ensures DoubleQuotes(f) + "\"" + rest
      == (if f[0] == '"' then "\"\"" else [f[0]]) + (DoubleQuotes(f[1..]) + "\"" + rest)
  {
    var head := if f[0] == '"' then "\"\"" else [f[0]];
    assert DoubleQuotes(f) == head + DoubleQuotes(f[1..]);
    Regroup(head, DoubleQuotes(f[1..]), "\"" + rest);
    Regroup(DoubleQuotes(f[1..]), "\"", rest);
    Regroup(DoubleQuotes(f), "\"", rest);
  }

  lemma Regroup(a: string, b: string, c: string)
    ensures (a + b) + c == a + (b + c)
  {
  }

  lemma ReadQuotedField(f: string, rest: string)
    requires NeedsQuoting(f)
    requires AtFieldEnd(rest)
    ensures ReadField(EncodeField(f) + rest) == Some((f, rest))
  {
    var d := DoubleQuotes(f);
    var body := d + "\"" + rest;
    assert EncodeField(f) == "\"" + d + "\"";
    Regroup("\"", d, "\"");
    Regroup("\"", d + "\"", rest);
    ReadQuotedEscaped(f, rest);
    OpeningQuote(body);
  }

  /** A field that opens with a quote is read as a quoted body. */
  lemma OpeningQuote(body: string)
    ensures ReadField("\"" + body) == ReadQuoted(body)
  {
    assert ("\"" + body)[1..] == body;
  }

  lemma ReadUnquotedField(f: string, rest: string)
    requires !NeedsQuoting(f)
    requires AtFieldEnd(rest)
    ensures ReadField(EncodeField(f) + rest) == Some((f, rest))
  {
    var s := f + rest;
    assert EncodeField(f) == f;
    ReadBareUnquoted(f, rest);
    if f != [] {
      assert !IsSpecial(f[0]);
      assert s[0] == f[0];
    } else {
      assert s == rest;
    }
    assert ReadField(s) == Some(ReadBare(s));
  }

  /** Every encoded field, followed by a separator, reads back as the field. */
  lemma ReadEncodedField(f: string, rest: string)
    requires AtFieldEnd(rest)
    ensures ReadField(EncodeField(f) + rest) == Some((f, rest))
  {
    if NeedsQuoting(f) {
      ReadQuotedField(f, rest);
    } else {
      ReadUnquotedField(f, rest);
    }
  }

  lemma {:induction false} ReadJoinedFields(fields: seq<string>, rest: string)
    requires |fields| >= 1
    ensures ReadRecord(JoinFields(fields) + "\n" + rest) == Some((fields, rest))
    decreases |fields|
  {
    if |fields| == 1 {
      ReadLastField(fields[0], rest);
      assert fields == [fields[0]];
    } else {
      var e, j := EncodeField(fields[0]), JoinFields(fields[1..]);
      var tail := j + "\n" + rest;
      ReadJoinedFields(fields[1..], rest);
      Regroup5(e, ",", j, "\n", rest);
      ReadFieldThenMore(fields[0], tail);
      assert [fields[0]] + fields[1..] == fields;
    }
  }

  /** The last field of a record, then the line end. */
  lemma ReadLastField(f: string, rest: string)
    ensures ReadRecord(EncodeField(f) + "\n" + rest) == Some(([f], rest))
  {
    Regroup(EncodeField(f), "\n", rest);
    ReadEncodedField(f, "\n" + rest);
    assert ("\n" + rest)[1..] == rest;
  }

  /** A field followed by a separator: the record goes on with what follows. */
  lemma ReadFieldThenMore(f: string, tail: string)
    ensures ReadRecord(EncodeField(f) + ("," + tail)) ==
      match ReadRecord(tail)
      case None => None
      case Some((fs, after)) => Some(([f] + fs, after))
  {
    ReadEncodedField(f, "," + tail);
    assert ("," + tail)[1..] == tail;
  }

  lemma Regroup5(a: string, b: string, c: string, d: string, e: string)
    ensures (a + b + c) + d + e == a + (b + (c + d + e))
  {
  }

  /** Every non-empty record, once terminated, reads back as itself. */
  lemma ReadEncodedRecord(fields: seq<string>, rest: string)
    requires |fields| >= 1
    ensures ReadRecord(EncodeRecord(fields) + "\n" + rest) == Some((fields, rest))
  {
    if fields == [""] {
      var s := EncodeRecord(fields) + "\n" + rest;
      assert s == "\"\"\n" + rest;
      var t := s[1..];
      assert t == "\"\n" + rest;
      assert t[0] == '"' && t[1] == '\n' && t[1..] == "\n" + rest;
      assert ReadQuoted(t) == Some(([], "\n" + rest));
      assert ("\n" + rest)[1..] == rest;
    } else {
      ReadJoinedFields(fields, rest);
    }
  }

  /** Round trip: a document of non-empty records reads back record for record. */
  lemma {:induction false} ReadEncodedDocument(records: seq<seq<string>>)
    requires forall k :: 0 <= k < |records| ==> |records[k]| >= 1
    ensures ReadDocument(EncodeDocument(records)) == Some(records)
  {
    if records != [] {
      ReadEncodedDocument(records[1..]);
      ReadRecordThenMore(records[0], EncodeDocument(records[1..]));
      assert [records[0]] + records[1..] == records;
    }
  }

  /** A terminated record: the document goes on with what follows it. */
  lemma ReadRecordThenMore(rec: seq<string>, rest: string)
    requires |rec| >= 1
    ensures ReadDocument(EncodeRecord(rec) + "\n" + rest) ==
      match ReadDocument(rest)
      case None => None
      case Some(more) => Some([rec] + more)
  {
    ReadEncodedRecord(rec, rest);
    assert |EncodeRecord(rec) + "\n" + rest| > 0;
  }
}

=== FILE: directory.dfy ===
/**
 * The Firestore `users` collection the multi-page application keeps: one
 * document per Firebase account, keyed by the account's uid, each document a
 * set of named text fields (`email`, `username`, `role`, `password`).
 * Firebase Authentication's lookup of an account by e-mail is a map too.
 */
module Directory {
  import opened Wrappers

  type Uid = string

  /** A user document: field name to value. */
  type Doc = map<string, string>

  /** The `users` collection. */
  type Users = map<Uid, Doc>

  /** Firebase Authentication's accounts: e-mail to uid. */
  type Accounts = map<string, Uid>

  /** Why a write to the collection fails. */
  datatype WriteError = NotFound(uid: Uid)  // `update` on a document that does not exist

  /** `doc.get(field, default)`. */
  function Field(doc: Doc, field: string, default: string): (r: string)
    ensures field in doc ==> r == doc[field]
    ensures field !in doc ==> r == default
  {
    if field in doc then doc[field] else default
  }

  /**
   * `document(uid).update({field: value})`: the one field is overwritten or
   * added; the update fails, changing nothing, when the document does not exist.
   */
  function UpdateField(users: Users, uid: Uid, field: string, value: string): (r: Result<Users, WriteError>)
    ensures r.Failure? <==> uid !in users
    ensures r.Failure? ==> r.error == NotFound(uid)
    ensures r.Success? ==>
      && r.value.Keys == users.Keys
      && r.value[uid].Keys == users[uid].Keys + {field}
      && r.value[uid][field] == value
      && (forall f :: f in users[uid] && f != field ==> r.value[uid][f] == users[uid][f])
      && (forall u :: u in users && u != uid ==> r.value[u] == users[u])
  {
    if uid !in users then Failure(NotFound(uid))
    else Success(users[uid := users[uid][field := value]])
  }

  /** Updating a field to the value it already holds changes nothing. */
  lemma UpdateSameValue(users: Users, uid: Uid, field: string)
    requires uid in users && field in users[uid]
    ensures UpdateField(users, uid, field, users[uid][field]) == Success(users)
  {
    var r := UpdateField(users, uid, field, users[uid][field]).value;
    assert r[uid] == users[uid];
    assert r == users;
  }

  /** A later update of the same field replaces an earlier one. */
  lemma UpdateTwice(users: Users, uid: Uid, field: string, v1: string, v2: string)
    requires uid in users
    ensures UpdateField(UpdateField(users, uid, field, v1).value, uid, field, v2) == UpdateField(users, uid, field, v2)
  {
    var a := UpdateField(UpdateField(users, uid, field, v1).value, uid, field, v2).value;
    var b := UpdateField(users, uid, field, v2).value;
    assert a[uid] == b[uid];
    assert a == b;
  }
}

=== FILE: export.dfy ===
/**
 * The download both mapping pages offer: `df.to_csv(index=False).encode("utf-8")`,
 * a header line of column labels, one line per row, no index column.
 */
module Export {
  import opened Wrappers
  import opened Frame
  import Csv
  import Utf8

  /** How pandas writes a cell: a missing cell becomes the empty field. */
  function Render(c: Cell): (r: string)
    ensures c.Str? ==> r == c.text
    ensures c.Null? ==> r == []
  {
    match c
    case Null => []
    case Str(s) => s
  }

  /** The records written: the labels, then each row's cells as text, in order. */
  function Records(t: Table): (r: seq<seq<string>>)
    requires WellFormed(t)
    ensures |r| == |t.rows| + 1 && r[0] == t.columns
    ensures forall i :: 1 <= i < |r| ==> |r[i]| == |t.columns|
    ensures forall i, k :: 0 <= i < |t.rows| && 0 <= k < |t.columns| ==> r[i + 1][k] == Render(t.rows[i][k])
  {
    [t.columns] + seq(|t.rows|, i requires 0 <= i < |t.rows| =>
      seq(|t.rows[i]|, k requires 0 <= k < |t.rows[i]| => Render(t.rows[i][k])))
  }

  /**
   * The downloaded bytes; they read back as the header and every row, cell for
   * cell, whenever the table has a column.
   */
  function ToCsv(t: Table): (r: seq<Utf8.Byte>)
    requires WellFormed(t)
    ensures |t.columns| >= 1 ==> ReadBack(r) == Some(Records(t))
  {
    var r := Utf8.Encode(Csv.EncodeDocument(Records(t)));
    if |t.columns| >= 1 then ExportReadsBack(t); r else r
  }

  /** Reading a download back: strict UTF-8 decoding, then the CSV records. */
  function ReadBack(b: seq<Utf8.Byte>): (r: Option<seq<seq<string>>>)
  {
    match Utf8.Decode(b)
    case None => None
    case Some(text) => Csv.ReadDocument(text)
  }

  /**
   * Round trip: a download reads back as the header followed by every row, cell
   * for cell, each record as wide as the header (so no index column was added).
   */
  lemma ExportReadsBack(t: Table)
    requires WellFormed(t) && |t.columns| >= 1
    ensures ReadBack(Utf8.Encode(Csv.EncodeDocument(Records(t)))) == Some(Records(t))
  {
    var recs := Records(t);
    var text := Csv.EncodeDocument(recs);
    Utf8.DecodeEncode(text);
    Csv.ReadEncodedDocument(recs);
  }
}

=== FILE: flows.dfy ===
/**
 * How the pages of the multi-page application work together through the
 * shared session and the shared `users` collection: what the login page
 * stores is what the mapping and administration pages read, and what the
 * administration page writes is what the next login reads.
 */
module Flows {
  import opened Wrappers
  import opened Session
  import opened Directory
  import Frame
  import Connexion
  import MappingPage
  import Administration

  /** A session kept by the login page never lacks an entry the other pages read. */
  lemma ConsistentSessionsAreReadable(st: Store, labs: Option<Frame.Table>, prods: Option<Frame.Table>)
    requires Connexion.Consistent(st)
    requires labs.Some? ==> Frame.WellFormed(labs.value)
    requires prods.Some? ==> Frame.WellFormed(prods.value)
    ensures Administration.Gate(st) != Administration.RoleUnset
    ensures MappingPage.Page(st, labs, prods) != MappingPage.SessionIncomplete
  {
  }

  /**
   * A logged-out visitor who logs in with accepted credentials may then use the
   * mapping page, and passes the administration gate exactly when the user
   * document's role is `"admin"`.
   */
  lemma LoginOpensPages(st: Store, email: string, password: string, accounts: Accounts, users: Users,
                        check: (string, string) -> bool)
    requires Connexion.Consistent(st) && !st["authenticated"].b
    requires Connexion.Accepts(accounts, users, email, password, check)
    ensures var r := Connexion.Run(st, Connexion.SubmitLogin(email, password), accounts, users, check);
      && MappingPage.MayEnter(r)
      && (Administration.Gate(r) == Administration.Granted <==> Field(users[accounts[email]], "role", "user") == "admin")
  {
    Connexion.RunEffect(st, Connexion.SubmitLogin(email, password), accounts, users, check);
  }

  /** After a logout neither page admits the visitor. */
  lemma LogoutClosesPages(st: Store, accounts: Accounts, users: Users, check: (string, string) -> bool,
                          labs: Option<Frame.Table>, prods: Option<Frame.Table>)
    requires labs.Some? ==> Frame.WellFormed(labs.value)
    requires prods.Some? ==> Frame.WellFormed(prods.value)
    ensures var r := Connexion.Run(st, Connexion.ClickLogout, accounts, users, check);
      && MappingPage.Page(r, labs, prods) == MappingPage.MustLogIn
      && Administration.Gate(r) == Administration.NotLoggedIn
  {
  }

  /**
   * After an administrator resets a user's password to a non-empty `p`, a
   * login under an e-mail of that account is accepted exactly for the passwords
   * the check matches against the new hash; in particular `p` itself, provided
   * the check accepts a password against its own fresh hash.
   */
  lemma ResetThenLogin(users: Users, accounts: Accounts, email: string, p: string, salt: string,
                       hash: (string, string) -> string, check: (string, string) -> bool)
    requires email in accounts && accounts[email] in users && p != []
    requires check(p, hash(p, salt))
    ensures var (users', status) := Administration.Apply(users, Administration.ResetPassword(accounts[email], p), salt, hash);
      && status == Administration.Done
      && (forall q :: Connexion.AuthenticateUser(accounts, users', email, q, check).ok <==> check(q, hash(p, salt)))
      && Connexion.AuthenticateUser(accounts, users', email, p, check).ok
  {
  }

  /**
   * A role change is what the next login reports; the password and the display
   * name stay as they were.
   */
  lemma RoleChangeThenLogin(users: Users, accounts: Accounts, email: string, password: string,
                            c: Administration.RoleChoice, salt: string, hash: (string, string) -> string,
                            check: (string, string) -> bool)
    requires email in accounts && accounts[email] in users
    requires Connexion.Accepts(accounts, users, email, password, check)
    ensures var (users', status) := Administration.Apply(users, Administration.ChangeRole(accounts[email], c), salt, hash);
      && status == Administration.Done
      && Connexion.AuthenticateUser(accounts, users', email, password, check)
         == Connexion.Verdict(true, Some(Administration.RoleName(c)),
                              Some(Field(users[accounts[email]], "username", email)))
  {
    var uid := accounts[email];
    var (users', status) := Administration.Apply(users, Administration.ChangeRole(uid, c), salt, hash);
    assert users'[uid]["password"] == users[uid]["password"];
    assert Field(users'[uid], "username", email) == Field(users[uid], "username", email);
  }
}

=== FILE: frame.dfy ===
/**
 * A pandas DataFrame as the mapping pages use it: an ordered list of column
 * labels and rows of cells aligned with them. A cell is either missing
 * (pandas' NaN / None) or text. Labels may repeat, as they can in pandas.
 */
module Frame {
  import opened Wrappers

  datatype Cell = Null | Str(text: string)

  datatype Table = Table(columns: seq<string>, rows: seq<seq<Cell>>)

  /** Every row has one cell per column, as in any DataFrame. */
  predicate WellFormed(t: Table) {
    forall i :: 0 <= i < |t.rows| ==> |t.rows[i]| == |t.columns|
  }

  /**
   * The characters Python's `str.strip()` removes: those for which
   * `str.isspace()` holds.
   */
  predicate IsSpace(c: char) {
    || c == ' ' || c == '\t' || c == '\n' || c == '\r'
    || c == '\U{B}' || c == '\U{C}'
    || ('\U{1C}' <= c <= '\U{1F}')
    || c == '\U{85}' || c == '\U{A0}' || c == '\U{1680}'
    || ('\U{2000}' <= c <= '\U{200A}')
    || c == '\U{2028}' || c == '\U{2029}' || c == '\U{202F}' || c == '\U{205F}' || c == '\U{3000}'
  }

  predicate AllSpace(s: string) {
    forall k :: 0 <= k < |s| ==> IsSpace(s[k])
  }

  /** `s` neither starts nor ends with whitespace. */
  predicate Bare(s: string) {
    s == [] || (!IsSpace(s[0]) && !IsSpace(s[|s| - 1]))
  }

  /** `r` occurs in `s` with nothing but whitespace before and after it. */
  ghost predicate SpacedIn(r: string, s: string) {
    exists i :: 0 <= i <= |s| - |r| && r == s[i..i + |r|] && AllSpace(s[..i]) && AllSpace(s[i + |r|..])
  }

  /** Removes leading whitespace. */
  function StripStart(s: string): (r: string)
    ensures |r| <= |s| && r == s[|s| - |r|..]
    ensures AllSpace(s[..|s| - |r|])
    ensures r == [] || !IsSpace(r[0])
  {
    if s != [] && IsSpace(s[0]) then StripStart(s[1..]) else s
  }

  /** Removes trailing whitespace. */
  function StripEnd(s: string): (r: string)
    ensures |r| <= |s| && r == s[..|r|]
    ensures AllSpace(s[|r|..])
    ensures r == [] || !IsSpace(r[|r| - 1])
  {
    if s != [] && IsSpace(s[|s| - 1]) then StripEnd(s[..|s| - 1]) else s
  }

  /** Python's `str.strip()`: `s` without its leading and trailing whitespace. */
  function Strip(s: string): (r: string)
    ensures Bare(r)
    ensures SpacedIn(r, s)
  {
    StripShape(s);
    StripEnd(StripStart(s))
  }

  /** The stripped text is bare and sits in `s` between whitespace. */
  lemma StripShape(s: string)
    ensures Bare(StripEnd(StripStart(s))) && SpacedIn(StripEnd(StripStart(s)), s)
  {
    var a := StripStart(s);
    var r := StripEnd(a);
    SpacedSlice(s, a, r);
    BarePrefix(a, r);
  }

  /** A prefix of a text that starts bare, itself ending bare, is bare. */
  lemma BarePrefix(a: string, r: string)
    requires (a == [] || !IsSpace(a[0])) && |r| <= |a| && r == a[..|r|]
    requires r == [] || !IsSpace(r[|r| - 1])
    ensures Bare(r)
  {
    assert r != [] ==> r[0] == a[0];
  }

  /**
   * A prefix `r` of a suffix `a` of `s`, with only whitespace before `a` in `s`
   * and after `r` in `a`, is a slice of `s` surrounded by whitespace.
   */
  lemma SpacedSlice(s: string, a: string, r: string)
    requires |a| <= |s| && a == s[|s| - |a|..] && AllSpace(s[..|s| - |a|])
    requires |r| <= |a| && r == a[..|r|] && AllSpace(a[|r|..])
    ensures SpacedIn(r, s)
  {
    var i := |s| - |a|;
    assert r == s[i..i + |r|];
    assert s[i + |r|..] == a[|r|..];
  }

  lemma {:induction false} StripStartPadded(a: string, m: string)
    requires AllSpace(a)
    requires m == [] || !IsSpace(m[0])
    ensures StripStart(a + m) == m
  {
    if a != [] {
      assert (a + m)[1..] == a[1..] + m;
      StripStartPadded(a[1..], m);
    } else {
      assert a + m == m;
    }
  }

  lemma {:induction false} StripEndPadded(m: string, b: string)
    requires AllSpace(b)
    requires m == [] || !IsSpace(m[|m| - 1])
    ensures StripEnd(m + b) == m
    decreases |b|
  {
    if b != [] {
      assert (m + b)[..|m + b| - 1] == m + b[..|b| - 1];
      StripEndPadded(m, b[..|b| - 1]);
    } else {
      assert m + b == m;
    }
  }

  /**
   * Strip is characterised by its result alone: whatever whitespace surrounds
   * a bare text, stripping gives exactly that text back.
   */
  lemma StripPadded(a: string, m: string, b: string)
    requires AllSpace(a) && AllSpace(b) && Bare(m)
    ensures Strip(a + m + b) == m
  {
    if m == [] {
      assert a + m + b == a + b;
      StripStartPadded(a + b, []);
      assert a + b + [] == a + b;
      assert AllSpace(a + b);
    } else {
      assert a + m + b == a + (m + b);
      StripStartPadded(a, m + b);
      StripEndPadded(m, b);
    }
  }

  /** Stripping twice is stripping once. */
  lemma StripIdempotent(s: string)
    ensures Strip(Strip(s)) == Strip(s)
  {
    StripBare(Strip(s));
  }

  /** A bare text is its own stripped form. */
  lemma StripBare(m: string)
    requires Bare(m)
    ensures Strip(m) == m
  {
    StripStartPadded([], m);
    assert [] + m == m;
    StripEndPadded(m, []);
    assert m + [] == m;
  }

  /** `df.columns = df.columns.str.strip()`: labels trimmed, cells untouched. */
  function StripColumns(t: Table): (r: Table)
    ensures r.rows == t.rows
    ensures |r.columns| == |t.columns|
    ensures forall k :: 0 <= k < |t.columns| ==> r.columns[k] == Strip(t.columns[k])
    ensures WellFormed(t) ==> WellFormed(r)
  {
    Table(seq(|t.columns|, k requires 0 <= k < |t.columns| => Strip(t.columns[k])), t.rows)
  }

  /** `required.issubset(df.columns)`. */
  predicate HasColumns(t: Table, required: set<string>) {
    forall c :: c in required ==> c in t.columns
  }

  /** How many columns carry the label `name`. */
  function Count(cols: seq<string>, name: string): (r: nat)
    ensures r <= |cols|
    ensures r == 0 <==> name !in cols
  {
    if cols == [] then 0 else (if cols[0] == name then 1 else 0) + Count(cols[1..], name)
  }

  /** Position of the first column labelled `name`. */
  function IndexOf(cols: seq<string>, name: string): (r: Option<nat>)
    ensures r.Some? <==> name in cols
    ensures r.Some? ==> r.value < |cols| && cols[r.value] == name && name !in cols[..r.value]
  {
    if cols == [] then None
    else if cols[0] == name then Some(0)
    else
      match IndexOf(cols[1..], name)
      case None => None
      case Some(k) =>
        assert cols[..k + 1] == [cols[0]] + cols[1..][..k];
        Some(k + 1)
  }

  /** One row with `f` applied to the cells of the columns labelled `name`. */
  function MapRow(cols: seq<string>, row: seq<Cell>, name: string, f: Cell -> Cell): (r: seq<Cell>)
    requires |row| == |cols|
    ensures |r| == |row|
    ensures forall k :: 0 <= k < |row| ==> r[k] == if cols[k] == name then f(row[k]) else row[k]
  {
    seq(|row|, k requires 0 <= k < |row| => if cols[k] == name then f(row[k]) else row[k])
  }

  /**
   * `df[name] = f(df[name])`: `f` applied to every column labelled `name`
   * (all of them when the label repeats), every other cell left as it was.
   */
  function MapColumn(t: Table, name: string, f: Cell -> Cell): (r: Table)
    requires WellFormed(t)
    ensures WellFormed(r) && r.columns == t.columns && |r.rows| == |t.rows|
    ensures forall i :: 0 <= i < |t.rows| ==> r.rows[i] == MapRow(t.columns, t.rows[i], name, f)
  {
    Table(t.columns, seq(|t.rows|, i requires 0 <= i < |t.rows| => MapRow(t.columns, t.rows[i], name, f)))
  }

  /** Reading a mapped row finds `f` of the old cell under `name` and the old cell elsewhere. */
  lemma MapRowLookup(cols: seq<string>, row: seq<Cell>, name: string, f: Cell -> Cell, c: string)
    requires |row| == |cols|
    ensures Lookup(cols, MapRow(cols, row, name, f), c) ==
      match Lookup(cols, row, c)
      case None => None
      case Some(x) => Some(if c == name then f(x) else x)
  {
  }

  /** `df.rename(columns=...)`: every label passed through `rename`, cells untouched. */
  function RenameColumns(t: Table, rename: string -> string): (r: Table)
    ensures r.rows == t.rows && |r.columns| == |t.columns|
    ensures forall k :: 0 <= k < |t.columns| ==> r.columns[k] == rename(t.columns[k])
    ensures WellFormed(t) ==> WellFormed(r)
  {
    Table(seq(|t.columns|, k requires 0 <= k < |t.columns| => rename(t.columns[k])), t.rows)
  }

  /** The labels left once every column labelled `name` is removed. */
  function DropLabels(cols: seq<string>, name: string): (r: seq<string>)
    ensures |r| == |cols| - Count(cols, name)
    ensures forall c :: c in r <==> c in cols && c != name
  {
    if cols == [] then []
    else (if cols[0] == name then [] else [cols[0]]) + DropLabels(cols[1..], name)
  }

  /** The cells of a row left once every column labelled `name` is removed. */
  function DropCells(cols: seq<string>, row: seq<Cell>, name: string): (r: seq<Cell>)
    requires |row| == |cols|
    ensures |r| == |DropLabels(cols, name)|
  {
    if cols == [] then []
    else (if cols[0] == name then [] else [row[0]]) + DropCells(cols[1..], row[1..], name)
  }

  /** `df.drop(columns=[name], errors="ignore")`. */
  function DropColumn(t: Table, name: string): (r: Table)
    requires WellFormed(t)
    ensures WellFormed(r) && |r.rows| == |t.rows|
    ensures name !in r.columns
    ensures forall c :: c != name ==> (c in r.columns <==> c in t.columns)
    ensures name !in t.columns ==> r == t
  {
    var r := Table(DropLabels(t.columns, name),
                   seq(|t.rows|, i requires 0 <= i < |t.rows| => DropCells(t.columns, t.rows[i], name)));
    if name !in t.columns then
      forall i | 0 <= i < |t.rows| ensures r.rows[i] == t.rows[i] {
        DropNothing(t.columns, t.rows[i], name);
      }
      DropNothing(t.columns, seq(|t.columns|, k => Null), name);
      r
    else r
  }

  lemma {:induction false} DropNothing(cols: seq<string>, row: seq<Cell>, name: string)
    requires |row| == |cols| && name !in cols
    ensures DropLabels(cols, name) == cols
    ensures DropCells(cols, row, name) == row
  {
    if cols != [] {
      DropNothing(cols[1..], row[1..], name);
      assert [row[0]] + row[1..] == row;
      assert [cols[0]] + cols[1..] == cols;
    }
  }

  /** The cell of `row` under the first column labelled `name`, if any. */
  function Lookup(cols: seq<string>, row: seq<Cell>, name: string): (r: Option<Cell>)
    requires |row| == |cols|
    ensures r.Some? <==> name in cols
  {
    match IndexOf(cols, name)
    case None => None
    case Some(k) => Some(row[k])
  }

  /** Looking up a label in a row with one more column in front. */
  lemma LookupCons(c: string, cols: seq<string>, x: Cell, row: seq<Cell>, name: string)
    requires |row| == |cols|
    ensures Lookup([c] + cols, [x] + row, name) == if c == name then Some(x) else Lookup(cols, row, name)
  {
    assert ([c] + cols)[1..] == cols;
    if c != name {
      match IndexOf(cols, name)
      case None =>
      case Some(k) =>
        assert ([x] + row)[k + 1] == row[k];
    }
  }

  /** Dropping a column leaves every other column's values where a reader finds them. */
  lemma {:induction false} DropKeepsOtherColumns(cols: seq<string>, row: seq<Cell>, name: string, other: string)
    requires |row| == |cols| && other != name
    ensures Lookup(DropLabels(cols, name), DropCells(cols, row, name), other) == Lookup(cols, row, other)
  {
    if cols != [] {
      var tl := DropLabels(cols[1..], name);
      var tc := DropCells(cols[1..], row[1..], name);
      DropKeepsOtherColumns(cols[1..], row[1..], name, other);
      assert [cols[0]] + cols[1..] == cols;
      assert [row[0]] + row[1..] == row;
      LookupCons(cols[0], cols[1..], row[0], row[1..], other);
      if cols[0] == name {
        assert DropLabels(cols, name) == tl;
        assert DropCells(cols, row, name) == tc;
      } else {
        assert DropLabels(cols, name) == [cols[0]] + tl;
        assert DropCells(cols, row, name) == [row[0]] + tc;
        LookupCons(cols[0], tl, row[0], tc, other);
      }
    }
  }

  /** The label `name` is carried by the column at `k` and by no other. */
  predicate OnlyAt(cols: seq<string>, name: string, k: nat) {
    && k < |cols| && cols[k] == name
    && forall q :: 0 <= q < |cols| && q != k ==> cols[q] != name
  }

  lemma OnlyAtTail(cols: seq<string>, name: string, k: nat)
    requires OnlyAt(cols, name, k)
    ensures k == 0 ==> name !in cols[1..]
    ensures k > 0 ==> OnlyAt(cols[1..], name, k - 1)
  {
    var tc := cols[1..];
    forall q | 0 <= q < |tc| && q + 1 != k ensures tc[q] != name {
      assert tc[q] == cols[q + 1];
    }
  }

  /** Dropping a label carried by exactly one column removes that label alone. */
  lemma {:induction false} DropSingleLabel(cols: seq<string>, name: string, k: nat)
    requires OnlyAt(cols, name, k)
    ensures DropLabels(cols, name) == cols[..k] + cols[k + 1..]
  {
    var tc := cols[1..];
    OnlyAtTail(cols, name, k);
    if k == 0 {
      DropNothing(tc, seq(|tc|, q => Null), name);
      assert DropLabels(cols, name) == DropLabels(tc, name);
      assert cols[..k] + cols[k + 1..] == tc;
    } else {
      DropSingleLabel(tc, name, k - 1);
      assert DropLabels(cols, name) == [cols[0]] + (tc[..k - 1] + tc[k..]);
      SliceAfterHead(cols, k);
    }
  }

  /** ... and the cell of that column alone. */
  lemma {:induction false} DropSingleCell(cols: seq<string>, row: seq<Cell>, name: string, k: nat)
    requires |row| == |cols| && OnlyAt(cols, name, k)
    ensures DropCells(cols, row, name) == row[..k] + row[k + 1..]
  {
    var tc := cols[1..];
    var tr := row[1..];
    OnlyAtTail(cols, name, k);
    if k == 0 {
      DropNothing(tc, tr, name);
    } else {
      DropSingleCell(tc, tr, name, k - 1);
      SliceAfterHead(row, k);
    }
  }

  /** Cutting a sequence at `k` and cutting its tail at `k - 1` agree. */
  lemma SliceAfterHead<T>(s: seq<T>, k: nat)
    requires 0 < k < |s|
    ensures s[..k] == [s[0]] + s[1..][..k - 1]
    ensures s[1..][k..] == s[k + 1..]
  {
  }

  /** Dropping a column whose label occurs once removes exactly that position. */
  lemma DropColumnAt(t: Table, name: string, k: nat)
    requires WellFormed(t) && OnlyAt(t.columns, name, k)
    ensures DropColumn(t, name).columns == t.columns[..k] + t.columns[k + 1..]
    ensures forall i :: 0 <= i < |t.rows| ==> DropColumn(t, name).rows[i] == t.rows[i][..k] + t.rows[i][k + 1..]
  {
    DropSingleLabel(t.columns, name, k);
    forall i | 0 <= i < |t.rows| ensures DropColumn(t, name).rows[i] == t.rows[i][..k] + t.rows[i][k + 1..] {
      DropSingleCell(t.columns, t.rows[i], name, k);
    }
  }

  /** `df.fillna(value)`: every missing cell of every column becomes `value`. */
  function FillNulls(t: Table, value: string): (r: Table)
    requires WellFormed(t)
    ensures WellFormed(r) && r.columns == t.columns && |r.rows| == |t.rows|
    ensures forall i, k :: 0 <= i < |r.rows| && 0 <= k < |r.columns| ==> r.rows[i][k] != Null
    ensures forall i, k :: 0 <= i < |t.rows| && 0 <= k < |t.columns| ==>
      r.rows[i][k] == if t.rows[i][k] == Null then Str(value) else t.rows[i][k]
  {
    Table(t.columns, seq(|t.rows|, i requires 0 <= i < |t.rows| =>
      seq(|t.rows[i]|, k requires 0 <= k < |t.rows[i]| => if t.rows[i][k] == Null then Str(value) else t.rows[i][k])))
  }

  /** The row `fillna(value)` makes of `row`: every missing cell becomes `value`. */
  function FillRow(row: seq<Cell>, value: string): (r: seq<Cell>)
    ensures |r| == |row|
    ensures forall k :: 0 <= k < |row| ==> r[k] == if row[k] == Null then Str(value) else row[k]
  {
    seq(|row|, k requires 0 <= k < |row| => if row[k] == Null then Str(value) else row[k])
  }

  /** The rows of a filled table are exactly the filled rows of the table. */
  lemma FilledRows(t: Table, value: string, x: seq<Cell>)
    requires WellFormed(t)
    ensures x in t.rows ==> FillRow(x, value) in FillNulls(t, value).rows
    ensures x in FillNulls(t, value).rows ==> exists y :: y in t.rows && x == FillRow(y, value)
  {
    var f := FillNulls(t, value);
    if x in t.rows {
      var q :| 0 <= q < |t.rows| && t.rows[q] == x;
      assert f.rows[q] == FillRow(x, value);
    }
    if x in f.rows {
      var q :| 0 <= q < |f.rows| && f.rows[q] == x;
      assert x == FillRow(t.rows[q], value);
    }
  }

  /** Two rows of three cells side by side. */
  lemma JoinedTriples(a: seq<Cell>, b: seq<Cell>)
    requires |a| == 3 && |b| == 3
    ensures a + b == [a[0], a[1], a[2], b[0], b[1], b[2]]
  {
  }
}

=== FILE: mappingpage.dfy ===
/**
 * pages/2_Mapping.py, the mapping page of the multi-page application: it is
 * shown to logged-in visitors only, merges the uploaded products with the
 * uploaded laboratories on `Labos` = `ID` without any cast, renames the
 * laboratory columns, fills every missing cell with the placeholder and offers
 * the result as a UTF-8 CSV download.
 */
module MappingPage {
  import opened Wrappers
  import opened Frame
  import opened Schema
  import opened Merge
  import opened Session
  import Export
  import Utf8

  // ---------------------------------------------------------------------------
  // The mapping
  // ---------------------------------------------------------------------------

  /**
   * Lines 80-104: strip the labels, check the required columns (laboratories
   * first), merge products with laboratories, rename `Nom` and `Enterprises`,
   * and fill every missing cell with the placeholder. The labels are those of
   * the merge, suffixed `_produit` and `_labo` where both uploads carry them,
   * then renamed.
   */
  function MapUploads(labs: Table, prods: Table): (r: Result<Table, MappingError>)
    requires WellFormed(labs) && WellFormed(prods)
    ensures Validate(labs, prods).Failure? ==> r == Failure(Validate(labs, prods).error)
    ensures Validate(labs, prods).Success? ==>
      (r.Success? <==> Count(StripColumns(prods).columns, "Labos") == 1 && Count(StripColumns(labs).columns, "ID") == 1)
    ensures r.Failure? && Validate(labs, prods).Success? ==> r.error == MappingFailure
    ensures r.Success? ==>
      && WellFormed(r.value)
      && |r.value.rows| >= |prods.rows|
      && r.value.columns == MergedLabels(StripColumns(labs).columns, StripColumns(prods).columns, "_produit", "_labo")
      && (forall i, k :: 0 <= i < |r.value.rows| && 0 <= k < |r.value.columns| ==> r.value.rows[i][k] != Null)
  {
    var v := Validate(labs, prods);
    if v.Failure? then Failure(v.error) else MapChecked(v.value.0, v.value.1)
  }

  /** Lines 93-104 on uploads that passed the check: merge, rename and fill. */
  function MapChecked(l: Table, p: Table): (r: Result<Table, MappingError>)
    requires WellFormed(l) && WellFormed(p)
    ensures r.Success? <==> Count(p.columns, "Labos") == 1 && Count(l.columns, "ID") == 1
    ensures r.Failure? ==> r.error == MappingFailure
    ensures r.Success? ==>
      && WellFormed(r.value)
      && |r.value.rows| >= |p.rows|
      && r.value.columns == MergedLabels(l.columns, p.columns, "_produit", "_labo")
      && (forall i, k :: 0 <= i < |r.value.rows| && 0 <= k < |r.value.columns| ==> r.value.rows[i][k] != Null)
  {
    var merged := LeftMerge(p, "Labos", l, "ID", "_produit", "_labo");
    if merged.Failure? then Failure(MappingFailure)
    else
      PageLabels(l, p);
      Success(FillNulls(RenameColumns(merged.value, Rename), Sentinel))
  }

  /** The labels of the page's merge, after renaming, are the suffixed labels renamed. */
  lemma PageLabels(l: Table, p: Table)
    requires WellFormed(l) && WellFormed(p)
    requires LeftMerge(p, "Labos", l, "ID", "_produit", "_labo").Success?
    ensures RenameColumns(LeftMerge(p, "Labos", l, "ID", "_produit", "_labo").value, Rename).columns
            == MergedLabels(l.columns, p.columns, "_produit", "_labo")
    ensures |LeftMerge(p, "Labos", l, "ID", "_produit", "_labo").value.rows| >= |p.rows|
    ensures WellFormed(RenameColumns(LeftMerge(p, "Labos", l, "ID", "_produit", "_labo").value, Rename))
  {
  }

  /** The suffixed identifier labels. */
  lemma SuffixedIds()
    ensures "ID" + "_produit" == "ID_produit" && "ID" + "_labo" == "ID_labo"
  {
    var a := "ID" + "_produit";
    assert |a| == 10 && a[0] == 'I' && a[1] == 'D' && a[2..] == "_produit";
    var b := "ID" + "_labo";
    assert |b| == 7 && b[0] == 'I' && b[1] == 'D' && b[2..] == "_labo";
  }

  /** The labels of a merged, renamed and filled pair of tables that both have an `ID` column. */
  lemma MergeLabels(p: Table, l: Table)
    requires WellFormed(p) && WellFormed(l) && "ID" in p.columns && "ID" in l.columns
    requires LeftMerge(p, "Labos", l, "ID", "_produit", "_labo").Success?
    ensures "ID_produit" in RenameColumns(LeftMerge(p, "Labos", l, "ID", "_produit", "_labo").value, Rename).columns
    ensures "ID_labo" in RenameColumns(LeftMerge(p, "Labos", l, "ID", "_produit", "_labo").value, Rename).columns
    ensures "Nom" !in RenameColumns(LeftMerge(p, "Labos", l, "ID", "_produit", "_labo").value, Rename).columns
    ensures "Enterprises" !in RenameColumns(LeftMerge(p, "Labos", l, "ID", "_produit", "_labo").value, Rename).columns
  {
    var m := LeftMerge(p, "Labos", l, "ID", "_produit", "_labo").value;
    MergedIdLabels(p, l);
    RenamedLabels(m);
  }

  /** Merging two tables that both have an `ID` column keeps both, suffixed. */
  lemma MergedIdLabels(p: Table, l: Table)
    requires WellFormed(p) && WellFormed(l) && "ID" in p.columns && "ID" in l.columns
    requires LeftMerge(p, "Labos", l, "ID", "_produit", "_labo").Success?
    ensures "ID_produit" in LeftMerge(p, "Labos", l, "ID", "_produit", "_labo").value.columns
    ensures "ID_labo" in LeftMerge(p, "Labos", l, "ID", "_produit", "_labo").value.columns
  {
    SuffixedIds();
    SuffixedShared(p.columns, l.columns, "_produit", "ID");
    SuffixedShared(l.columns, p.columns, "_labo", "ID");
  }

  /**
   * For uploads in any column layout, the rows of a successful mapping are
   * exactly these, with every missing cell shown as the placeholder: each
   * product followed by each laboratory whose identifier equals its `Labos`
   * cell, and each product that no laboratory matches followed by missing
   * cells. `pk` and `lk` are the positions of `Labos` and `ID`.
   */
  lemma MappedRows(labs: Table, prods: Table, pk: nat, lk: nat, o: seq<Cell>)
    requires WellFormed(labs) && WellFormed(prods)
    requires IndexOf(StripColumns(prods).columns, "Labos") == Some(pk)
    requires IndexOf(StripColumns(labs).columns, "ID") == Some(lk)
    requires MapUploads(labs, prods).Success?
    ensures KeyedBy(prods.rows, pk) && KeyedBy(labs.rows, lk)
    ensures o in MapUploads(labs, prods).value.rows <==>
      || (exists i, j :: 0 <= i < |prods.rows| && 0 <= j < |labs.rows| && labs.rows[j][lk] == prods.rows[i][pk]
            && o == FillRow(prods.rows[i] + labs.rows[j], Sentinel))
      || (exists i :: 0 <= i < |prods.rows| && NoMatch(prods.rows[i][pk], labs.rows, lk)
            && o == FillRow(prods.rows[i] + NullRow(|labs.columns|), Sentinel))
  {
    PageRows(labs, prods, pk, lk);
    if o in MapUploads(labs, prods).value.rows {
      MappedRowOrigin(labs, prods, pk, lk, o);
    }
    if i, j :| 0 <= i < |prods.rows| && 0 <= j < |labs.rows| && labs.rows[j][lk] == prods.rows[i][pk]
               && o == FillRow(prods.rows[i] + labs.rows[j], Sentinel) {
      MappedPair(labs, prods, pk, lk, prods.rows[i] + labs.rows[j]);
    }
    if i :| 0 <= i < |prods.rows| && NoMatch(prods.rows[i][pk], labs.rows, lk)
            && o == FillRow(prods.rows[i] + NullRow(|labs.columns|), Sentinel) {
      MappedPair(labs, prods, pk, lk, prods.rows[i] + NullRow(|labs.columns|));
    }
  }

  /** Every row of a successful mapping is a filled joined row. */
  lemma MappedRowOrigin(labs: Table, prods: Table, pk: nat, lk: nat, o: seq<Cell>)
    requires WellFormed(labs) && WellFormed(prods)
    requires IndexOf(StripColumns(prods).columns, "Labos") == Some(pk)
    requires IndexOf(StripColumns(labs).columns, "ID") == Some(lk)
    requires MapUploads(labs, prods).Success?
    requires o in MapUploads(labs, prods).value.rows
    ensures KeyedBy(prods.rows, pk) && KeyedBy(labs.rows, lk)
    ensures exists y ::
      && o == FillRow(y, Sentinel)
      && (IsMatchedRow(y, prods.rows, pk, labs.rows, lk) || IsUnmatchedRow(y, prods.rows, pk, labs.rows, lk, |labs.columns|))
  {
    PageRows(labs, prods, pk, lk);
    var t := Table(MapUploads(labs, prods).value.columns, JoinRows(prods.rows, pk, labs.rows, lk, |labs.columns|));
    FilledRows(t, Sentinel, o);
    var y :| y in t.rows && o == FillRow(y, Sentinel);
    JoinMembership(prods.rows, pk, labs.rows, lk, |labs.columns|, y);
  }

  /** A matched pair or a padded unmatched product appears, filled, in a successful mapping. */
  lemma MappedPair(labs: Table, prods: Table, pk: nat, lk: nat, y: seq<Cell>)
    requires WellFormed(labs) && WellFormed(prods)
    requires IndexOf(StripColumns(prods).columns, "Labos") == Some(pk)
    requires IndexOf(StripColumns(labs).columns, "ID") == Some(lk)
    requires MapUploads(labs, prods).Success?
    requires KeyedBy(prods.rows, pk) && KeyedBy(labs.rows, lk)
    requires IsMatchedRow(y, prods.rows, pk, labs.rows, lk) || IsUnmatchedRow(y, prods.rows, pk, labs.rows, lk, |labs.columns|)
    ensures FillRow(y, Sentinel) in MapUploads(labs, prods).value.rows
  {
    PageRows(labs, prods, pk, lk);
    var t := Table(MapUploads(labs, prods).value.columns, JoinRows(prods.rows, pk, labs.rows, lk, |labs.columns|));
    JoinMembership(prods.rows, pk, labs.rows, lk, |labs.columns|, y);
    FilledRows(t, Sentinel, y);
  }

  /** A successful mapping is the filled join of the uploads' rows, under its own labels. */
  lemma PageRows(labs: Table, prods: Table, pk: nat, lk: nat)
    requires WellFormed(labs) && WellFormed(prods)
    requires IndexOf(StripColumns(prods).columns, "Labos") == Some(pk)
    requires IndexOf(StripColumns(labs).columns, "ID") == Some(lk)
    requires MapUploads(labs, prods).Success?
    ensures KeyedBy(prods.rows, pk) && KeyedBy(labs.rows, lk)
    ensures WellFormed(Table(MapUploads(labs, prods).value.columns, JoinRows(prods.rows, pk, labs.rows, lk, |labs.columns|)))
    ensures MapUploads(labs, prods).value
      == FillNulls(Table(MapUploads(labs, prods).value.columns, JoinRows(prods.rows, pk, labs.rows, lk, |labs.columns|)), Sentinel)
  {
    var l, p := StripColumns(labs), StripColumns(prods);
    assert Validate(labs, prods) == Success((l, p));
    KeyColumn(p, pk);
    KeyColumn(l, lk);
    var m := LeftMerge(p, "Labos", l, "ID", "_produit", "_labo").value;
    var t := RenameColumns(m, Rename);
    assert MapUploads(labs, prods).value == FillNulls(t, Sentinel);
  }

  /**
   * A successful mapping keeps both identifier columns, told apart by their
   * suffixes, and no label is left as `Nom` or `Enterprises`.
   */
  lemma MappedLabels(labs: Table, prods: Table)
    requires WellFormed(labs) && WellFormed(prods)
    requires MapUploads(labs, prods).Success?
    ensures "ID_produit" in MapUploads(labs, prods).value.columns
    ensures "ID_labo" in MapUploads(labs, prods).value.columns
    ensures "Nom" !in MapUploads(labs, prods).value.columns
    ensures "Enterprises" !in MapUploads(labs, prods).value.columns
  {
    var l, p := StripColumns(labs), StripColumns(prods);
    assert Validate(labs, prods) == Success((l, p));
    assert "ID" in p.columns && "ID" in l.columns;
    MergeLabels(p, l);
  }

  // ---------------------------------------------------------------------------
  // The page
  // ---------------------------------------------------------------------------

  /** What one run of the page shows. */
  datatype Outcome =
    | MustLogIn                                     // lines 12-14: warning, then stop
    | SessionIncomplete                             // line 37 reads a key the session lacks
    | AwaitingUploads                               // lines 127-128
    | Failed(error: MappingError)                   // lines 84-90 and 125-126
    | Offered(mapping: Table, download: seq<Utf8.Byte>)  // lines 106-121

  /** Lines 12-14: only a session whose `authenticated` entry is truthy may enter. */
  predicate MayEnter(st: Store) {
    IsAuthenticated(st)
  }

  /**
   * One run of the page, given the session and the parsed uploads (`None`
   * while a file is not uploaded).
   */
  function Page(st: Store, labs: Option<Table>, prods: Option<Table>): (r: Outcome)
    requires labs.Some? ==> WellFormed(labs.value)
    requires prods.Some? ==> WellFormed(prods.value)
    ensures r == MustLogIn <==> !MayEnter(st)
    ensures r == SessionIncomplete <==> MayEnter(st) && !("username" in st && "role" in st)
    ensures r == AwaitingUploads <==>
      MayEnter(st) && "username" in st && "role" in st && (labs.None? || prods.None?)
    ensures r.Failed? ==>
      labs.Some? && prods.Some? && MapUploads(labs.value, prods.value) == Failure(r.error)
    ensures r.Offered? ==>
      && labs.Some? && prods.Some?
      && MapUploads(labs.value, prods.value) == Success(r.mapping)
      && Export.ReadBack(r.download) == Some(Export.Records(r.mapping))
  {
    if !MayEnter(st) then MustLogIn
    else if !("username" in st && "role" in st) then SessionIncomplete
    else if labs.None? || prods.None? then AwaitingUploads
    else
      match MapUploads(labs.value, prods.value)
      case Failure(e) => Failed(e)
      case Success(m) =>
        MappedLabels(labs.value, prods.value);
        Offered(m, Export.ToCsv(m))
  }

  /** Both files uploaded by an entitled visitor always end in a download or an error. */
  lemma UploadsAreProcessed(st: Store, labs: Table, prods: Table)
    requires WellFormed(labs) && WellFormed(prods)
    requires MayEnter(st) && "username" in st && "role" in st
    ensures Page(st, Some(labs), Some(prods)).Offered? <==> MapUploads(labs, prods).Success?
    ensures Page(st, Some(labs), Some(prods)).Failed? <==> MapUploads(labs, prods).Failure?
  {
  }

  // ---------------------------------------------------------------------------
  // The mapping of files in the required layout
  // ---------------------------------------------------------------------------

  /** The labels of the page's mapping of files in the required layout. */
  const PageLayout: seq<string> :=
    ["ID_produit", "Labos", "Entreprises", "ID_labo", "Nom Laboratoire", "Entreprise ID"]

  /** `fillna` on one cell. */
  function Fill(c: Cell): (r: Cell)
    ensures r != Null
    ensures c.Str? ==> r == c
  {
    if c == Null then Str(Sentinel) else c
  }

  /** The first laboratory whose identifier cell equals `key` (pandas matches missing keys too). */
  function LabWithId(labRows: seq<seq<Cell>>, key: Cell): (r: Option<nat>)
    requires forall j :: 0 <= j < |labRows| ==> |labRows[j]| == 3
    ensures r.Some? ==> r.value < |labRows| && labRows[r.value][0] == key
    ensures r.None? <==> forall j :: 0 <= j < |labRows| ==> labRows[j][0] != key
  {
    if labRows == [] then None
    else if labRows[0][0] == key then Some(0)
    else
      match LabWithId(labRows[1..], key)
      case None =>
        assert forall j :: 1 <= j < |labRows| ==> labRows[j] == labRows[1..][j - 1];
        None
      case Some(j) => Some(j + 1)
  }

  /**
   * The mapping of files in the required layout, stated independently of the
   * pipeline:
   * per product, its three cells, then the identifier, name and company of the
   * laboratory it references, every missing cell shown as the placeholder, and
   * the placeholder three times when no laboratory has that identifier.
   */
  function DescribedMapping(labRows: seq<seq<Cell>>, prodRows: seq<seq<Cell>>): (r: Table)
    requires forall j :: 0 <= j < |labRows| ==> |labRows[j]| == 3
    requires forall i :: 0 <= i < |prodRows| ==> |prodRows[i]| == 3
    ensures r.columns == PageLayout && |r.rows| == |prodRows|
  {
    Table(PageLayout, seq(|prodRows|, i requires 0 <= i < |prodRows| =>
      var prod := prodRows[i];
      match LabWithId(labRows, prod[1])
      case Some(j) =>
        var lab := labRows[j];
        [Fill(prod[0]), Fill(prod[1]), Fill(prod[2]), Fill(lab[0]), Fill(lab[1]), Fill(lab[2])]
      case None =>
        [Fill(prod[0]), Fill(prod[1]), Fill(prod[2]), Str(Sentinel), Str(Sentinel), Str(Sentinel)]))
  }

  lemma PageKeys()
    ensures Count(ProductLayout, "Labos") == 1 && IndexOf(ProductLayout, "Labos") == Some(1)
    ensures Count(LabLayout, "ID") == 1 && IndexOf(LabLayout, "ID") == Some(0)
  {
    assert ProductLayout[1..] == ["Labos", "Entreprises"];
    assert ProductLayout[1..][1..] == ["Entreprises"];
    assert LabLayout[1..] == ["Nom", "Enterprises"];
  }

  lemma PageSuffixes()
    ensures Suffixed(ProductLayout, LabLayout, "_produit") == ["ID_produit", "Labos", "Entreprises"]
    ensures Suffixed(LabLayout, ProductLayout, "_labo") == ["ID_labo", "Nom", "Enterprises"]
  {
    var sp := Suffixed(ProductLayout, LabLayout, "_produit");
    assert "ID" in LabLayout && "Labos" !in LabLayout && "Entreprises" !in LabLayout;
    assert sp[0] == "ID" + "_produit" == "ID_produit";
    assert sp[1] == "Labos" && sp[2] == "Entreprises" && |sp| == 3;
    var sl := Suffixed(LabLayout, ProductLayout, "_labo");
    assert "ID" in ProductLayout && "Nom" !in ProductLayout && "Enterprises" !in ProductLayout;
    assert sl[0] == "ID" + "_labo" == "ID_labo";
    assert sl[1] == "Nom" && sl[2] == "Enterprises" && |sl| == 3;
  }

  /** The merge of stripped tables in the required layout. */
  lemma PageMerge(l: Table, p: Table)
    requires WellFormed(l) && WellFormed(p) && l.columns == LabLayout && p.columns == ProductLayout
    ensures LeftMerge(p, "Labos", l, "ID", "_produit", "_labo").Success?
    ensures LeftMerge(p, "Labos", l, "ID", "_produit", "_labo").value
      == Table(["ID_produit", "Labos", "Entreprises", "ID_labo", "Nom", "Enterprises"], JoinRows(p.rows, 1, l.rows, 0, 3))
  {
    PageKeys();
    PageSuffixes();
    var sp := Suffixed(ProductLayout, LabLayout, "_produit");
    var sl := Suffixed(LabLayout, ProductLayout, "_labo");
    assert sp + sl == ["ID_produit", "Labos", "Entreprises", "ID_labo", "Nom", "Enterprises"];
  }

  lemma PageRename(m: Table)
    requires m.columns == ["ID_produit", "Labos", "Entreprises", "ID_labo", "Nom", "Enterprises"]
    ensures RenameColumns(m, Rename).columns == PageLayout
  {
    var rc := RenameColumns(m, Rename).columns;
    assert rc[0] == Rename("ID_produit") == "ID_produit";
    assert rc[1] == Rename("Labos") == "Labos";
    assert rc[2] == Rename("Entreprises") == "Entreprises";
    assert rc[3] == Rename("ID_labo") == "ID_labo";
  }

  /** The joined rows of stripped tables in the required layout. */
  function PageJoin(l: Table, p: Table): (rows: seq<seq<Cell>>)
    requires WellFormed(l) && WellFormed(p) && l.columns == LabLayout && p.columns == ProductLayout
    ensures |rows| >= |p.rows|
    ensures forall i :: 0 <= i < |rows| ==> |rows[i]| == 6
  {
    PageJoinWidth(l, p);
    JoinRows(p.rows, 1, l.rows, 0, 3)
  }

  lemma PageJoinWidth(l: Table, p: Table)
    requires WellFormed(l) && WellFormed(p) && l.columns == LabLayout && p.columns == ProductLayout
    ensures KeyedBy(p.rows, 1) && KeyedBy(l.rows, 0)
    ensures forall i :: 0 <= i < |JoinRows(p.rows, 1, l.rows, 0, 3)| ==> |JoinRows(p.rows, 1, l.rows, 0, 3)[i]| == 6
  {
    KeyColumn(p, 1);
    KeyColumn(l, 0);
    var rows := JoinRows(p.rows, 1, l.rows, 0, 3);
    JoinRowsWidth(p.rows, 1, l.rows, 0, 3, 3);
    forall i | 0 <= i < |rows| ensures |rows[i]| == 6 {
      assert rows[i] in rows;
    }
  }

  /** Files in the required layout go through the page's pipeline as this merge, renamed and filled. */
  lemma PagePipeline(labs: Table, prods: Table)
    requires WellFormed(labs) && WellFormed(prods)
    requires StripColumns(labs).columns == LabLayout && StripColumns(prods).columns == ProductLayout
    ensures MapUploads(labs, prods)
      == Success(FillNulls(Table(PageLayout, PageJoin(StripColumns(labs), StripColumns(prods))), Sentinel))
  {
    var l, p := StripColumns(labs), StripColumns(prods);
    assert Validate(labs, prods) == Success((l, p)) by {
      assert HasColumns(l, LabColumns) && HasColumns(p, ProductColumns);
    }
    PageMergedRenamed(l, p);
  }

  /** The merge of stripped tables in the required layout, renamed. */
  lemma PageMergedRenamed(l: Table, p: Table)
    requires WellFormed(l) && WellFormed(p) && l.columns == LabLayout && p.columns == ProductLayout
    ensures LeftMerge(p, "Labos", l, "ID", "_produit", "_labo").Success?
    ensures RenameColumns(LeftMerge(p, "Labos", l, "ID", "_produit", "_labo").value, Rename)
      == Table(PageLayout, PageJoin(l, p))
  {
    PageMerge(l, p);
    var m := LeftMerge(p, "Labos", l, "ID", "_produit", "_labo").value;
    PageRename(m);
  }

  /** With distinct laboratory identifiers the join keeps one row per product. */
  lemma PageJoinLength(l: Table, p: Table)
    requires WellFormed(l) && WellFormed(p) && l.columns == LabLayout && p.columns == ProductLayout
    requires UniqueKeys(l.rows, 0)
    ensures |PageJoin(l, p)| == |p.rows|
  {
    UniqueKeysOneRowEach(p.rows, 1, l.rows, 0, 3);
  }

  /** Row `i` of the join: the product followed by its laboratory, or by padding. */
  lemma PageJoinRow(l: Table, p: Table, i: nat)
    requires WellFormed(l) && WellFormed(p) && l.columns == LabLayout && p.columns == ProductLayout
    requires UniqueKeys(l.rows, 0)
    requires i < |p.rows|
    ensures |PageJoin(l, p)| == |p.rows|
    ensures LabWithId(l.rows, p.rows[i][1]).Some? ==>
      PageJoin(l, p)[i] == p.rows[i] + l.rows[LabWithId(l.rows, p.rows[i][1]).value]
    ensures LabWithId(l.rows, p.rows[i][1]).None? ==> PageJoin(l, p)[i] == p.rows[i] + NullRow(3)
  {
    match LabWithId(l.rows, p.rows[i][1])
    case Some(j) =>
      UniqueKeysMatchedRow(p.rows, 1, l.rows, 0, 3, i, j);
    case None =>
      assert NoMatch(p.rows[i][1], l.rows, 0);
      UniqueKeysUnmatchedRow(p.rows, 1, l.rows, 0, 3, i);
  }

  /** Row `i` of the filled join is row `i` of the described mapping. */
  lemma PageDescribedRow(l: Table, p: Table, i: nat)
    requires WellFormed(l) && WellFormed(p) && l.columns == LabLayout && p.columns == ProductLayout
    requires UniqueKeys(l.rows, 0)
    requires i < |p.rows|
    ensures |FillNulls(Table(PageLayout, PageJoin(l, p)), Sentinel).rows| == |p.rows|
    ensures FillNulls(Table(PageLayout, PageJoin(l, p)), Sentinel).rows[i] == DescribedMapping(l.rows, p.rows).rows[i]
  {
    var joined := Table(PageLayout, PageJoin(l, p));
    PageJoinRow(l, p, i);
    FilledRow(joined, i);
    var prod := p.rows[i];
    match LabWithId(l.rows, prod[1])
    case Some(j) =>
      JoinedTriples(prod, l.rows[j]);
    case None =>
      JoinedTriples(prod, NullRow(3));
  }

  /** Row `i` of a filled six-column table, cell by cell. */
  lemma FilledRow(t: Table, i: nat)
    requires WellFormed(t) && |t.columns| == 6 && i < |t.rows|
    ensures var row := t.rows[i];
      FillNulls(t, Sentinel).rows[i] == [Fill(row[0]), Fill(row[1]), Fill(row[2]), Fill(row[3]), Fill(row[4]), Fill(row[5])]
  {
    var out := FillNulls(t, Sentinel).rows[i];
    forall k | 0 <= k < 6 ensures out[k] == Fill(t.rows[i][k]) { }
  }

  /** The filled join of stripped tables in the required layout is the described mapping. */
  lemma PageDescribed(l: Table, p: Table)
    requires WellFormed(l) && WellFormed(p) && l.columns == LabLayout && p.columns == ProductLayout
    requires UniqueKeys(l.rows, 0)
    ensures FillNulls(Table(PageLayout, PageJoin(l, p)), Sentinel) == DescribedMapping(l.rows, p.rows)
  {
    var out := FillNulls(Table(PageLayout, PageJoin(l, p)), Sentinel);
    var d := DescribedMapping(l.rows, p.rows);
    PageJoinLength(l, p);
    forall i | 0 <= i < |p.rows| ensures out.rows[i] == d.rows[i] {
      PageDescribedRow(l, p, i);
    }
    assert out.rows == d.rows;
  }

  /**
   * Files in the required layout whose laboratory identifiers are distinct
   * map to exactly the described table: one row per product, in product order.
   */
  lemma RequiredLayoutMapping(labs: Table, prods: Table)
    requires WellFormed(labs) && WellFormed(prods)
    requires StripColumns(labs).columns == LabLayout && StripColumns(prods).columns == ProductLayout
    requires UniqueKeys(labs.rows, 0)
    ensures |labs.columns| == 3 && |prods.columns| == 3
    ensures MapUploads(labs, prods) == Success(DescribedMapping(labs.rows, prods.rows))
  {
    PagePipeline(labs, prods);
    PageDescribed(StripColumns(labs), StripColumns(prods));
  }
}

=== FILE: merge.dfy ===
/**
 * pandas' `left.merge(right, left_on=..., right_on=..., how="left",
 * suffixes=...)`: a left outer join that keeps every left row in order, one
 * output row per matching right row (in right order), or one row padded with
 * missing cells when nothing matches. Keys compare as cells, so a missing key
 * matches a missing key, as it does in pandas.
 */
module Merge {
  import opened Wrappers
  import opened Frame

  /** pandas refuses a key label that is absent or carried by several columns. */
  datatype MergeError = InvalidKeyColumn(name: string)

  /** Every row has a cell at position `k`. */
  predicate KeyedBy(rows: seq<seq<Cell>>, k: nat) {
    forall j :: 0 <= j < |rows| ==> k < |rows[j]|
  }

  /** Labels after the merge: a label that the other table also carries gets `suffix`. */
  function Suffixed(cols: seq<string>, other: seq<string>, suffix: string): (r: seq<string>)
    ensures |r| == |cols|
    ensures forall k :: 0 <= k < |cols| ==> r[k] == if cols[k] in other then cols[k] + suffix else cols[k]
  {
    seq(|cols|, k requires 0 <= k < |cols| => if cols[k] in other then cols[k] + suffix else cols[k])
  }

  /** A label both tables have comes out of the merge with the suffix appended. */
  lemma SuffixedShared(cols: seq<string>, other: seq<string>, suffix: string, x: string)
    requires x in cols && x in other
    ensures x + suffix in Suffixed(cols, other, suffix)
  {
    var k :| 0 <= k < |cols| && cols[k] == x;
    assert Suffixed(cols, other, suffix)[k] == x + suffix;
  }

  /**
   * A label whose last character differs from the suffix's is among the merged
   * labels exactly when this table carries it and the other does not.
   */
  lemma SuffixedMember(cols: seq<string>, other: seq<string>, suffix: string, x: string)
    requires |suffix| > 0 && |x| > 0 && x[|x| - 1] != suffix[|suffix| - 1]
    ensures x in Suffixed(cols, other, suffix) <==> x in cols && x !in other
  {
    var r := Suffixed(cols, other, suffix);
    forall k | 0 <= k < |r| && cols[k] in other ensures r[k] != x {
      assert r[k][|r[k]| - 1] == suffix[|suffix| - 1];
    }
    if x in cols && x !in other {
      var k :| 0 <= k < |cols| && cols[k] == x;
      assert r[k] == x;
    }
  }

  /** The padding of an unmatched row: `n` missing cells. */
  function NullRow(n: nat): (r: seq<Cell>)
    ensures |r| == n
    ensures forall k :: 0 <= k < n ==> r[k] == Null
  {
    seq(n, k => Null)
  }

  /** The right rows whose key equals `key`, in their original order. */
  function Matches(rows: seq<seq<Cell>>, rk: nat, key: Cell): (r: seq<seq<Cell>>)
    requires KeyedBy(rows, rk)
    ensures |r| <= |rows|
    ensures forall x :: x in r <==> x in rows && x[rk] == key
  {
    if rows == [] then []
    else (if rows[0][rk] == key then [rows[0]] else []) + Matches(rows[1..], rk, key)
  }

  /** The output rows produced by one left row. */
  function Block(lrow: seq<Cell>, lk: nat, rrows: seq<seq<Cell>>, rk: nat, rwidth: nat): (r: seq<seq<Cell>>)
    requires lk < |lrow| && KeyedBy(rrows, rk)
    ensures |r| >= 1
  {
    var ms := Matches(rrows, rk, lrow[lk]);
    if ms == [] then [lrow + NullRow(rwidth)]
    else seq(|ms|, m requires 0 <= m < |ms| => lrow + ms[m])
  }

  /** The output rows of the join: the blocks of the left rows, in left order. */
  function JoinRows(lrows: seq<seq<Cell>>, lk: nat, rrows: seq<seq<Cell>>, rk: nat, rwidth: nat): (r: seq<seq<Cell>>)
    requires KeyedBy(lrows, lk) && KeyedBy(rrows, rk)
    ensures |r| >= |lrows|
  {
    if lrows == [] then []
    else Block(lrows[0], lk, rrows, rk, rwidth) + JoinRows(lrows[1..], lk, rrows, rk, rwidth)
  }

  /**
   * The merge: suffixed left labels then suffixed right labels, and the joined
   * rows; it fails when a key label does not name exactly one column.
   */
  function LeftMerge(left: Table, leftOn: string, right: Table, rightOn: string,
                     leftSuffix: string, rightSuffix: string): (r: Result<Table, MergeError>)
    requires WellFormed(left) && WellFormed(right)
    ensures r.Success? <==> Count(left.columns, leftOn) == 1 && Count(right.columns, rightOn) == 1
    ensures r.Success? ==>
      && WellFormed(r.value)
      && r.value.columns == Suffixed(left.columns, right.columns, leftSuffix)
                            + Suffixed(right.columns, left.columns, rightSuffix)
      && r.value.rows == JoinRows(left.rows, IndexOf(left.columns, leftOn).value,
                                  right.rows, IndexOf(right.columns, rightOn).value, |right.columns|)
  {
    if Count(left.columns, leftOn) != 1 then Failure(InvalidKeyColumn(leftOn))
    else if Count(right.columns, rightOn) != 1 then Failure(InvalidKeyColumn(rightOn))
    else
      var lk := IndexOf(left.columns, leftOn).value;
      var rk := IndexOf(right.columns, rightOn).value;
      MergedWellFormed(left, lk, right, rk, leftSuffix, rightSuffix);
      Success(Table(Suffixed(left.columns, right.columns, leftSuffix)
                    + Suffixed(right.columns, left.columns, rightSuffix),
                    JoinRows(left.rows, lk, right.rows, rk, |right.columns|)))
  }

  /** Every joined row is as wide as the two label sequences together. */
  lemma MergedWellFormed(left: Table, lk: nat, right: Table, rk: nat, leftSuffix: string, rightSuffix: string)
    requires WellFormed(left) && WellFormed(right) && lk < |left.columns| && rk < |right.columns|
    ensures KeyedBy(left.rows, lk) && KeyedBy(right.rows, rk)
    ensures WellFormed(Table(Suffixed(left.columns, right.columns, leftSuffix)
                             + Suffixed(right.columns, left.columns, rightSuffix),
                             JoinRows(left.rows, lk, right.rows, rk, |right.columns|)))
  {
    KeyColumn(left, lk);
    KeyColumn(right, rk);
    var rows := JoinRows(left.rows, lk, right.rows, rk, |right.columns|);
    JoinRowsWidth(left.rows, lk, right.rows, rk, |left.columns|, |right.columns|);
    var cols := Suffixed(left.columns, right.columns, leftSuffix) + Suffixed(right.columns, left.columns, rightSuffix);
    assert |cols| == |left.columns| + |right.columns|;
    forall i | 0 <= i < |rows| ensures |rows[i]| == |cols| {
      assert rows[i] in rows;
    }
  }

  /** Every row of a well-formed table has a cell at each column position. */
  lemma KeyColumn(t: Table, k: nat)
    requires WellFormed(t) && k < |t.columns|
    ensures KeyedBy(t.rows, k)
  {
  }

  /** Every joined row is a left row followed by a right row or by padding. */
  lemma {:induction false} JoinRowsWidth(lrows: seq<seq<Cell>>, lk: nat, rrows: seq<seq<Cell>>, rk: nat,
                                         lwidth: nat, rwidth: nat)
    requires KeyedBy(lrows, lk) && KeyedBy(rrows, rk)
    requires forall i :: 0 <= i < |lrows| ==> |lrows[i]| == lwidth
    requires forall j :: 0 <= j < |rrows| ==> |rrows[j]| == rwidth
    ensures forall o :: o in JoinRows(lrows, lk, rrows, rk, rwidth) ==> |o| == lwidth + rwidth
  {
    if lrows != [] {
      JoinRowsWidth(lrows[1..], lk, rrows, rk, lwidth, rwidth);
      BlockWidth(lrows[0], lk, rrows, rk, rwidth);
    }
  }

  /** Every row a left row produces is that row followed by `rwidth` cells. */
  lemma BlockWidth(lrow: seq<Cell>, lk: nat, rrows: seq<seq<Cell>>, rk: nat, rwidth: nat)
    requires lk < |lrow| && KeyedBy(rrows, rk)
    requires forall j :: 0 <= j < |rrows| ==> |rrows[j]| == rwidth
    ensures forall o :: o in Block(lrow, lk, rrows, rk, rwidth) ==> |o| == |lrow| + rwidth
  {
    var ms := Matches(rrows, rk, lrow[lk]);
    forall o | o in Block(lrow, lk, rrows, rk, rwidth) ensures |o| == |lrow| + rwidth {
      if ms != [] {
        var m :| 0 <= m < |ms| && o == lrow + ms[m];
        assert ms[m] in ms;
      }
    }
  }

  /** A joined row pairs a left row with a right row carrying the same key. */
  ghost predicate IsMatchedRow(o: seq<Cell>, lrows: seq<seq<Cell>>, lk: nat, rrows: seq<seq<Cell>>, rk: nat)
    requires KeyedBy(lrows, lk) && KeyedBy(rrows, rk)
  {
    exists i, j :: 0 <= i < |lrows| && 0 <= j < |rrows| && rrows[j][rk] == lrows[i][lk] && o == lrows[i] + rrows[j]
  }

  /** A joined row pads a left row whose key no right row carries. */
  ghost predicate IsUnmatchedRow(o: seq<Cell>, lrows: seq<seq<Cell>>, lk: nat, rrows: seq<seq<Cell>>, rk: nat, rwidth: nat)
    requires KeyedBy(lrows, lk) && KeyedBy(rrows, rk)
  {
    exists i :: 0 <= i < |lrows| && NoMatch(lrows[i][lk], rrows, rk) && o == lrows[i] + NullRow(rwidth)
  }

  /** No right row carries `key`. */
  predicate NoMatch(key: Cell, rrows: seq<seq<Cell>>, rk: nat)
    requires KeyedBy(rrows, rk)
  {
    forall j :: 0 <= j < |rrows| ==> rrows[j][rk] != key
  }

  lemma BlockMembership(lrow: seq<Cell>, lk: nat, rrows: seq<seq<Cell>>, rk: nat, rwidth: nat, o: seq<Cell>)
    requires lk < |lrow| && KeyedBy(rrows, rk)
    ensures o in Block(lrow, lk, rrows, rk, rwidth) <==>
      (exists j :: 0 <= j < |rrows| && rrows[j][rk] == lrow[lk] && o == lrow + rrows[j])
      || (NoMatch(lrow[lk], rrows, rk) && o == lrow + NullRow(rwidth))
  {
    var ms := Matches(rrows, rk, lrow[lk]);
    var b := Block(lrow, lk, rrows, rk, rwidth);
    if ms == [] {
      assert NoMatch(lrow[lk], rrows, rk);
    } else {
      assert !NoMatch(lrow[lk], rrows, rk) by {
        assert ms[0] in ms;
        var j :| 0 <= j < |rrows| && rrows[j] == ms[0];
      }
      if o in b {
        var m :| 0 <= m < |ms| && o == lrow + ms[m];
        assert ms[m] in ms;
        var j :| 0 <= j < |rrows| && rrows[j] == ms[m];
      }
      if j :| 0 <= j < |rrows| && rrows[j][rk] == lrow[lk] && o == lrow + rrows[j] {
        assert rrows[j] in ms;
        var m :| 0 <= m < |ms| && ms[m] == rrows[j];
        assert b[m] == o;
      }
    }
  }

  /**
   * The join contains exactly the matched pairs and the padded unmatched left
   * rows: nothing is invented and no left row is lost.
   */
  lemma {:induction false} JoinMembership(lrows: seq<seq<Cell>>, lk: nat, rrows: seq<seq<Cell>>, rk: nat, rwidth: nat, o: seq<Cell>)
    requires KeyedBy(lrows, lk) && KeyedBy(rrows, rk)
    ensures o in JoinRows(lrows, lk, rrows, rk, rwidth) <==>
      IsMatchedRow(o, lrows, lk, rrows, rk) || IsUnmatchedRow(o, lrows, lk, rrows, rk, rwidth)
  {
    if lrows != [] {
      JoinMembership(lrows[1..], lk, rrows, rk, rwidth, o);
      BlockMembership(lrows[0], lk, rrows, rk, rwidth, o);
      MatchedCons(o, lrows, lk, rrows, rk);
      UnmatchedCons(o, lrows, lk, rrows, rk, rwidth);
    }
  }

  /** A matched row of a non-empty left side comes from its first row or from the rest. */
  lemma MatchedCons(o: seq<Cell>, lrows: seq<seq<Cell>>, lk: nat, rrows: seq<seq<Cell>>, rk: nat)
    requires lrows != [] && KeyedBy(lrows, lk) && KeyedBy(rrows, rk)
    ensures IsMatchedRow(o, lrows, lk, rrows, rk) <==>
      (exists j :: 0 <= j < |rrows| && rrows[j][rk] == lrows[0][lk] && o == lrows[0] + rrows[j])
      || IsMatchedRow(o, lrows[1..], lk, rrows, rk)
  {
    var tl := lrows[1..];
    if IsMatchedRow(o, lrows, lk, rrows, rk) {
      var i, j :| 0 <= i < |lrows| && 0 <= j < |rrows| && rrows[j][rk] == lrows[i][lk] && o == lrows[i] + rrows[j];
      if i > 0 {
        assert tl[i - 1] == lrows[i];
      }
    }
    if IsMatchedRow(o, tl, lk, rrows, rk) {
      var i, j :| 0 <= i < |tl| && 0 <= j < |rrows| && rrows[j][rk] == tl[i][lk] && o == tl[i] + rrows[j];
      assert lrows[i + 1] == tl[i];
    }
  }

  /** An unmatched row of a non-empty left side comes from its first row or from the rest. */
  lemma UnmatchedCons(o: seq<Cell>, lrows: seq<seq<Cell>>, lk: nat, rrows: seq<seq<Cell>>, rk: nat, rwidth: nat)
    requires lrows != [] && KeyedBy(lrows, lk) && KeyedBy(rrows, rk)
    ensures IsUnmatchedRow(o, lrows, lk, rrows, rk, rwidth) <==>
      (NoMatch(lrows[0][lk], rrows, rk) && o == lrows[0] + NullRow(rwidth))
      || IsUnmatchedRow(o, lrows[1..], lk, rrows, rk, rwidth)
  {
    var tl := lrows[1..];
    if IsUnmatchedRow(o, lrows, lk, rrows, rk, rwidth) {
      var i :| 0 <= i < |lrows| && NoMatch(lrows[i][lk], rrows, rk) && o == lrows[i] + NullRow(rwidth);
      if i > 0 {
        assert tl[i - 1] == lrows[i];
      }
    }
    if IsUnmatchedRow(o, tl, lk, rrows, rk, rwidth) {
      var i :| 0 <= i < |tl| && NoMatch(tl[i][lk], rrows, rk) && o == tl[i] + NullRow(rwidth);
      assert lrows[i + 1] == tl[i];
    }
  }


  /** Number of output rows for one left row: its matches, or one when there are none. */
  function FanOut(lrow: seq<Cell>, lk: nat, rrows: seq<seq<Cell>>, rk: nat): (r: nat)
    requires lk < |lrow| && KeyedBy(rrows, rk)
    ensures r >= 1
  {
    var n := |Matches(rrows, rk, lrow[lk])|;
    if n == 0 then 1 else n
  }

  function TotalFanOut(lrows: seq<seq<Cell>>, lk: nat, rrows: seq<seq<Cell>>, rk: nat): (r: nat)
    requires KeyedBy(lrows, lk) && KeyedBy(rrows, rk)
    ensures r >= |lrows|
  {
    if lrows == [] then 0 else FanOut(lrows[0], lk, rrows, rk) + TotalFanOut(lrows[1..], lk, rrows, rk)
  }

  /** Row count of the join: each left row contributes its matches, or one row when unmatched. */
  lemma {:induction false} JoinCardinality(lrows: seq<seq<Cell>>, lk: nat, rrows: seq<seq<Cell>>, rk: nat, rwidth: nat)
    requires KeyedBy(lrows, lk) && KeyedBy(rrows, rk)
    ensures |JoinRows(lrows, lk, rrows, rk, rwidth)| == TotalFanOut(lrows, lk, rrows, rk)
  {
    if lrows != [] {
      JoinCardinality(lrows[1..], lk, rrows, rk, rwidth);
    }
  }

  /** No two right rows carry the same key. */
  predicate UniqueKeys(rrows: seq<seq<Cell>>, rk: nat)
    requires KeyedBy(rrows, rk)
  {
    forall j1, j2 :: 0 <= j1 < |rrows| && 0 <= j2 < |rrows| && rrows[j1][rk] == rrows[j2][rk] ==> j1 == j2
  }

  lemma {:induction false} UniqueMatches(rrows: seq<seq<Cell>>, rk: nat, key: Cell, j: nat)
    requires KeyedBy(rrows, rk) && UniqueKeys(rrows, rk)
    requires j < |rrows| && rrows[j][rk] == key
    ensures Matches(rrows, rk, key) == [rrows[j]]
  {
    var tl := rrows[1..];
    assert UniqueKeys(tl, rk) by {
      forall j1, j2 | 0 <= j1 < |tl| && 0 <= j2 < |tl| && tl[j1][rk] == tl[j2][rk] ensures j1 == j2 {
        assert rrows[j1 + 1] == tl[j1] && rrows[j2 + 1] == tl[j2];
      }
    }
    if j == 0 {
      NoOtherMatch(tl, rk, key) by {
        forall j' | 0 <= j' < |tl| ensures tl[j'][rk] != key {
          assert rrows[j' + 1] == tl[j'];
        }
      }
    } else {
      assert tl[j - 1] == rrows[j];
      UniqueMatches(tl, rk, key, j - 1);
    }
  }

  lemma {:induction false} NoOtherMatch(rrows: seq<seq<Cell>>, rk: nat, key: Cell)
    requires KeyedBy(rrows, rk) && NoMatch(key, rrows, rk)
    ensures Matches(rrows, rk, key) == []
  {
    if rrows != [] {
      NoOtherMatch(rrows[1..], rk, key);
    }
  }

  /**
   * With unique right keys the join has exactly one row per left row, in left
   * order: the left row followed by its match, or by padding when none.
   */
  lemma {:induction false} UniqueKeysOneRowEach(lrows: seq<seq<Cell>>, lk: nat, rrows: seq<seq<Cell>>, rk: nat, rwidth: nat)
    requires KeyedBy(lrows, lk) && KeyedBy(rrows, rk) && UniqueKeys(rrows, rk)
    ensures |JoinRows(lrows, lk, rrows, rk, rwidth)| == |lrows|
    ensures forall i, j :: 0 <= i < |lrows| && 0 <= j < |rrows| && rrows[j][rk] == lrows[i][lk] ==>
      JoinRows(lrows, lk, rrows, rk, rwidth)[i] == lrows[i] + rrows[j]
    ensures forall i :: 0 <= i < |lrows| && NoMatch(lrows[i][lk], rrows, rk) ==>
      JoinRows(lrows, lk, rrows, rk, rwidth)[i] == lrows[i] + NullRow(rwidth)
  {
    UniqueKeysLength(lrows, lk, rrows, rk, rwidth);
    forall i, j | 0 <= i < |lrows| && 0 <= j < |rrows| && rrows[j][rk] == lrows[i][lk]
      ensures JoinRows(lrows, lk, rrows, rk, rwidth)[i] == lrows[i] + rrows[j]
    {
      UniqueKeysMatchedRow(lrows, lk, rrows, rk, rwidth, i, j);
    }
    forall i | 0 <= i < |lrows| && NoMatch(lrows[i][lk], rrows, rk)
      ensures JoinRows(lrows, lk, rrows, rk, rwidth)[i] == lrows[i] + NullRow(rwidth)
    {
      UniqueKeysUnmatchedRow(lrows, lk, rrows, rk, rwidth, i);
    }
  }

  /** With unique right keys the join has one row per left row. */
  lemma {:induction false} UniqueKeysLength(lrows: seq<seq<Cell>>, lk: nat, rrows: seq<seq<Cell>>, rk: nat, rwidth: nat)
    requires KeyedBy(lrows, lk) && KeyedBy(rrows, rk) && UniqueKeys(rrows, rk)
    ensures |JoinRows(lrows, lk, rrows, rk, rwidth)| == |lrows|
  {
    if lrows != [] {
      UniqueKeysLength(lrows[1..], lk, rrows, rk, rwidth);
      UniqueBlock(lrows[0], lk, rrows, rk, rwidth);
    }
  }

  /** With unique right keys, output row `i` is the one row produced by left row `i`. */
  lemma {:induction false} UniqueKeysRow(lrows: seq<seq<Cell>>, lk: nat, rrows: seq<seq<Cell>>, rk: nat, rwidth: nat, i: nat)
    requires KeyedBy(lrows, lk) && KeyedBy(rrows, rk) && UniqueKeys(rrows, rk)
    requires i < |lrows|
    ensures |JoinRows(lrows, lk, rrows, rk, rwidth)| == |lrows|
    ensures JoinRows(lrows, lk, rrows, rk, rwidth)[i] == Block(lrows[i], lk, rrows, rk, rwidth)[0]
    decreases i
  {
    UniqueKeysLength(lrows, lk, rrows, rk, rwidth);
    UniqueBlock(lrows[0], lk, rrows, rk, rwidth);
    var tl := lrows[1..];
    var b, t := Block(lrows[0], lk, rrows, rk, rwidth), JoinRows(tl, lk, rrows, rk, rwidth);
    assert JoinRows(lrows, lk, rrows, rk, rwidth) == b + t;
    SingleHead(b, t, i);
    if i > 0 {
      UniqueKeysRow(tl, lk, rrows, rk, rwidth, i - 1);
      assert tl[i - 1] == lrows[i];
    }
  }

  /** Indexing past a one-element head. */
  lemma SingleHead<T>(b: seq<T>, t: seq<T>, i: nat)
    requires |b| == 1 && i < 1 + |t|
    ensures (b + t)[i] == if i == 0 then b[0] else t[i - 1]
  {
  }

  /** With unique right keys a left row produces one output row. */
  lemma UniqueBlock(lrow: seq<Cell>, lk: nat, rrows: seq<seq<Cell>>, rk: nat, rwidth: nat)
    requires lk < |lrow| && KeyedBy(rrows, rk) && UniqueKeys(rrows, rk)
    ensures |Block(lrow, lk, rrows, rk, rwidth)| == 1
    ensures forall j :: 0 <= j < |rrows| && rrows[j][rk] == lrow[lk] ==>
      Block(lrow, lk, rrows, rk, rwidth)[0] == lrow + rrows[j]
    ensures NoMatch(lrow[lk], rrows, rk) ==> Block(lrow, lk, rrows, rk, rwidth)[0] == lrow + NullRow(rwidth)
  {
    var key := lrow[lk];
    if NoMatch(key, rrows, rk) {
      NoOtherMatch(rrows, rk, key);
    } else {
      var j :| 0 <= j < |rrows| && rrows[j][rk] == key;
      UniqueMatches(rrows, rk, key, j);
    }
  }
  /** One row of a join on unique keys whose key matches right row `j`. */
  lemma UniqueKeysMatchedRow(lrows: seq<seq<Cell>>, lk: nat, rrows: seq<seq<Cell>>, rk: nat, rwidth: nat, i: nat, j: nat)
    requires KeyedBy(lrows, lk) && KeyedBy(rrows, rk) && UniqueKeys(rrows, rk)
    requires i < |lrows| && j < |rrows| && rrows[j][rk] == lrows[i][lk]
    ensures |JoinRows(lrows, lk, rrows, rk, rwidth)| == |lrows|
    ensures JoinRows(lrows, lk, rrows, rk, rwidth)[i] == lrows[i] + rrows[j]
  {
    UniqueKeysRow(lrows, lk, rrows, rk, rwidth, i);
    UniqueBlock(lrows[i], lk, rrows, rk, rwidth);
  }

  /** One row of a join on unique keys whose key matches no right row. */
  lemma UniqueKeysUnmatchedRow(lrows: seq<seq<Cell>>, lk: nat, rrows: seq<seq<Cell>>, rk: nat, rwidth: nat, i: nat)
    requires KeyedBy(lrows, lk) && KeyedBy(rrows, rk) && UniqueKeys(rrows, rk)
    requires i < |lrows| && NoMatch(lrows[i][lk], rrows, rk)
    ensures |JoinRows(lrows, lk, rrows, rk, rwidth)| == |lrows|
    ensures JoinRows(lrows, lk, rrows, rk, rwidth)[i] == lrows[i] + NullRow(rwidth)
  {
    UniqueKeysRow(lrows, lk, rrows, rk, rwidth, i);
    UniqueBlock(lrows[i], lk, rrows, rk, rwidth);
  }

}

=== FILE: schema.dfy ===
/**
 * The upload rules both mapping pages share: the required column sets, the
 * column check (laboratories first, then products), the renaming applied
 * after the merge and the placeholder written where no company was found.
 */
module Schema {
  import opened Wrappers
  import opened Frame
  import opened Merge

  /** Columns the laboratories file must have: identifier, name, company reference. */
  const LabColumns: set<string> := {"ID", "Nom", "Enterprises"}

  /** Columns the products file must have: identifier, laboratory reference, company. */
  const ProductColumns: set<string> := {"ID", "Labos", "Entreprises"}

  /** The laboratories file in its required column order. */
  const LabLayout: seq<string> := ["ID", "Nom", "Enterprises"]

  /** The products file in its required column order. */
  const ProductLayout: seq<string> := ["ID", "Labos", "Entreprises"]

  /** The text shown for a product whose company could not be found. */
  const Sentinel: string := "Non assign\U{E9}e"

  /** The reasons a mapping stops without a result. */
  datatype MappingError =
    | LabColumnsMissing      // the laboratories file lacks a required column
    | ProductColumnsMissing  // the products file lacks a required column
    | MappingFailure         // pandas raised while merging or filling

  /** The relabelling applied after the merge; any other label is kept. */
  function Rename(name: string): (r: string)
    ensures name == "Nom" ==> r == "Nom Laboratoire"
    ensures name == "Enterprises" ==> r == "Entreprise ID"
    ensures name != "Nom" && name != "Enterprises" ==> r == name
  {
    if name == "Nom" then "Nom Laboratoire"
    else if name == "Enterprises" then "Entreprise ID"
    else name
  }

  /**
   * The labels of a left merge of products with laboratories, the labels both
   * uploads carry suffixed with `prodSuffix` and `labSuffix`, after renaming.
   */
  function MergedLabels(labCols: seq<string>, prodCols: seq<string>, prodSuffix: string, labSuffix: string): (r: seq<string>)
    ensures |r| == |prodCols| + |labCols|
  {
    var mc := Suffixed(prodCols, labCols, prodSuffix) + Suffixed(labCols, prodCols, labSuffix);
    seq(|mc|, k requires 0 <= k < |mc| => Rename(mc[k]))
  }

  /**
   * After renaming no column is labelled `Nom` or `Enterprises`, and every
   * other label is still there.
   */
  lemma RenamedLabels(t: Table)
    ensures "Nom" !in RenameColumns(t, Rename).columns
    ensures "Enterprises" !in RenameColumns(t, Rename).columns
    ensures forall c :: c in t.columns && c != "Nom" && c != "Enterprises" ==> c in RenameColumns(t, Rename).columns
  {
    var rc := RenameColumns(t, Rename).columns;
    forall k | 0 <= k < |rc| ensures rc[k] != "Nom" && rc[k] != "Enterprises" {
      assert rc[k] == Rename(t.columns[k]);
    }
    forall c | c in t.columns && c != "Nom" && c != "Enterprises" ensures c in rc {
      var k :| 0 <= k < |t.columns| && t.columns[k] == c;
      assert rc[k] == c;
    }
  }

  /** After renaming a column is labelled `Entreprise ID` exactly when one was labelled `Enterprises` or `Entreprise ID`. */
  lemma RenamedCompany(t: Table)
    ensures "Entreprise ID" in RenameColumns(t, Rename).columns <==>
      "Enterprises" in t.columns || "Entreprise ID" in t.columns
  {
    var rc := RenameColumns(t, Rename).columns;
    if "Entreprise ID" in rc {
      var k :| 0 <= k < |rc| && rc[k] == "Entreprise ID";
      assert Rename(t.columns[k]) == "Entreprise ID";
    }
    if "Enterprises" in t.columns || "Entreprise ID" in t.columns {
      var k :| 0 <= k < |t.columns| && (t.columns[k] == "Enterprises" || t.columns[k] == "Entreprise ID");
      assert rc[k] == "Entreprise ID";
    }
  }

  /**
   * Both uploads with trimmed labels, accepted only when each has its required
   * columns; the laboratories file is checked first, so when both are
   * incomplete only the laboratories error is reported.
   */
  function Validate(labs: Table, prods: Table): (r: Result<(Table, Table), MappingError>)
    ensures r == Failure(LabColumnsMissing) <==> !HasColumns(StripColumns(labs), LabColumns)
    ensures r == Failure(ProductColumnsMissing) <==>
      HasColumns(StripColumns(labs), LabColumns) && !HasColumns(StripColumns(prods), ProductColumns)
    ensures r.Failure? ==> r.error != MappingFailure
    ensures r.Success? ==> r.value == (StripColumns(labs), StripColumns(prods))
  {
    var l := StripColumns(labs);
    var p := StripColumns(prods);
    if !HasColumns(l, LabColumns) then Failure(LabColumnsMissing)
    else if !HasColumns(p, ProductColumns) then Failure(ProductColumnsMissing)
    else Success((l, p))
  }

  /** A required label surrounded by whitespace in the upload still satisfies the check. */
  lemma PaddedLabelsAccepted(t: Table, a: string, b: string, c: string)
    requires AllSpace(a) && AllSpace(b)
    requires c in LabColumns || c in ProductColumns
    requires a + c + b in t.columns
    ensures c in StripColumns(t).columns
  {
    var k :| 0 <= k < |t.columns| && t.columns[k] == a + c + b;
    StripPadded(a, c, b);
  }

  /** The laboratories labels the upload instructions name, in capitals. */
  const InstructedLabLayout: seq<string> := ["ID", "NOM", "ENTREPRISES"]

  /** The products labels the upload instructions name, in capitals. */
  const InstructedProductLayout: seq<string> := ["ID", "LABOS", "ENTREPRISES"]

  /**
   * The check compares labels exactly, so files labelled as the instructions
   * say are refused: the laboratories file lacks `Nom` and `Enterprises`, and
   * the products file lacks `Labos` and `Entreprises`.
   */
  lemma InstructedLayoutRejected(labs: Table, prods: Table)
    requires StripColumns(labs).columns == InstructedLabLayout
    ensures Validate(labs, prods) == Failure(LabColumnsMissing)
    ensures StripColumns(prods).columns == InstructedProductLayout ==> !HasColumns(StripColumns(prods), ProductColumns)
  {
    InstructedLabelsLack();
    var l := StripColumns(labs);
    assert !HasColumns(l, LabColumns) by {
      assert "Nom" in LabColumns && "Nom" !in l.columns;
    }
  }

  /** The capitalised labels lack the mixed-case `Nom` and `Labos` the check wants. */
  lemma InstructedLabelsLack()
    ensures "Nom" !in InstructedLabLayout && "Labos" !in InstructedProductLayout
  {
    assert "Nom"[1] != "NOM"[1];
    assert "Labos"[1] != "LABOS"[1];
  }
}

=== FILE: session.dfy ===
/**
 * Streamlit's per-connection `st.session_state`: a store of named values that
 * survives reruns of the page scripts.
 */
module Session {
  import opened Wrappers

  /** The values the pages keep in the store. */
  datatype Value = Flag(b: bool) | Text(s: string) | NoValue

  type Store = map<string, Value>

  /** Python truthiness of a stored value. */
  predicate Truthy(v: Value) {
    match v
    case Flag(b) => b
    case Text(s) => s != []
    case NoValue => false
  }

  /** `"authenticated" in st.session_state and st.session_state["authenticated"]`. */
  predicate IsAuthenticated(st: Store) {
    "authenticated" in st && Truthy(st["authenticated"])
  }

  /** A Python `str` or `None`, as stored. */
  function FromOption(o: Option<string>): (r: Value)
    ensures o.None? <==> r == NoValue
    ensures o.Some? ==> r == Text(o.value)
  {
    match o
    case None => NoValue
    case Some(s) => Text(s)
  }

  /** `after` differs from `before` at most under `keys`, and has all of them. */
  ghost predicate ChangesOnly(before: Store, after: Store, keys: set<string>) {
    && after.Keys == before.Keys + keys
    && forall k :: k in before && k !in keys ==> after[k] == before[k]
  }
}

=== FILE: utf8.dfy ===
/**
 * UTF-8, the byte encoding applied to the exported CSV text (`.encode('utf-8')`).
 * The strict decoder is the reader's side of the export and is used to state
 * that the download can be read back exactly.
 */
module Utf8 {
  import opened Wrappers

  /** One octet of encoded output. */
  type Byte = b: int | 0 <= b < 256

  /** A continuation byte has the bit pattern 10xxxxxx. */
  predicate IsContinuation(b: Byte) {
    0x80 <= b < 0xC0
  }

  /** The UTF-8 encoding of one Unicode scalar value (section 3 of RFC 3629). */
  function EncodeChar(c: char): (r: seq<Byte>)
    ensures 1 <= |r| <= 4
    ensures |r| == 1 <==> (c as int) < 0x80
    ensures |r| == 1 ==> r[0] == c as int
    ensures |r| > 1 ==> 0xC2 <= r[0] < 0xF5
    ensures forall k :: 1 <= k < |r| ==> IsContinuation(r[k])
  {
    var n := c as int;
    if n < 0x80 then [n]
    else if n < 0x800 then [0xC0 + n / 64, 0x80 + n % 64]
    else if n < 0x10000 then [0xE0 + n / 4096, 0x80 + (n / 64) % 64, 0x80 + n % 64]
    else [0xF0 + n / 262144, 0x80 + (n / 4096) % 64, 0x80 + (n / 64) % 64, 0x80 + n % 64]
  }

  /** The UTF-8 encoding of a string: the encodings of its characters, in order. */
  function Encode(s: string): (r: seq<Byte>)
    ensures |s| <= |r| <= 4 * |s|
  {
    if s == [] then [] else EncodeChar(s[0]) + Encode(s[1..])
  }

  /**
   * Reads one character from the front of `b`, returning it with the number of
   * bytes it used; fails on a truncated sequence, an overlong form, a surrogate
   * or a value beyond U+10FFFF, as a strict decoder does.
   */
  function DecodeChar(b: seq<Byte>): (r: Option<(char, nat)>)
    ensures r.Some? ==> 1 <= r.value.1 <= |b| && r.value.1 <= 4
  {
    if |b| == 0 then None
    else
      var b0: int := b[0];
      if b0 < 0x80 then Some((b0 as char, 1))
      else if 0xC2 <= b0 < 0xE0 then
        if |b| >= 2 && IsContinuation(b[1]) then
          var b1: int := b[1];
          Some((((b0 - 0xC0) * 64 + (b1 - 0x80)) as char, 2))
        else None
      else if 0xE0 <= b0 < 0xF0 then
        if |b| >= 3 && IsContinuation(b[1]) && IsContinuation(b[2]) then
          var b1: int, b2: int := b[1], b[2];
          var n := (b0 - 0xE0) * 4096 + (b1 - 0x80) * 64 + (b2 - 0x80);
          if n < 0x800 || (0xD800 <= n < 0xE000) then None else Some((n as char, 3))
        else None
      else if 0xF0 <= b0 < 0xF5 then
        if |b| >= 4 && IsContinuation(b[1]) && IsContinuation(b[2]) && IsContinuation(b[3]) then
          var b1: int, b2: int, b3: int := b[1], b[2], b[3];
          var n := (b0 - 0xF0) * 262144 + (b1 - 0x80) * 4096 + (b2 - 0x80) * 64 + (b3 - 0x80);
          if n < 0x10000 || n >= 0x110000 then None else Some((n as char, 4))
        else None
      else None
  }

  /** Strict decoding of a whole byte sequence; `None` when any part is malformed. */
  function Decode(b: seq<Byte>): (r: Option<string>)
    ensures r.Some? ==> |r.value| <= |b|
    decreases |b|
  {
    if b == [] then Some([])
    else
      match DecodeChar(b)
      case None => None
      case Some((c, k)) =>
        match Decode(b[k..])
        case None => None
        case Some(s) => Some([c] + s)
  }

  /** The base-64 digits the multi-byte forms are built from. */
  lemma Base64Digits(n: nat)
    ensures n / 4096 == (n / 64) / 64
    ensures n / 262144 == (n / 4096) / 64
    ensures n == (n / 64) * 64 + n % 64
    ensures n / 64 == (n / 4096) * 64 + (n / 64) % 64
    ensures n / 4096 == (n / 262144) * 64 + (n / 4096) % 64
  {
    var a := n / 64;
    var r := n % 64;
    assert n == a * 64 + r;
    var a2 := a / 64;
    var m := a % 64;
    assert a == a2 * 64 + m;
    assert n == a2 * 4096 + (m * 64 + r);
    assert 0 <= m * 64 + r < 4096;
    assert n / 4096 == a2;
    var a3 := a2 / 64;
    var m2 := a2 % 64;
    assert a2 == a3 * 64 + m2;
    assert n == a3 * 262144 + (m2 * 4096 + m * 64 + r);
    assert 0 <= m2 * 4096 + m * 64 + r < 262144;
    assert n / 262144 == a3;
  }

  /** Decoding the front of an encoded character gives the character back. */
  lemma DecodeEncodeChar(c: char, rest: seq<Byte>)
    ensures DecodeChar(EncodeChar(c) + rest) == Some((c, |EncodeChar(c)|))
  {
    var n := c as int;
    var b := EncodeChar(c) + rest;
    if n < 0x80 {
      assert b[0] == n;
    } else if n < 0x800 {
      Base64Digits(n);
      assert b[0] == 0xC0 + n / 64 && b[1] == 0x80 + n % 64;
    } else if n < 0x10000 {
      DecodeThree(c, rest);
    } else {
      DecodeFour(c, rest);
    }
  }

  /** A character of three encoded bytes decodes back from them. */
  lemma DecodeThree(c: char, rest: seq<Byte>)
    requires 0x800 <= c as int < 0x10000
    ensures DecodeChar(EncodeChar(c) + rest) == Some((c, 3))
  {
    var n := c as int;
    var b := EncodeChar(c) + rest;
    Base64Digits(n);
    assert b[0] == 0xE0 + n / 4096 && b[1] == 0x80 + (n / 64) % 64 && b[2] == 0x80 + n % 64;
    assert n == (n / 4096) * 4096 + ((n / 64) % 64) * 64 + n % 64;
  }

  /** A character of four encoded bytes decodes back from them. */
  lemma DecodeFour(c: char, rest: seq<Byte>)
    requires 0x10000 <= c as int
    ensures DecodeChar(EncodeChar(c) + rest) == Some((c, 4))
  {
    var n := c as int;
    var b := EncodeChar(c) + rest;
    Base64Digits(n);
    assert b[0] == 0xF0 + n / 262144 && b[1] == 0x80 + (n / 4096) % 64;
    assert b[2] == 0x80 + (n / 64) % 64 && b[3] == 0x80 + n % 64;
    assert n == (n / 262144) * 262144 + ((n / 4096) % 64) * 4096 + ((n / 64) % 64) * 64 + n % 64;
  }

  /** A decoded character is exactly what encoding it produces. */
  lemma EncodeDecodeChar(b: seq<Byte>)
    requires DecodeChar(b).Some?
    ensures EncodeChar(DecodeChar(b).value.0) == b[..DecodeChar(b).value.1]
  {
    var b0: int := b[0];
    if b0 < 0x80 {
      assert b[..1] == [b[0]];
    } else if b0 < 0xE0 {
      TwoBytes(b);
    } else if b0 < 0xF0 {
      ThreeBytes(b);
    } else {
      FourBytes(b);
    }
  }

  /** A two-byte form decodes to a character that encodes back to it. */
  lemma TwoBytes(b: seq<Byte>)
    requires |b| >= 2 && 0xC2 <= b[0] < 0xE0 && IsContinuation(b[1])
    ensures DecodeChar(b).Some? && DecodeChar(b).value.1 == 2
    ensures EncodeChar(DecodeChar(b).value.0) == b[..2]
  {
    TwoByteForm(b[0], b[1]);
    assert b[..2] == [b[0], b[1]];
  }

  /** A three-byte form decodes to a character that encodes back to it. */
  lemma ThreeBytes(b: seq<Byte>)
    requires DecodeChar(b).Some? && 0xE0 <= b[0] < 0xF0
    ensures DecodeChar(b).value.1 == 3
    ensures EncodeChar(DecodeChar(b).value.0) == b[..3]
  {
    ThreeByteForm(b[0], b[1], b[2]);
    assert b[..3] == [b[0], b[1], b[2]];
  }

  /** A four-byte form decodes to a character that encodes back to it. */
  lemma FourBytes(b: seq<Byte>)
    requires DecodeChar(b).Some? && 0xF0 <= b[0]
    ensures DecodeChar(b).value.1 == 4
    ensures EncodeChar(DecodeChar(b).value.0) == b[..4]
  {
    FourByteForm(b[0], b[1], b[2], b[3]);
    assert b[..4] == [b[0], b[1], b[2], b[3]];
  }

  /** Splitting `n` into a quotient and a remainder by 64. */
  lemma DivideBy64(n: int, q: int, r: int)
    requires 0 <= r < 64 && n == q * 64 + r
    ensures n / 64 == q && n % 64 == r
  {
  }

  /** The value a well-formed two-byte form carries re-encodes to those bytes. */
  lemma TwoByteForm(b0: int, b1: int)
    requires 0xC2 <= b0 < 0xE0 && 0x80 <= b1 < 0xC0
    ensures var n := (b0 - 0xC0) * 64 + (b1 - 0x80);
      0x80 <= n < 0x800 && n / 64 == b0 - 0xC0 && n % 64 == b1 - 0x80
  {
    DivideBy64((b0 - 0xC0) * 64 + (b1 - 0x80), b0 - 0xC0, b1 - 0x80);
  }

  /** The value a well-formed three-byte form carries splits back into its bytes. */
  lemma ThreeByteForm(b0: int, b1: int, b2: int)
    requires 0xE0 <= b0 < 0xF0 && 0x80 <= b1 < 0xC0 && 0x80 <= b2 < 0xC0
    ensures var n := (b0 - 0xE0) * 4096 + (b1 - 0x80) * 64 + (b2 - 0x80);
      && n < 0x10000
      && n / 4096 == b0 - 0xE0 && (n / 64) % 64 == b1 - 0x80 && n % 64 == b2 - 0x80
  {
    var hi := (b0 - 0xE0) * 64 + (b1 - 0x80);
    var n := hi * 64 + (b2 - 0x80);
    DivideBy64(n, hi, b2 - 0x80);
    DivideBy64(hi, b0 - 0xE0, b1 - 0x80);
    Base64Digits(n);
  }

  /** The value a well-formed four-byte form carries splits back into its bytes. */
  lemma FourByteForm(b0: int, b1: int, b2: int, b3: int)
    requires 0xF0 <= b0 < 0xF5 && 0x80 <= b1 < 0xC0 && 0x80 <= b2 < 0xC0 && 0x80 <= b3 < 0xC0
    ensures var n := (b0 - 0xF0) * 262144 + (b1 - 0x80) * 4096 + (b2 - 0x80) * 64 + (b3 - 0x80);
      && n / 262144 == b0 - 0xF0 && (n / 4096) % 64 == b1 - 0x80
      && (n / 64) % 64 == b2 - 0x80 && n % 64 == b3 - 0x80
  {
    var top := (b0 - 0xF0) * 64 + (b1 - 0x80);
    var hi := top * 64 + (b2 - 0x80);
    var n := hi * 64 + (b3 - 0x80);
    DivideBy64(n, hi, b3 - 0x80);
    DivideBy64(hi, top, b2 - 0x80);
    DivideBy64(top, b0 - 0xF0, b1 - 0x80);
    Base64Digits(n);
  }

  /** Round trip: the strict decoder reads back every encoded string. */
  lemma {:induction false} DecodeEncode(s: string)
    ensures Decode(Encode(s)) == Some(s)
  {
    if s != [] {
      var e := EncodeChar(s[0]);
      DecodeEncodeChar(s[0], Encode(s[1..]));
      assert (e + Encode(s[1..]))[|e|..] == Encode(s[1..]);
      DecodeEncode(s[1..]);
      assert [s[0]] + s[1..] == s;
    }
  }

  /** Conversely, any byte sequence the decoder accepts is the encoding of what it decoded to. */
  lemma {:induction false} EncodeDecode(b: seq<Byte>)
    requires Decode(b).Some?
    ensures Encode(Decode(b).value) == b
    decreases |b|
  {
    if b != [] {
      var (c, k) := DecodeChar(b).value;
      EncodeDecodeChar(b);
      EncodeDecode(b[k..]);
      var s := Decode(b[k..]).value;
      assert Decode(b).value == [c] + s;
      assert ([c] + s)[1..] == s;
      assert b[..k] + b[k..] == b;
    }
  }
}

=== FILE: wrappers.dfy ===
/** Failure-carrying return values shared by every module of the model. */
module Wrappers {

  /** A value that may be absent; Python's `None` is `None` here. */
  datatype Option<+T> = None | Some(value: T)

  /** Either a value or the error that stopped the computation. */
  datatype Result<+T, +E> = Success(value: T) | Failure(error: E)
}
